=== FILE: README.md ===
# A verified model of a multiplayer game lobby and its games

This project is a Dafny model of a small multiplayer system. It covers the rule-bearing code of the lobby and its games:
- a lobby that manages accounts, rooms with invites and chat, and a game catalog with uploads checked by a manifest validator;
- a real-time two-player Tetris match server;
- three variants of a Battleship turn server;
- the Battleship client's board logic;
- three copies of a length-prefixed socket framing codec.

Sockets, threads and the clock are abstracted away. Each component becomes immutable datatypes plus pure transition functions that return `(new state, reply)`. A few loops stay as methods with loop invariants.

The modules follow the program's structure:

| file | module | models |
|---|---|---|
| bytes.dfy | `Bytes` | 4-byte big-endian headers and the receive-exactly-n loop shared by the codecs |
| server_protocol.dfy | `ServerProtocol` | the lobby server's framing: 64 KiB bound, zero and oversize lengths refused |
| tetris_proto.dfy | `TetrisProto` | the game's `FramedSocket`: type check, 64 KiB bound, the header and the payload as separate writes |
| client_protocol.dfy | `ClientProtocol` | the player client's framing, with no length bound |
| rooms.dfy | `Rooms` | `RoomManager`: create, join, invite, accept, revoke, chat, start, list |
| accounts.dfy | `Accounts` | `AccountManager` over its in-memory maps: register, login, logout, online users |
| catalog.dfy | `Catalog` | `StoreManager`: id allocation, lookup, register, version update, owner-only removal |
| manifest.dfy | `Manifest` | `validate_game_manifest` over an abstract JSON value |
| tetris_board.dfy | `TetrisBoard` | the 10x20 board, piece cells, collision, locking and row clearing |
| tetris_player.dfy | `TetrisPlayer` | `PlayerState` and the engine: spawn, move, rotate, tick, hard drop, lock and score, flash charges, power piece, hold, flash |
| tetris_match.dfy | `TetrisMatch` | the match: start, the input loop's actions and freeze rule, the tick loop, winners and losers |
| battle.dfy | `Battle` | shared Battleship rules: fleet and symbols, cell resolution, sunk predicates, HELLO-filtered seating |
| battle_ring.dfy | `BattleRing` | the N-player ring server: seating of up to 8, the live list, cursor, REPEAT on bad input, first ship sunk wins |
| battle_duel.dfy | `DevBattle` | the developer's two-player server: A/B seating, no bounds check, first ship sunk wins |
| battle_classic.dfy | `StoredBattle` | the stored two-player server: INVALID off-board shots, all ships sunk wins |
| battle_client.dfy | `BattleClient` | `parse_coord`, `can_place`, `place_ship`, `auto_place_ships`, and the RESULT and INCOMING marks |

Parameters stand in for what the model cannot see or run:
- **The Tetris shape table** is a function `(piece, rotation) -> offsets`.
- **The piece stream** (7-bag plus power-up conversion) is a function from draw number to piece.
- **The power piece's 50% freeze roll** is a boolean argument.
- **The time** is a `real` argument.
- **The game launcher** is a function from room to `Launched(port)` or `LaunchFailed(err)`.
- **Battleship random placement** is a finite sequence of draws.
- **Connections** are sequences of what arrives on them.

## Model

| member | source | states |
|---|---|---|
| Bytes.FromToBigEndian | server/utils/protocol.py:12-18 | decoding the k big-endian bytes of n gives back n, for every n below 256^k |
| Bytes.ToFromBigEndian | server/utils/protocol.py:43-44 | re-encoding a decoded header gives back the same bytes, so the header encoding is a bijection |
| Bytes.Be32 | server/utils/protocol.py:17 | the header of a length is 4 bytes that decode back to that length |
| Bytes.Be32Inverse | server/utils/protocol.py:43-44 | every 4-byte header decodes below 2^32 and is the header of its value |
| Bytes.ReadExact | server/utils/protocol.py:21-31 | reading n bytes succeeds exactly when the stream holds n bytes, and splits it into those n bytes and the rest |
| Bytes.RecvAll | server/utils/protocol.py:21-31 | the chunked recv loop yields exactly ReadExact, whatever chunk sizes the socket returns, in at most n successful calls |
| ServerProtocol.Send | server/utils/protocol.py:8-18 | payloads above 65536 bytes are refused; otherwise the wire carries a 4-byte header and then the payload |
| ServerProtocol.Recv | server/utils/protocol.py:34-54 | a short header or short body closes; a declared length of 0 or above 65536 is an error; otherwise exactly that many bytes are taken and the rest is left |
| ServerProtocol.RoundTrip | server/utils/protocol.py:8-54 | a 1..65536-byte payload sent and received comes back unchanged, and the bytes after it stay for the next frame |
| ServerProtocol.EmptyFrameRefused | server/utils/protocol.py:44-45 | an empty payload is sent but refused by the receiver |
| TetrisProto.SendRaw | games/Tetris/server/proto.py:27-35 | non-bytes are a type error and frames above 65536 bytes are refused; otherwise the header is written, then the payload only when it is non-empty |
| TetrisProto.RecvN | games/Tetris/server/proto.py:18-25 | exactly n bytes, or a connection error when the stream ends first |
| TetrisProto.RecvRaw | games/Tetris/server/proto.py:37-42 | lengths of 0 or above 65536 are refused; otherwise exactly the declared bytes are returned |
| TetrisProto.RoundTrip | games/Tetris/server/proto.py:27-42 | a 1..65536-byte frame survives the trip and leaves the rest of the stream untouched |
| TetrisProto.EmptyFrameRefused | games/Tetris/server/proto.py:34-41 | a zero-length frame can be sent but not received |
| ClientProtocol.Send | player_client/utils/protocol.py:7-10 | any payload below 2^32 bytes goes out as its 4-byte length and then the payload, with no further bound |
| ClientProtocol.Recv | player_client/utils/protocol.py:23-31 | None exactly on a short header or body; any declared length is accepted |
| ClientProtocol.RoundTrip | player_client/utils/protocol.py:7-31 | every payload below 2^32 bytes round-trips, the empty one included |
| ClientProtocol.ServerToClient | player_client/utils/protocol.py:9-27 | the server's frames are byte-identical to the client's and the client receives them unchanged |
| ClientProtocol.ClientToServer | player_client/utils/protocol.py:9-10 | a client frame within the server's 1..65536 window is received by the server unchanged |
| Rooms.EmptyValid | server/room_manager.py:22-27 | a fresh manager has no rooms and the invariant holds: ids are below the next id, and each room is filed under its own id |
| Rooms.AttachLauncher | server/room_manager.py:29-30 | attaching the launcher changes nothing but the launcher's presence |
| Rooms.CreateRoom | server/room_manager.py:35-43 | the new room gets the next id, which was not in use; the host is its only player; it is waiting, with no port and no chat; nothing else changes |
| Rooms.CreateAllocatesFreshIds | server/room_manager.py:35-43 | consecutive creations get consecutive ids, and the earlier room survives the later creation |
| Rooms.JoinRoom | server/room_manager.py:48-66 | the errors come in the code's order: missing room, not waiting, full at `max_players or 2`, private room and not the host; success is exactly the absence of all four and appends the user, duplicates included; a failure changes nothing |
| Rooms.InviteUser | server/room_manager.py:71-82 | succeeds iff the room exists, the caller hosts it, it is private and the target is not in it; it adds the target to that room's invites only |
| Rooms.AcceptInvite | server/room_manager.py:99-112 | succeeds iff an invite is pending, the room is waiting and it has space; then the user joins and only that invite is consumed, with the next id and the launcher kept; on failure nothing changes |
| Rooms.RevokeInvite | server/room_manager.py:135-144 | succeeds iff the caller hosts the room and the invite exists; it removes exactly that invite and changes no room, the next id or the launcher |
| Rooms.Newest | server/room_manager.py:124-125 | keeps the newest 200 entries, as a suffix of the log |
| Rooms.SendChat | server/room_manager.py:114-127 | only a player in the room may post; the entry is appended and the log is cut to its newest 200; no other room, invite, the next id or the launcher changes |
| Rooms.StartGame | server/room_manager.py:149-166 | fails for a missing room, fewer than two players or no launcher, and passes launcher errors through unchanged; on success only that room changes, running on the launcher's port; the caller and the status are not checked |
| Rooms.ListFrom | server/room_manager.py:169-181 | only rooms of the id window are listed, each by its own summary, in strictly ascending id order |
| Rooms.ListFromCovers | server/room_manager.py:169-181 | every room whose id lies in the window appears in the listing |
| Rooms.ListRooms | server/room_manager.py:169-181 | one summary per room, each matching its room, in ascending id order, covering every room |
| Rooms.ListedIdsAreRoomKeys | server/room_manager.py:169-181 | a strictly ascending listing that covers the room ids has exactly one entry per room |
| Rooms.JoinKeepsCapacity | server/room_manager.py:57-58 | a room within its capacity stays within it after any join |
| Rooms.AcceptKeepsCapacity | server/room_manager.py:107-109 | a room within its capacity stays within it after any accepted invite |
| Rooms.Apply | server/room_manager.py:35-166 | every registry operation keeps the id invariant |
| Rooms.Run | server/room_manager.py:35-166 | any sequence of operations keeps the id invariant |
| Rooms.RunKeepsCapacity | server/room_manager.py:35-112 | over any sequence of operations, no room ever holds more players than its capacity, provided rooms are created with a non-negative capacity |
| Rooms.PrivateJoinOnlyHost | server/room_manager.py:60-62 | a non-host can never join a private room directly |
| Rooms.StartIgnoresStatus | server/room_manager.py:149-166 | a room that is already running is launched again |
| Rooms.StartFailureLeavesRoom | server/room_manager.py:154-162 | a failed start leaves the registry as it was |
| Accounts.SetStore | server/account_manager.py:43-47 | writing back the store a role selects is read back unchanged, and leaves the other store and the online table untouched |
| Accounts.Register | server/account_manager.py:51-67 | errors in order: invalid role, then name taken, then empty name or password; success adds exactly that entry to that role's store, and the other store is untouched |
| Accounts.Login | server/account_manager.py:69-86 | errors in order: invalid role, unknown user, wrong password, already online; success adds exactly that user with that role to the online table |
| Accounts.Without | server/account_manager.py:88-89 | the online table without the user, all other sessions kept |
| Accounts.WithoutAppend | server/account_manager.py:88-89 | removing a user distributes over concatenation, so the remaining sessions keep their login order |
| Accounts.LogoutKeepsOrder | server/account_manager.py:88-89 | any two sessions that survive a logout appear in the same relative order afterwards, as dict.pop keeps the order of the other keys |
| Accounts.Logout | server/account_manager.py:88-89 | the user is offline afterwards; every other user's online state and the stores are unchanged |
| Accounts.LogoutIdempotent | server/account_manager.py:88-89 | logging out twice is the same as logging out once |
| Accounts.WithoutOfAbsent | server/account_manager.py:88-89 | logging out a user who is not online changes nothing |
| Accounts.WithoutKeepsDistinct | server/account_manager.py:88-89 | logout keeps every user online at most once |
| Accounts.OnlineUsers | server/account_manager.py:94-97 | exactly the online users, with the given role or with any role when none is given; with no role, all of them in login order; never a user twice |
| Accounts.UsersWith | server/account_manager.py:94-97 | the users of sessions that match the role filter; with no filter, every session's user in table order |
| Accounts.UsersWithAppend | server/account_manager.py:85-97 | a session added at the end of the table adds its user at the end of the listing exactly when it matches the filter |
| Accounts.UsersWithDistinct | server/account_manager.py:82-97 | when no user is online twice, no user is listed twice |
| Accounts.LoginThenLogout | server/account_manager.py:85-92 | after a successful login the user is online and listed last, for its role and for all roles; after a logout it is offline; no other user's online state changes |
| Accounts.SecondLoginRejected | server/account_manager.py:82-83 | a second login of an online user is refused and changes nothing, whatever role it names |
| Catalog.MaxId | server/store_manager.py:44 | the largest id present, or the default for an empty catalog |
| Catalog.Load | server/store_manager.py:42-44 | the next id is one past the largest present, or 1 when the catalog is empty |
| Catalog.FindGame | server/store_manager.py:48-49 | the first index holding that id, and None exactly when no entry has it |
| Catalog.RegisterGame | server/store_manager.py:56-78 | appends exactly one entry, under the next id, and then advances the next id |
| Catalog.RegisterKeepsIdsIncreasing | server/store_manager.py:56-78 | ids stay unique and strictly increasing in catalog order |
| Catalog.UpdateVersion | server/store_manager.py:80-87 | false for an unknown id; otherwise only the version and path of the first matching entry change |
| Catalog.Drop | server/store_manager.py:96 | the entries whose id differs from the given one |
| Catalog.DropIsOrderedFilter | server/store_manager.py:96 | the filter removes exactly the entries with that id, and removes nothing when no entry has it |
| Catalog.DropKeepsOrder | server/store_manager.py:96 | removal acts piecewise, so the survivors keep their order |
| Catalog.RemoveGame | server/store_manager.py:89-98 | succeeds only when the first entry with that id belongs to the developer; then the catalog is exactly the old list without the entries with that id, the rest in their order, and nothing else changes |
| Catalog.OccurrencesPositive | server/store_manager.py:89-98 | an id that appears is counted at least once |
| Manifest.Validate | server/utils/upload_utils.py:25-55 | a missing file and unparseable JSON are rejected as such; accepted iff the manifest has the required shape, and then it is returned unchanged |
| Manifest.MissingFieldRejected | server/utils/upload_utils.py:41-45 | a missing or falsy name, version or server is rejected |
| Manifest.CommandShapesAccepted | server/utils/upload_utils.py:47-55 | a truthy string or list start command, with the other fields present, is accepted |
| Manifest.OtherCommandTypesRejected | server/utils/upload_utils.py:52-53 | a truthy start command of any other type is rejected |
| TetrisBoard.EmptyBoard | server/game_storage/Tetris/1.0/server/game_server.py:19 | a 20x10 board of empty cells with no full row |
| TetrisBoard.CellsShift | server/game_storage/Tetris/1.0/server/game_server.py:58-62 | moving a placement by (dx, dy) moves every one of its cells by (dx, dy), keeping their number and order |
| TetrisBoard.PowerPieceIgnoresRotation | server/game_storage/Tetris/1.0/server/game_server.py:58-62 | the power piece covers the same cells in every rotation, those of the O piece at rotation 0 |
| TetrisBoard.PlacingNeverFrees | server/game_storage/Tetris/1.0/server/game_server.py:64-70 | a cell list that collides (some cell off the 10x20 board or on a block) still collides after any blocks are written into the board |
| TetrisBoard.Place | server/game_storage/Tetris/1.0/server/game_server.py:90-93 | the piece's cells get its letter; every other cell and every untouched row is unchanged |
| TetrisBoard.FullIdx | server/game_storage/Tetris/1.0/server/game_server.py:97-100 | the indices of exactly the full rows, ascending |
| TetrisBoard.KeptIdx | server/game_storage/Tetris/1.0/server/game_server.py:101-102 | the indices of exactly the non-full rows, ascending |
| TetrisBoard.RowsPartition | server/game_storage/Tetris/1.0/server/game_server.py:96-102 | every row is either cleared or kept |
| TetrisBoard.ClearRows | server/game_storage/Tetris/1.0/server/game_server.py:94-105 | the board stays 20x10 with no full row; the cleared indices are exactly the full rows, ascending; as many empty rows go on top as were cleared; below them the kept rows follow in their old order |
| TetrisBoard.ClearRowsWithoutFullRows | server/game_storage/Tetris/1.0/server/game_server.py:94-105 | a board without full rows is left unchanged and nothing is cleared |
| TetrisBoard.ClearedAtMostFour | server/game_storage/Tetris/1.0/server/game_server.py:105-107 | locking a piece that spans four rows into a board with no full row clears at most four rows, so the score table index is always valid |
| TetrisPlayer.NewPlayer | server/game_storage/Tetris/1.0/server/game_server.py:16-32 | a new player is alive, with an empty board, no piece, no score and no lines |
| TetrisPlayer.SpawnOnBoard | server/game_storage/Tetris/1.0/server/game_server.py:53 | every piece spawns inside the board |
| TetrisPlayer.FreeIsOnBoard | server/game_storage/Tetris/1.0/server/game_server.py:64-70 | a placement that does not collide lies on the board |
| TetrisPlayer.Refill | server/game_storage/Tetris/1.0/server/game_server.py:50-51 | the queue is topped up to three from the stream, keeping its old pieces in front, and only as many pieces are drawn as are missing |
| TetrisPlayer.Spawn | server/game_storage/Tetris/1.0/server/game_server.py:49-56 | the head of the refilled queue enters at (3, 0), rotation 0; hold is cleared; the player dies iff the spawn collides; nothing else changes |
| TetrisPlayer.LineScoreRewardsTogether | server/game_storage/Tetris/1.0/server/game_server.py:107 | clearing n rows at once scores more than clearing them one at a time |
| TetrisPlayer.GrantFlash | server/game_storage/Tetris/1.0/server/game_server.py:82-87 | the granted count becomes lines / 2 if that is larger, and charges grow by exactly the increase |
| TetrisPlayer.GrantFlashIdempotent | server/game_storage/Tetris/1.0/server/game_server.py:82-87 | granting again without new lines grants nothing |
| TetrisPlayer.Settle | server/game_storage/Tetris/1.0/server/game_server.py:89-105 | the locked board has no full row and at most four rows are cleared |
| TetrisPlayer.Credit | server/game_storage/Tetris/1.0/server/game_server.py:106-112 | lines grow by the rows cleared, the score by the table entry, and flash charges by exactly the increase of lines / 2, never paying twice |
| TetrisPlayer.Lock | server/game_storage/Tetris/1.0/server/game_server.py:89-117 | lock keeps the player's invariant; lines, score (+50 for the power piece) and flash charges grow as the rules say; the opponent changes only by the power freeze; hold is available again; the next piece spawns from the refilled queue, drawing only what is missing, and the player dies iff it collides with the locked board; a dead player stays dead |
| TetrisPlayer.LockKeepsTimers | server/game_storage/Tetris/1.0/server/game_server.py:89-117 | locking leaves the player's name, its own freeze and its hold and flash timestamps unchanged |
| TetrisPlayer.Move | server/game_storage/Tetris/1.0/server/game_server.py:139-145 | the piece shifts exactly when the target does not collide; otherwise nothing changes |
| TetrisPlayer.TryPlace | server/game_storage/Tetris/1.0/server/game_server.py:139-153 | the active piece goes to the target exactly when the target does not collide, and the player is otherwise unchanged; the invariants hold |
| TetrisPlayer.PowerPieceDoesNotTurn | server/game_storage/Tetris/1.0/server/game_server.py:147-153 | rotating the power piece leaves the player unchanged |
| TetrisPlayer.Rotate | server/game_storage/Tetris/1.0/server/game_server.py:147-153 | the piece turns exactly when the turned placement does not collide; otherwise nothing changes |
| TetrisPlayer.FourTurnsComeBack | server/game_storage/Tetris/1.0/server/game_server.py:147-153 | four unobstructed turns of an ordinary piece restore the player |
| TetrisPlayer.MoveThereAndBack | server/game_storage/Tetris/1.0/server/game_server.py:139-145 | a move right that went through is undone by a move left |
| TetrisPlayer.RoomBelow | server/game_storage/Tetris/1.0/server/game_server.py:169-170 | a free placement one row down means there is a row below, so the drop loop ends |
| TetrisPlayer.DropTo | server/game_storage/Tetris/1.0/server/game_server.py:165-172 | the drop stops at the first row whose next row collides, in the same column and rotation |
| TetrisPlayer.DropPathFree | server/game_storage/Tetris/1.0/server/game_server.py:169-170 | every row the drop passes through is free |
| TetrisPlayer.Tick | server/game_storage/Tetris/1.0/server/game_server.py:155-163 | the piece falls one row when that row is free and locks otherwise; the invariant is kept |
| TetrisPlayer.HardDrop | server/game_storage/Tetris/1.0/server/game_server.py:165-172 | the piece locks at the lowest row it reaches straight down; the invariant is kept |
| TetrisPlayer.HardDropLocksAtLanding | server/game_storage/Tetris/1.0/server/game_server.py:165-172 | after a hard drop the board is the landing placement written in with full rows cleared, and lines and score are credited for those rows |
| TetrisPlayer.TickAtLandingLocks | server/game_storage/Tetris/1.0/server/game_server.py:155-172 | a tick at the landing row does exactly what a hard drop does |
| TetrisPlayer.DoHold | server/game_storage/Tetris/1.0/server/game_server.py:119-137 | a no-op without a piece or after a hold; otherwise the piece is stored and the next spawns from the refilled queue, dying on a collision, or it swaps with the held piece at the spawn point, dying on a collision; hold is then used |
| TetrisPlayer.HoldOncePerSpawn | server/game_storage/Tetris/1.0/server/game_server.py:121-122 | a second hold before the next spawn does nothing |
| TetrisPlayer.FlashSpendsIffFreezes | server/game_storage/Tetris/1.0/server/game_server.py:341-348 | a flash spends a charge exactly when one is left and the opponent is no longer frozen; then only the charge count, the flash time and the opponent's freeze (now two seconds ahead) change; against a still-frozen opponent or with no charge nothing changes |
| TetrisPlayer.FlashDoesNotStack | server/game_storage/Tetris/1.0/server/game_server.py:341-348 | a second flash at the same instant spends nothing |
| TetrisMatch.EmptyBoardIsFree | server/game_storage/Tetris/1.0/server/game_server.py:53-56 | a placement on the board never collides with an empty board |
| TetrisMatch.Begin | server/game_storage/Tetris/1.0/server/game_server.py:283-288 | both players start alive with a piece; the first player spawns first from the shared stream |
| TetrisMatch.Act | server/game_storage/Tetris/1.0/server/game_server.py:319-351 | anything that raises in the loop (closed connection, timeout, bad frame, non-JSON or non-object message) kills the player; a frozen player's inputs are ignored; a well-formed object of another type or action does nothing; the opponent changes only by a freeze; the invariants hold |
| TetrisMatch.Apply | server/game_storage/Tetris/1.0/server/game_server.py:329-348 | an INPUT action of an unfrozen player: unknown actions do nothing, the opponent changes only by a freeze, the player keeps its name and never revives |
| TetrisMatch.Steer | server/game_storage/Tetris/1.0/server/game_server.py:331-336 | LEFT, RIGHT and ROTATE_CW touch only the player's own piece: name and liveness stay, and other actions change nothing |
| TetrisMatch.Input | server/game_storage/Tetris/1.0/server/game_server.py:319-351 | an input from either side keeps both players' invariants, revives no one, and touches the other side only by a freeze |
| TetrisMatch.FlashSilencesOpponent | server/game_storage/Tetris/1.0/server/game_server.py:326-348 | after a successful flash, every input the opponent sends within two seconds is ignored |
| TetrisMatch.TickIfAlive | server/game_storage/Tetris/1.0/server/game_server.py:399-402 | only a living player is ticked |
| TetrisMatch.TickRound | server/game_storage/Tetris/1.0/server/game_server.py:394-405 | a tick round keeps both invariants and revives no one; the match is over exactly when at most one player is alive |
| TetrisMatch.DeadPlayersAreNotTicked | server/game_storage/Tetris/1.0/server/game_server.py:399-402 | the tick loop no longer moves a dead player's piece: its board and score stay put under a tick round |
| TetrisMatch.DeadPlayerStillDrops | server/game_storage/Tetris/1.0/server/game_server.py:319-341 | the input loop does not check liveness: a dead, unfrozen player's hard drop still writes its piece into the board, clears rows and credits lines and score, and the player stays dead |
| TetrisMatch.NamesWith | server/game_storage/Tetris/1.0/server/game_server.py:452-453 | exactly the names of the players with the given alive flag |
| TetrisMatch.Results | server/game_storage/Tetris/1.0/server/game_server.py:452-453 | winners are the living players and losers the dead ones, each list in seating order; with distinct names, a player is a winner iff alive and a loser iff dead |
| TetrisMatch.ResultsPartition | server/game_storage/Tetris/1.0/server/game_server.py:452-453 | every player is exactly one of winner or loser |
| TetrisMatch.OverMeansOneWinnerAtMost | server/game_storage/Tetris/1.0/server/game_server.py:403-405 | a match the tick loop ends has at most one winner |
| Battle.ShipSymbolsAreFour | server/game_storage/Battleship/1.0/client/battleship_client.py:8-17 | Carrier and Cruiser share 'C', so there are four ship symbols |
| Battle.EmptyBoard | developer_client/games/Battleship/1.0/server/battleship_server.py:40-41 | a 10x10 board of water |
| Battle.SetCell | player_client/downloads/u2/Battleship/1.0/server/battleship_server.py:226-233 | exactly one cell changes |
| Battle.ShipSunk | player_client/downloads/u2/Battleship/1.0/server/battleship_server.py:46-51 | a symbol is sunk iff no cell holds it |
| Battle.AllShipsSunk | server/game_storage/Battleship/1.0/server/battleship_server.py:40-46 | all ships are sunk iff no cell holds a ship symbol |
| Battle.AllSunkMeansEachSunk | server/game_storage/Battleship/1.0/server/battleship_server.py:40-46 | all ships sunk implies each ship sunk |
| Battle.Resolve | player_client/downloads/u2/Battleship/1.0/server/battleship_server.py:222-234 | a ship cell gives HIT and becomes X; X or o gives REPEAT and changes nothing; anything else gives MISS and becomes o; no other cell changes |
| Battle.ResolveKeepsSunk | player_client/downloads/u2/Battleship/1.0/server/battleship_server.py:222-234 | a shot never brings back a sunk symbol |
| Battle.HitSinksIffLastCell | player_client/downloads/u2/Battleship/1.0/server/battleship_server.py:240-241 | a hit sinks its symbol iff it took that symbol's last cell |
| Battle.HelloUsers | player_client/downloads/u2/Battleship/1.0/server/battleship_server.py:112-121 | only HELLO-presenting connections count, in arrival order |
| Battle.HelloUsersPrefix | player_client/downloads/u2/Battleship/1.0/server/battleship_server.py:112-121 | fewer arrivals never seat more players, and seat the same ones in front |
| Battle.AcceptHellos | player_client/downloads/u2/Battleship/1.0/server/battleship_server.py:73-136 | the seated players are the first HELLO senders in arrival order, capped; accepting stops only when the cap is reached |
| Battle.WithDefenderBoard | developer_client/games/Battleship/1.0/server/battleship_server.py:123-132 | the new board replaces the defender's; the attacker's board is untouched |
| Battle.NextTurn | developer_client/games/Battleship/1.0/server/battleship_server.py:184 | the turn flips between 1 and 2 |
| BattleRing.AwaitPlayers | player_client/downloads/u2/Battleship/1.0/server/battleship_server.py:73-136 | up to eight HELLO senders are seated in arrival order, with roles 1..N, connected and boardless |
| BattleRing.WithBoards | player_client/downloads/u2/Battleship/1.0/server/battleship_server.py:160 | exactly the seats that submitted a board, in seat order |
| BattleRing.StartRelay | player_client/downloads/u2/Battleship/1.0/server/battleship_server.py:158-165 | play starts at position 0 with the seats that have boards, and only if at least two have one |
| BattleRing.StillConnected | player_client/downloads/u2/Battleship/1.0/server/battleship_server.py:169 | exactly the live seats that are still connected, in order |
| BattleRing.StillConnectedIdempotent | player_client/downloads/u2/Battleship/1.0/server/battleship_server.py:169 | filtering twice is filtering once |
| BattleRing.LiveStable | player_client/downloads/u2/Battleship/1.0/server/battleship_server.py:169 | a live list carried over is already filtered |
| BattleRing.Cursor | player_client/downloads/u2/Battleship/1.0/server/battleship_server.py:181-182 | the cursor always points into the live list |
| BattleRing.DefenderIsNextLiveSeat | player_client/downloads/u2/Battleship/1.0/server/battleship_server.py:184-185 | the defender is not the attacker, and no live seat lies between them in ring order |
| BattleRing.Verdicts | player_client/downloads/u2/Battleship/1.0/server/battleship_server.py:243-251 | every connected seat is told: WIN to the winner and LOSE to the rest |
| BattleRing.Shoot | player_client/downloads/u2/Battleship/1.0/server/battleship_server.py:210-254 | an on-board shot replaces the defender's board with the resolved one (X on a ship, o on water, unchanged on a mark) and tells the attacker the resolved shot when play goes on; the ring stays valid with the live list as filtered |
| BattleRing.RelayStep | player_client/downloads/u2/Battleship/1.0/server/battleship_server.py:158-254 | no live seat abandons the match; one live seat wins by walkover; a failed YOUR_TURN send or an empty or closed reply disconnects exactly the attacker and keeps the cursor; a reply that is not JSON crashes the relay; otherwise the ring stays valid |
| BattleRing.WinIffLastCellOfSymbol | player_client/downloads/u2/Battleship/1.0/server/battleship_server.py:222-251 | an on-board shot ends the match exactly when it hits a ship symbol that has no other cell left on the defender's board |
| BattleRing.LostAttackerLeavesRing | player_client/downloads/u2/Battleship/1.0/server/battleship_server.py:203-207 | an attacker whose reply is lost is dropped from the live list at the next filter, and every other live seat stays |
| BattleRing.RejectedShotChangesNothing | player_client/downloads/u2/Battleship/1.0/server/battleship_server.py:210-218 | non-integer or off-board coordinates give REPEAT and change no board and not the cursor |
| BattleRing.ResolvedShotTouchesOneCell | player_client/downloads/u2/Battleship/1.0/server/battleship_server.py:222-254 | a resolved shot changes only the target cell of the defender's board and advances the cursor by one |
| BattleRing.ShotIsResolved | player_client/downloads/u2/Battleship/1.0/server/battleship_server.py:222-237 | an on-board shot sets the defender's board to the resolved board, keeps every other seat, and, when play goes on, replies with the resolved HIT, MISS or REPEAT |
| BattleRing.SinkingHitWins | player_client/downloads/u2/Battleship/1.0/server/battleship_server.py:240-251 | a hit on a symbol's last cell wins: WIN to the attacker and LOSE to every other connected seat |
| DevBattle.PyIndex | developer_client/games/Battleship/1.0/server/battleship_server.py:145 | Python list indexing: -10..-1 count from the end and anything else off the board raises |
| DevBattle.AwaitPair | developer_client/games/Battleship/1.0/server/battleship_server.py:70-110 | the first two HELLO senders become A and B; with fewer the server is still waiting |
| DevBattle.RelayStep | developer_client/games/Battleship/1.0/server/battleship_server.py:120-184 | a lost attacker ends the loop; a bad index crashes it; an indexable shot leaves the defender with the resolved board; a win goes to the attacker; otherwise the turn flips and the attacker is told the resolved shot; the attacker's board never changes |
| DevBattle.WinIffLastCellOfSymbol | developer_client/games/Battleship/1.0/server/battleship_server.py:175-181 | a shot wins iff it hits the last remaining cell of some ship symbol |
| DevBattle.NegativeCoordinatesWrap | developer_client/games/Battleship/1.0/server/battleship_server.py:145 | a coordinate 10 lower aims at the same cell |
| DevBattle.TurnsAlternate | developer_client/games/Battleship/1.0/server/battleship_server.py:184 | two non-final steps return the turn to the same player, REPEAT included |
| Battle.AttackerOf | server/game_storage/Battleship/1.0/server/battleship_server.py:98-108 | the attacker is A (1) exactly when the turn is 1, and B (2) otherwise |
| StoredBattle.RelayStep | server/game_storage/Battleship/1.0/server/battleship_server.py:96-157 | off-board shots are INVALID, change nothing and pass the turn; an on-board shot leaves the defender with the resolved board and, unless it wins, tells the attacker the resolved shot; the game is won iff the shot is on the board and leaves no ship cell |
| StoredBattle.SunkStaysSunk | server/game_storage/Battleship/1.0/server/battleship_server.py:125-135 | a board without ships stays without ships |
| StoredBattle.WinningShotHitsOrBoardWasEmpty | server/game_storage/Battleship/1.0/server/battleship_server.py:149-154 | a winning shot is a hit, unless the board had no ships already |
| StoredBattle.ShipLeftMeansNoWin | server/game_storage/Battleship/1.0/server/battleship_server.py:149-154 | any other ship cell left means no win |
| BattleClient.DropSeps | server/game_storage/Battleship/1.0/client/battleship_client.py:34 | leading separators are removed |
| BattleClient.TakeWord | server/game_storage/Battleship/1.0/client/battleship_client.py:34 | the longest separator-free prefix, non-empty when the text starts with a word |
| BattleClient.Tokens | server/game_storage/Battleship/1.0/client/battleship_client.py:34 | each token is a non-empty separator-free word |
| BattleClient.TokensOfWord | server/game_storage/Battleship/1.0/client/battleship_client.py:34 | a word followed by a separator is the first token |
| BattleClient.TokensSkipSeps | server/game_storage/Battleship/1.0/client/battleship_client.py:34 | leading separators produce no token |
| BattleClient.TokensOfPair | server/game_storage/Battleship/1.0/client/battleship_client.py:34 | two words around a separator run split into exactly those two words |
| BattleClient.ParseCoord | server/game_storage/Battleship/1.0/client/battleship_client.py:32-40 | a result exists iff there are exactly two tokens and both are integers |
| BattleClient.NatDigits | server/game_storage/Battleship/1.0/client/battleship_client.py:38-39 | the decimal digits of a number, non-empty |
| BattleClient.ShowInt | server/game_storage/Battleship/1.0/client/battleship_client.py:38-39 | an integer written out is a single token |
| BattleClient.DigitsRoundTrip | server/game_storage/Battleship/1.0/client/battleship_client.py:38-39 | digits read back to the number they spell |
| BattleClient.ParseIntRoundTrip | server/game_storage/Battleship/1.0/client/battleship_client.py:38-39 | int() reads back every integer as written |
| BattleClient.ParseCoordRoundTrip | server/game_storage/Battleship/1.0/client/battleship_client.py:32-40 | "r,c", "r c" and "r , c" all read back as (r, c) |
| BattleClient.ExtraTokenRefused | server/game_storage/Battleship/1.0/client/battleship_client.py:36-37 | three tokens are refused, however well-formed |
| BattleClient.CanPlace | server/game_storage/Battleship/1.0/client/battleship_client.py:43-57 | a ship fits iff its segment stays on the board and every cell of it is water |
| BattleClient.SetCellOccupied | server/game_storage/Battleship/1.0/client/battleship_client.py:60-66 | painting one water cell adds one occupied cell |
| BattleClient.PlaceShip | server/game_storage/Battleship/1.0/client/battleship_client.py:60-66 | exactly the segment gets the symbol; every other cell is unchanged; the occupied count grows by the ship's size |
| BattleClient.FleetIsSeventeen | server/game_storage/Battleship/1.0/client/battleship_client.py:8-16 | the fleet covers 17 cells |
| BattleClient.PlaceOne | server/game_storage/Battleship/1.0/client/battleship_client.py:74-81 | draws are taken in order until one fits: every draw passed over does not fit, the last one taken does and the ship is painted exactly on its segment, adding its size; when none fits all draws are used and the board is unchanged |
| BattleClient.PlaceNext | server/game_storage/Battleship/1.0/client/battleship_client.py:71-81 | one ship of the fleet adds exactly its size of occupied cells and keeps the grid to water and ship symbols; it is left unplaced only when every draw is used, with the board unchanged |
| BattleClient.PlaceFleet | server/game_storage/Battleship/1.0/client/battleship_client.py:69-84 | a finished placement is a grid of water and ship symbols with the fleet's cell count; no board comes back only when every draw is used |
| BattleClient.AutoPlace | server/game_storage/Battleship/1.0/client/battleship_client.py:69-84 | a finished board has exactly 17 ship cells, no overlap, and every other cell water; no board comes back only when the draws run out |
| BattleClient.EmptyHasNoShips | server/game_storage/Battleship/1.0/client/battleship_client.py:19-20 | an empty board has no ship cells |
| BattleClient.ApplyResult | server/game_storage/Battleship/1.0/client/battleship_client.py:204-214 | HIT marks the last attack X and MISS marks it o in the enemy view; anything else changes nothing |
| BattleClient.ApplyIncoming | server/game_storage/Battleship/1.0/client/battleship_client.py:216-224 | the own board is marked only for on-board HIT or MISS reports |
| BattleClient.IncomingMirrorsServer | server/game_storage/Battleship/1.0/client/battleship_client.py:216-224 | marking the server's result for a shot gives the server's own board after that shot |

## Left out

- Sockets, threads, locks, timeouts and accept loops. Each socket becomes a byte stream or a sequence of arrivals, and each locked section becomes one atomic function.
- JSON encoding and decoding. Payloads are opaque bytes, and manifests are an abstract JSON value.
- File persistence in the account and store managers, zip extraction and publishing, file transfer and download.
- The lobby server's request dispatch and the game launcher's internals. The launcher is a parameter.
- The interactive clients, the Tetris GUI, and the Tetris server in the developer's folder.
- The shape table and 7-bag generator, which are not part of this model. Two assumptions stand in for them:
  - every piece in every rotation covers one to four cells inside a 4x4 box (`TetrisBoard.ValidShapes`);
  - the piece stream, power-up conversion included, is a parameter.
- Tetris snapshots, spectators and the per-snapshot reset of the cleared-rows list. They are display only.
- Tetris matchmaking: waiting for two HELLO players and refusing late ones. It is the accept loop above.
- TetrisMatch.Results: the membership clauses assume the two player names differ. With equal names the server's dict holds one player, which the model does not follow.
- TetrisMatch.Act: one `now` stands for both clock reads of an input. The freeze check and the FLASH timestamp are read moments apart in the server.
- TetrisPlayer.Lock: requires the active piece to be on the board, which the `Good` invariant keeps through every operation. The server's guard that skips cells outside the rows therefore never fires and is not modelled.
- StoredBattle.RelayStep: its `await_players`, which takes the first two connections with no HELLO check, is not modelled. A crash on a missing key is folded into `Malformed`.
- BattleRing.RelayStep: the server's skip for a disconnected or boardless defender cannot happen once the live list is filtered, so that branch is dead in the model.
- DevBattle.RelayStep: the source has no bounds check. Rather than requiring 0 <= r, c < 10, the model gives Python's indexing: -10..-1 wrap and other values crash the loop.
- BattleClient.ParseCoord: the whitespace is ASCII only, and `int()` digit-group underscores and non-ASCII digits are not accepted.
- Battleship board submission (`receive_board`) is not validated in the model. Boards are taken as 10x10 grids.
- `list_invites_for` and `list_chat`: read-only views of the invite sets and chat log, which are modelled as state.
- The methods the tests use that do not appear in the room, account and store managers (disconnect marking, results, leaderboard, reviews).
- The N-player server's start rule of a minimum player count plus a quiet period is timing. The arrivals are the connections made before the start.

## Behaviour worth knowing

The model keeps these behaviours of the code, which a reader might not expect:
- `join_room` does not deduplicate, so the same user can be appended twice.
- `start_game` checks neither that the caller is the host nor that the room is waiting.
- The Tetris input loop never checks whether the player is alive. A player who died on a blocked spawn but is still connected keeps moving, dropping and holding pieces until the tick loop ends the match (`TetrisMatch.DeadPlayerStillDrops`).
- The developer's Battleship server has no coordinate bounds check. Negative coordinates wrap, and larger ones crash the turn loop.

=== FILE: accounts.dfy ===
/** AccountManager with its in-memory maps only: a player store and a
    developer store of username -> password, and the online-user table
    (kept as an ordered list, as Python's dict keeps insertion order). */
module Accounts {

  datatype Option<T> = None | Some(value: T)

  const PlayerRole: string := "player"
  const DeveloperRole: string := "developer"

  datatype Session = Session(user: string, role: string)

  datatype Accounts = Accounts(
    players: map<string, string>,
    developers: map<string, string>,
    online: seq<Session>)

  datatype Failure =
    | InvalidRole
    | UsernameTaken
    | EmptyUsernameOrPassword
    | UserNotFound
    | WrongPassword
    | AlreadyLoggedIn

  datatype Reply = Ok | Fail(reason: Failure)

  predicate ValidRole(role: string)
  {
    role == PlayerRole || role == DeveloperRole
  }

  /** _get_store: "player" picks the player store, anything else the
      developer store. */
  function GetStore(a: Accounts, role: string): map<string, string>
  {
    if role == PlayerRole then a.players else a.developers
  }

  /** Writes back the store `GetStore` picks for `role`: reading it again
      gives what was written, and the other store and the online table are
      untouched. */
  function SetStore(a: Accounts, role: string, store: map<string, string>): (a': Accounts)
    ensures GetStore(a', role) == store
    ensures forall other :: (other == PlayerRole) != (role == PlayerRole) ==>
              GetStore(a', other) == GetStore(a, other)
    ensures a'.online == a.online
  {
    if role == PlayerRole then a.(players := store) else a.(developers := store)
  }

  /** is_online: the user has a session in the online table. */
  predicate IsOnline(a: Accounts, user: string)
  {
    exists k :: 0 <= k < |a.online| && a.online[k].user == user
  }

  /** No user is online twice. */
  ghost predicate Valid(a: Accounts)
  {
    DistinctUsers(a.online)
  }

  ghost predicate DistinctUsers(online: seq<Session>)
  {
    forall k, l :: 0 <= k < l < |online| ==> online[k].user != online[l].user
  }

  ghost predicate NoDuplicates(users: seq<string>)
  {
    forall k, l :: 0 <= k < l < |users| ==> users[k] != users[l]
  }

  function Register(a: Accounts, user: string, password: string, role: string): (res: (Accounts, Reply))
    ensures var (a', reply) := res;
            && (!ValidRole(role) ==> reply == Fail(InvalidRole))
            && (ValidRole(role) && user in GetStore(a, role) ==> reply == Fail(UsernameTaken))
            && (ValidRole(role) && user !in GetStore(a, role) && (user == "" || password == "")
                ==> reply == Fail(EmptyUsernameOrPassword))
            && (reply == Ok <==> ValidRole(role) && user !in GetStore(a, role) && user != "" && password != "")
            && (reply.Fail? ==> a' == a)
            && (reply == Ok ==>
                  && GetStore(a', role) == GetStore(a, role)[user := password]
                  && |GetStore(a', role)| == |GetStore(a, role)| + 1
                  && (role == PlayerRole ==> a'.developers == a.developers)
                  && (role == DeveloperRole ==> a'.players == a.players)
                  && a'.online == a.online)
  {
    if !ValidRole(role) then (a, Fail(InvalidRole))
    else
      var store := GetStore(a, role);
      if user in store then (a, Fail(UsernameTaken))
      else if user == "" || password == "" then (a, Fail(EmptyUsernameOrPassword))
      else (SetStore(a, role, store[user := password]), Ok)
  }

  function Login(a: Accounts, user: string, password: string, role: string): (res: (Accounts, Reply))
    requires Valid(a)
    ensures var (a', reply) := res;
            && Valid(a')
            && (!ValidRole(role) ==> reply == Fail(InvalidRole))
            && (ValidRole(role) && user !in GetStore(a, role) ==> reply == Fail(UserNotFound))
            && (ValidRole(role) && user in GetStore(a, role) && GetStore(a, role)[user] != password
                ==> reply == Fail(WrongPassword))
            && ((ValidRole(role) && user in GetStore(a, role) && GetStore(a, role)[user] == password
                 && IsOnline(a, user)) ==> reply == Fail(AlreadyLoggedIn))
            && (reply == Ok <==>
                  ValidRole(role) && user in GetStore(a, role) && GetStore(a, role)[user] == password
                  && !IsOnline(a, user))
            && (reply.Fail? ==> a' == a)
            && (reply == Ok ==>
                  a'.online == a.online + [Session(user, role)]
                  && a'.players == a.players && a'.developers == a.developers)
  {
    if !ValidRole(role) then (a, Fail(InvalidRole))
    else
      var store := GetStore(a, role);
      if user !in store then (a, Fail(UserNotFound))
      else if store[user] != password then (a, Fail(WrongPassword))
      else if IsOnline(a, user) then (a, Fail(AlreadyLoggedIn))
      else (a.(online := a.online + [Session(user, role)]), Ok)
  }

  /** The online table without `user`, in the same order. */
  function Without(online: seq<Session>, user: string): (rest: seq<Session>)
    ensures forall k :: 0 <= k < |rest| ==> rest[k].user != user && rest[k] in online
    ensures forall s :: s in online && s.user != user ==> s in rest
    ensures |rest| <= |online|
  {
    if online == [] then []
    else if online[0].user == user then Without(online[1..], user)
    else [online[0]] + Without(online[1..], user)
  }

  /** Removing a user distributes over concatenation, so the sessions
      that stay keep their order, as dict.pop keeps the insertion order of
      the other keys. */
  lemma {:induction false} WithoutAppend(x: seq<Session>, y: seq<Session>, user: string)
    ensures Without(x + y, user) == Without(x, user) + Without(y, user)
  {
    if x == [] {
      assert x + y == y;
    } else {
      var xy := x + y;
      assert xy != [] && xy[0] == x[0] && xy[1..] == x[1..] + y;
      WithoutAppend(x[1..], y, user);
    }
  }

  /** logout: online_users.pop(username, None). */
  function Logout(a: Accounts, user: string): (a': Accounts)
    requires Valid(a)
    ensures Valid(a')
    ensures !IsOnline(a', user)
    ensures forall u :: u != user ==> (IsOnline(a', u) <==> IsOnline(a, u))
    ensures forall s :: s in a.online && s.user != user ==> s in a'.online
    ensures a'.players == a.players && a'.developers == a.developers
  {
    WithoutKeepsDistinct(a.online, user);
    a.(online := Without(a.online, user))
  }

  lemma {:induction false} WithoutKeepsDistinct(online: seq<Session>, user: string)
    requires DistinctUsers(online)
    ensures DistinctUsers(Without(online, user))
  {
    if online != [] {
      var tail := online[1..];
      assert DistinctUsers(tail) by {
        forall k, l | 0 <= k < l < |tail| ensures tail[k].user != tail[l].user {
          assert tail[k] == online[k + 1] && tail[l] == online[l + 1];
        }
      }
      WithoutKeepsDistinct(tail, user);
      if online[0].user != user {
        forall j | 0 <= j < |tail| ensures tail[j].user != online[0].user {
          assert tail[j] == online[j + 1];
        }
        WithoutKeepsAbsent(tail, user, online[0].user);
        ConsDistinct(online[0], Without(tail, user));
      }
    }
  }

  /** A user absent from a table stays absent once another is removed. */
  lemma WithoutKeepsAbsent(online: seq<Session>, user: string, absent: string)
    requires forall j :: 0 <= j < |online| ==> online[j].user != absent
    ensures forall k :: 0 <= k < |Without(online, user)| ==> Without(online, user)[k].user != absent
  {
    var rest := Without(online, user);
    forall k | 0 <= k < |rest| ensures rest[k].user != absent {
      assert rest[k] in online;
    }
  }

  lemma ConsDistinct(s: Session, rest: seq<Session>)
    requires DistinctUsers(rest)
    requires forall k :: 0 <= k < |rest| ==> rest[k].user != s.user
    ensures DistinctUsers([s] + rest)
  {
    var out := [s] + rest;
    forall k, l | 0 <= k < l < |out| ensures out[k].user != out[l].user {
      assert out[l] == rest[l - 1];
      if k > 0 {
        assert out[k] == rest[k - 1];
      }
    }
  }

  /** Logout keeps the login order of the sessions that stay: two of them
      appear in the same relative order afterwards. */
  lemma LogoutKeepsOrder(a: Accounts, user: string, k: nat, l: nat)
    requires Valid(a) && k < l < |a.online|
    requires a.online[k].user != user && a.online[l].user != user
    ensures var after := Logout(a, user).online;
            exists k', l' :: 0 <= k' < l' < |after| && after[k'] == a.online[k] && after[l'] == a.online[l]
  {
    WithoutKeepsPairOrder(a.online, user, k, l);
  }

  lemma WithoutKeepsPairOrder(online: seq<Session>, user: string, k: nat, l: nat)
    requires k < l < |online| && online[k].user != user && online[l].user != user
    ensures var after := Without(online, user);
            exists k', l' :: 0 <= k' < l' < |after| && after[k'] == online[k] && after[l'] == online[l]
  {
    var x, y := online[..l], online[l..];
    assert online == x + y;
    WithoutAppend(x, y, user);
    var wx, wy := Without(x, user), Without(y, user);
    assert wy == [y[0]] + Without(y[1..], user);
    assert x[k] in x;
    var k' :| 0 <= k' < |wx| && wx[k'] == online[k];
    var after := wx + wy;
    assert after[k'] == online[k] && after[|wx|] == online[l];
  }

  lemma LogoutIdempotent(a: Accounts, user: string)
    requires Valid(a)
    ensures Logout(Logout(a, user), user) == Logout(a, user)
  {
    WithoutOfAbsent(Logout(a, user).online, user);
  }

  lemma {:induction false} WithoutOfAbsent(online: seq<Session>, user: string)
    requires forall k :: 0 <= k < |online| ==> online[k].user != user
    ensures Without(online, user) == online
  {
    if online != [] {
      WithoutOfAbsent(online[1..], user);
    }
  }

  /** get_online_users: every online user when no role is given, otherwise
      those logged in under that role, in login order. */
  function OnlineUsers(a: Accounts, role: Option<string>): (users: seq<string>)
    ensures forall u :: u in users <==>
              exists k :: 0 <= k < |a.online| && a.online[k].user == u
                          && (role.None? || a.online[k].role == role.value)
    ensures |users| <= |a.online|
    ensures role.None? ==> |users| == |a.online|
                           && forall k :: 0 <= k < |users| ==> users[k] == a.online[k].user
    ensures Valid(a) ==> NoDuplicates(users)
  {
    UsersWithDistinct(a.online, role);
    UsersWith(a.online, role)
  }

  function UsersWith(online: seq<Session>, role: Option<string>): (users: seq<string>)
    ensures forall u :: u in users <==>
              exists k :: 0 <= k < |online| && online[k].user == u
                          && (role.None? || online[k].role == role.value)
    ensures |users| <= |online|
    ensures role.None? ==> |users| == |online|
                           && forall k :: 0 <= k < |users| ==> users[k] == online[k].user
  {
    if online == [] then []
    else
      var head := online[0];
      var rest := UsersWith(online[1..], role);
      assert forall k :: 1 <= k < |online| ==> online[k] == online[1..][k - 1];
      if role.None? || head.role == role.value then [head.user] + rest else rest
  }

  /** A session appended to the table (a login) adds its user at the end
      of the listing when it matches the filter, and nothing else. */
  lemma {:induction false} UsersWithAppend(online: seq<Session>, s: Session, role: Option<string>)
    ensures UsersWith(online + [s], role)
            == UsersWith(online, role) + (if role.None? || s.role == role.value then [s.user] else [])
  {
    if online != [] {
      assert (online + [s])[1..] == online[1..] + [s];
      UsersWithAppend(online[1..], s, role);
    }
  }

  /** With no user online twice, no user is listed twice. */
  lemma {:induction false} UsersWithDistinct(online: seq<Session>, role: Option<string>)
    ensures DistinctUsers(online) ==> NoDuplicates(UsersWith(online, role))
  {
    if online != [] && DistinctUsers(online) {
      var tail := online[1..];
      assert DistinctUsers(tail) by {
        forall k, l | 0 <= k < l < |tail| ensures tail[k].user != tail[l].user {
          assert tail[k] == online[k + 1] && tail[l] == online[l + 1];
        }
      }
      UsersWithDistinct(tail, role);
      var rest := UsersWith(tail, role);
      if role.None? || online[0].role == role.value {
        var out := [online[0].user] + rest;
        forall k | 0 <= k < |rest| ensures rest[k] != online[0].user {
          assert rest[k] in rest;
          var j :| 0 <= j < |tail| && tail[j].user == rest[k] && (role.None? || tail[j].role == role.value);
          assert tail[j] == online[j + 1];
        }
        forall k, l | 0 <= k < l < |out| ensures out[k] != out[l] {
          assert out[l] == rest[l - 1];
          if k > 0 {
            assert out[k] == rest[k - 1];
          }
        }
      }
    }
  }

  /** A successful login lists the user once more at the end of the
      online listing, and makes the user online until a logout. */
  lemma LoginThenLogout(a: Accounts, user: string, password: string, role: string)
    requires Valid(a)
    requires Login(a, user, password, role).1 == Ok
    ensures var a' := Login(a, user, password, role).0;
            && IsOnline(a', user)
            && OnlineUsers(a', None) == OnlineUsers(a, None) + [user]
            && OnlineUsers(a', Some(role)) == OnlineUsers(a, Some(role)) + [user]
            && !IsOnline(Logout(a', user), user)
            && forall u :: u != user ==> (IsOnline(a', u) <==> IsOnline(a, u))
  {
    var a' := Login(a, user, password, role).0;
    assert a'.online[|a'.online| - 1].user == user;
    UsersWithAppend(a.online, Session(user, role), None);
    UsersWithAppend(a.online, Session(user, role), Some(role));
    forall u | u != user && IsOnline(a', u) ensures IsOnline(a, u) {
      var k :| 0 <= k < |a'.online| && a'.online[k].user == u;
      assert k < |a.online| && a'.online[k] == a.online[k];
    }
  }

  /** A second login of a user who is online is refused, and nothing
      changes. */
  lemma SecondLoginRejected(a: Accounts, user: string, password: string, role: string, role2: string)
    requires Valid(a)
    requires Login(a, user, password, role).1 == Ok
    requires ValidRole(role2) && user in GetStore(a, role2) && GetStore(a, role2)[user] == password
    ensures var a' := Login(a, user, password, role).0;
            Login(a', user, password, role2) == (a', Fail(AlreadyLoggedIn))
  {
    var a' := Login(a, user, password, role).0;
    assert a'.online[|a'.online| - 1].user == user;
  }
}

=== FILE: battle.dfy ===
/** What the three Battleship servers and the client share: a 10x10 grid
    of one-character strings ("~" water, a ship's initial, "X" hit, "o"
    miss), the fleet and its symbols, the resolution of one shot, and the
    sunk predicates. */
module Battle {

  datatype Option<T> = None | Some(value: T)

  type Cell = string
  type Grid = seq<seq<Cell>>

  const BoardSize: nat := 10
  const Water: Cell := "~"
  const HitMark: Cell := "X"
  const MissMark: Cell := "o"

  datatype Ship = Ship(name: string, size: nat)

  /** SHIPS, in declaration order. */
  const Fleet: seq<Ship> := [
    Ship("Carrier", 5), Ship("Battleship", 4), Ship("Cruiser", 3),
    Ship("Submarine", 3), Ship("Destroyer", 2)]

  /** A ship is drawn with the first letter of its name. */
  function Symbol(s: Ship): Cell
  {
    if s.name == "" then "" else s.name[..1]
  }

  /** SHIP_SYMBOLS = {name[0] for name in SHIPS}. */
  const ShipSymbols: set<Cell> := set k | 0 <= k < |Fleet| :: Symbol(Fleet[k])

  /** Carrier and Cruiser share 'C', so there are four symbols, not five. */
  lemma ShipSymbolsAreFour()
    ensures ShipSymbols == {"C", "B", "S", "D"}
    ensures |ShipSymbols| == 4
    ensures Symbol(Fleet[0]) == Symbol(Fleet[2])
  {
    assert Symbol(Fleet[0]) == "C";
    assert Symbol(Fleet[1]) == "B";
    assert Symbol(Fleet[2]) == "C";
    assert Symbol(Fleet[3]) == "S";
    assert Symbol(Fleet[4]) == "D";
    assert ShipSymbols == {"C", "B", "S", "D"};
  }

  predicate IsGrid(b: Grid)
  {
    |b| == BoardSize && forall r :: 0 <= r < |b| ==> |b[r]| == BoardSize
  }

  predicate InRange(r: int, c: int)
  {
    0 <= r < BoardSize && 0 <= c < BoardSize
  }

  function EmptyBoard(): (b: Grid)
    ensures IsGrid(b)
    ensures forall r, c :: InRange(r, c) ==> b[r][c] == Water
  {
    seq(BoardSize, _ => seq(BoardSize, _ => Water))
  }

  /** The grid with one cell replaced. */
  function SetCell(b: Grid, r: nat, c: nat, v: Cell): (b': Grid)
    requires r < |b| && c < |b[r]|
    ensures |b'| == |b| && forall i :: 0 <= i < |b| ==> |b'[i]| == |b[i]|
    ensures b'[r][c] == v
    ensures forall i, j :: 0 <= i < |b| && 0 <= j < |b[i]| && (i, j) != (r, c) ==> b'[i][j] == b[i][j]
  {
    b[r := b[r][c := v]]
  }

  // ------------------------------------------------------------ scanning

  /** Whether some cell of the row satisfies `p` (the inner loop). */
  function RowHas(row: seq<Cell>, p: Cell -> bool): (found: bool)
    ensures found <==> exists j :: 0 <= j < |row| && p(row[j])
  {
    if row == [] then false
    else if p(row[0]) then true
    else
      assert forall j :: 1 <= j < |row| ==> row[j] == row[1..][j - 1];
      RowHas(row[1..], p)
  }

  /** Whether some cell of the grid satisfies `p` (the nested loops with
      their early return). */
  function GridHas(b: Grid, p: Cell -> bool): (found: bool)
    ensures found <==> exists i, j :: 0 <= i < |b| && 0 <= j < |b[i]| && p(b[i][j])
  {
    if b == [] then false
    else if RowHas(b[0], p) then true
    else
      assert forall i :: 1 <= i < |b| ==> b[i] == b[1..][i - 1];
      GridHas(b[1..], p)
  }

  /** ship_sunk: no cell holds `symbol`. */
  function ShipSunk(b: Grid, symbol: Cell): (sunk: bool)
    ensures sunk <==> forall i, j :: 0 <= i < |b| && 0 <= j < |b[i]| ==> b[i][j] != symbol
  {
    !GridHas(b, c => c == symbol)
  }

  /** all_ships_sunk: no cell holds any ship symbol. */
  function AllShipsSunk(b: Grid): (sunk: bool)
    ensures sunk <==> forall i, j :: 0 <= i < |b| && 0 <= j < |b[i]| ==> b[i][j] !in ShipSymbols
  {
    !GridHas(b, c => c in ShipSymbols)
  }

  lemma AllSunkMeansEachSunk(b: Grid, symbol: Cell)
    requires symbol in ShipSymbols
    ensures AllShipsSunk(b) ==> ShipSunk(b, symbol)
  {
  }

  // ------------------------------------------------------------ one shot

  datatype Shot = Hit(symbol: Cell) | Repeat | Miss

  /** The result a shot at (r, c) gets and the defender's grid after it:
      a ship cell becomes "X", a marked cell stays, anything else becomes "o". */
  function Resolve(b: Grid, r: nat, c: nat): (res: (Shot, Grid))
    requires r < |b| && c < |b[r]|
    ensures var (shot, b') := res;
            && |b'| == |b| && (forall i :: 0 <= i < |b| ==> |b'[i]| == |b[i]|)
            && (b[r][c] in ShipSymbols <==> shot.Hit?)
            && (shot.Hit? ==> shot.symbol == b[r][c] && b'[r][c] == HitMark)
            && (shot == Repeat <==> b[r][c] == HitMark || b[r][c] == MissMark)
            && (shot == Repeat ==> b' == b)
            && (shot == Miss ==> b'[r][c] == MissMark)
            && (forall i, j :: 0 <= i < |b| && 0 <= j < |b[i]| && (i, j) != (r, c) ==> b'[i][j] == b[i][j])
  {
    ShipSymbolsAreFour();
    var cell := b[r][c];
    if cell in ShipSymbols then (Hit(cell), SetCell(b, r, c, HitMark))
    else if cell == HitMark || cell == MissMark then (Repeat, b)
    else (Miss, SetCell(b, r, c, MissMark))
  }

  /** A shot never adds a ship cell: every symbol sunk before is still sunk. */
  lemma ResolveKeepsSunk(b: Grid, r: nat, c: nat, symbol: Cell)
    requires r < |b| && c < |b[r]|
    requires symbol in ShipSymbols && ShipSunk(b, symbol)
    ensures ShipSunk(Resolve(b, r, c).1, symbol)
  {
    ShipSymbolsAreFour();
  }

  /** The first-ship-sunk rule: a hit that takes the last cell of a symbol
      sinks it; a hit on a symbol with cells left elsewhere does not. */
  lemma HitSinksIffLastCell(b: Grid, r: nat, c: nat)
    requires r < |b| && c < |b[r]| && b[r][c] in ShipSymbols
    ensures var (shot, b') := Resolve(b, r, c);
            ShipSunk(b', shot.symbol) <==>
              forall i, j :: 0 <= i < |b| && 0 <= j < |b[i]| && (i, j) != (r, c) ==> b[i][j] != b[r][c]
  {
    ShipSymbolsAreFour();
  }

  // ------------------------------------------------------------ seating

  /** The first message of an accepted connection: a dict whose type is
      "HELLO" (with its optional user), or anything else - a readiness
      probe that says nothing, a timeout, bad JSON, another type. */
  datatype FirstMessage = Hello(user: Option<string>) | NotHello

  /** The users of the HELLO-presenting connections, in arrival order. */
  function HelloUsers(arrivals: seq<FirstMessage>): (users: seq<Option<string>>)
    ensures |users| <= |arrivals|
  {
    if arrivals == [] then []
    else
      var last := arrivals[|arrivals| - 1];
      HelloUsers(arrivals[..|arrivals| - 1]) + (if last.Hello? then [last.user] else [])
  }

  lemma {:induction false} HelloUsersPrefix(arrivals: seq<FirstMessage>, i: nat)
    requires i <= |arrivals|
    ensures HelloUsers(arrivals[..i]) <= HelloUsers(arrivals)
    decreases |arrivals| - i
  {
    if i < |arrivals| {
      HelloUsersPrefix(arrivals, i + 1);
      assert arrivals[..i + 1][..i] == arrivals[..i];
    } else {
      assert arrivals[..i] == arrivals;
    }
  }

  /** The accept loop of the HELLO-checking servers: connections are
      accepted in order, the non-HELLO ones are closed and not counted,
      and accepting stops once `cap` players are in. Returns the players'
      users and how many connections were accepted. */
  method AcceptHellos(arrivals: seq<FirstMessage>, cap: nat) returns (users: seq<Option<string>>, accepted: nat)
    ensures var hellos := HelloUsers(arrivals);
            && |users| == (if |hellos| < cap then |hellos| else cap)
            && users == hellos[..|users|]
    ensures accepted <= |arrivals|
    ensures accepted < |arrivals| ==> |users| == cap
    ensures users == HelloUsers(arrivals[..accepted])
  {
    users := [];
    var i := 0;
    while i < |arrivals| && |users| < cap
      invariant 0 <= i <= |arrivals|
      invariant users == HelloUsers(arrivals[..i])
      invariant |users| <= cap
    {
      assert arrivals[..i + 1][..i] == arrivals[..i];
      if arrivals[i].Hello? {
        users := users + [arrivals[i].user];
      }
      i := i + 1;
    }
    HelloUsersPrefix(arrivals, i);
    if i == |arrivals| {
      assert arrivals[..i] == arrivals;
    }
    accepted := i;
  }

  // ------------------------------------------------------------ two players

  /** The state of the two-player servers: both submitted boards and whose
      turn it is (1 is player A; any other value plays as B). */
  datatype Duel = Duel(board1: Grid, board2: Grid, turn: int)

  predicate DuelReady(d: Duel)
  {
    IsGrid(d.board1) && IsGrid(d.board2)
  }

  /** The board the current attacker fires at. */
  function DefenderBoard(d: Duel): Grid
  {
    if d.turn == 1 then d.board2 else d.board1
  }

  /** The attacker's label as a number: 1 for A, 2 for B. */
  function AttackerOf(d: Duel): (p: int)
    ensures p == 1 || p == 2
    ensures p == 1 <==> d.turn == 1
  {
    if d.turn == 1 then 1 else 2
  }

  function WithDefenderBoard(d: Duel, b: Grid): (d': Duel)
    ensures DefenderBoard(d') == b && d'.turn == d.turn
    ensures d.turn == 1 ==> d'.board1 == d.board1
    ensures d.turn != 1 ==> d'.board2 == d.board2
  {
    if d.turn == 1 then d.(board2 := b) else d.(board1 := b)
  }

  /** `2 if turn == 1 else 1`. */
  function NextTurn(turn: int): (t: int)
    ensures t == 1 || t == 2
    ensures t == 1 <==> turn != 1
  {
    if turn == 1 then 2 else 1
  }

  /** The attacker's message: none (connection lost or empty), one that
      makes the relay thread raise, or integer coordinates. What raises
      differs between the two servers. In the developer's server it is a
      missing key or any non-integer coordinate. In the stored server it is
      a missing key, a coordinate that cannot be compared with numbers, or
      a non-integer number inside the board; a number outside the board,
      integer or not, is answered INVALID, so it is modelled as an
      out-of-range `At`. */
  datatype DuelAttack = Silent | Malformed | At(row: int, col: int)

  /** What the attacker is told. */
  datatype DuelResult = Fired(shot: Shot) | Invalid

  datatype DuelStep =
    | Disconnected
    | Crashed
    | Won(winner: int, duel: Duel)
    | Next(duel: Duel, result: DuelResult)
}

=== FILE: battle_classic.dfy ===
/** The stored two-player Battleship server: alternating turns, an
    INVALID result for coordinates off the board, and victory once every
    ship cell of the defender's board has been hit. */
module StoredBattle {
  import opened Battle

  /** One iteration of relay_turn. */
  function RelayStep(d: Duel, attack: DuelAttack): (step: DuelStep)
    requires DuelReady(d)
    ensures step.Disconnected? <==> attack.Silent?
    ensures step.Crashed? <==> attack.Malformed?
    ensures attack.At? && !InRange(attack.row, attack.col) ==>
              step == Next(d.(turn := NextTurn(d.turn)), Invalid)
    ensures step.Won? <==>
              attack.At? && InRange(attack.row, attack.col)
              && AllShipsSunk(Resolve(DefenderBoard(d), attack.row, attack.col).1)
    ensures step.Won? ==> step.winner == AttackerOf(d) && DuelReady(step.duel)
    ensures step.Next? ==> DuelReady(step.duel) && step.duel.turn == NextTurn(d.turn)
    ensures (step.Won? || step.Next?) ==>
              (if d.turn == 1 then step.duel.board1 == d.board1 else step.duel.board2 == d.board2)
    ensures attack.At? && InRange(attack.row, attack.col) ==>
              var (shot, b') := Resolve(DefenderBoard(d), attack.row, attack.col);
              && (step.Won? ==> DefenderBoard(step.duel) == b')
              && (step.Next? ==> step.result == Fired(shot) && (if d.turn == 1 then step.duel.board2 else step.duel.board1) == b')
  {
    match attack
    case Silent => Disconnected
    case Malformed => Crashed
    case At(r, c) =>
      if !InRange(r, c) then Next(d.(turn := NextTurn(d.turn)), Invalid)
      else
        var (shot, b') := Resolve(DefenderBoard(d), r, c);
        var d' := WithDefenderBoard(d, b');
        if AllShipsSunk(b') then Won(AttackerOf(d), d')
        else Next(d'.(turn := NextTurn(d.turn)), Fired(shot))
  }

  /** Once a board has no ship cell, every later shot at it leaves it so. */
  lemma SunkStaysSunk(b: Grid, r: nat, c: nat)
    requires r < |b| && c < |b[r]|
    requires AllShipsSunk(b)
    ensures AllShipsSunk(Resolve(b, r, c).1)
  {
    ShipSymbolsAreFour();
  }

  /** Victory needs a hit: a miss or a repeat wins only when the board was
      already without ships, which a valid fleet never is. */
  lemma WinningShotHitsOrBoardWasEmpty(d: Duel, r: int, c: int)
    requires DuelReady(d) && InRange(r, c)
    requires RelayStep(d, At(r, c)).Won?
    ensures Resolve(DefenderBoard(d), r, c).0.Hit? || AllShipsSunk(DefenderBoard(d))
  {
    var b := DefenderBoard(d);
    var (shot, b') := Resolve(b, r, c);
    if !shot.Hit? {
      forall i, j | 0 <= i < |b| && 0 <= j < |b[i]| ensures b[i][j] !in ShipSymbols {
        if (i, j) != (r, c) {
          assert b'[i][j] == b[i][j];
        }
      }
    }
  }

  /** A board that still holds a ship cell other than the one fired at is
      not yet beaten. */
  lemma ShipLeftMeansNoWin(d: Duel, r: int, c: int, i: int, j: int)
    requires DuelReady(d) && InRange(r, c) && InRange(i, j) && (i, j) != (r, c)
    requires DefenderBoard(d)[i][j] in ShipSymbols
    ensures !RelayStep(d, At(r, c)).Won?
  {
    var b' := Resolve(DefenderBoard(d), r, c).1;
    assert b'[i][j] == DefenderBoard(d)[i][j];
  }
}

=== FILE: battle_client.dfy ===
/** The Battleship client's board logic: parsing "r,c" / "r c" input,
    the placement fit check, painting a ship, automatic placement of the
    fleet, and the marks RESULT and INCOMING messages leave on the two
    boards the client keeps. */
module BattleClient {
  import opened Battle

  // ------------------------------------------------------------ parse_coord

  /** The ASCII characters str.split() treats as whitespace. */
  predicate IsSpace(ch: char)
  {
    ch == ' ' || ch == '\t' || ch == '\n' || ch == '\r' || ch == '\U{B}' || ch == '\U{C}'
    || ('\U{1C}' <= ch <= '\U{1F}')
  }

  /** After `replace(",", " ")`, a comma separates tokens like whitespace. */
  predicate IsSep(ch: char)
  {
    IsSpace(ch) || ch == ','
  }

  predicate IsWord(w: string)
  {
    w != [] && forall k :: 0 <= k < |w| ==> !IsSep(w[k])
  }

  /** The input with its leading separators removed. */
  function DropSeps(s: string): (t: string)
    ensures |t| <= |s|
    ensures t == [] || !IsSep(t[0])
  {
    if s != [] && IsSep(s[0]) then DropSeps(s[1..]) else s
  }

  /** The longest separator-free prefix. */
  function TakeWord(s: string): (w: string)
    ensures |w| <= |s|
    ensures forall k :: 0 <= k < |w| ==> !IsSep(w[k])
    ensures |w| == |s| || IsSep(s[|w|])
    ensures s != [] && !IsSep(s[0]) ==> w != []
  {
    if s == [] || IsSep(s[0]) then [] else [s[0]] + TakeWord(s[1..])
  }

  /** `s.strip().replace(",", " ").split()`. */
  function Tokens(s: string): (ws: seq<string>)
    ensures forall k :: 0 <= k < |ws| ==> IsWord(ws[k])
    decreases |s|
  {
    var t := DropSeps(s);
    if t == [] then []
    else
      var w := TakeWord(t);
      var rest := Tokens(t[|w|..]);
      assert IsWord(w);
      assert forall k :: 1 <= k < |rest| + 1 ==> ([w] + rest)[k] == rest[k - 1];
      [w] + rest
  }

  predicate IsDigit(ch: char)
  {
    '0' <= ch <= '9'
  }

  predicate AllDigits(ds: string)
  {
    forall k :: 0 <= k < |ds| ==> IsDigit(ds[k])
  }

  /** The value of a string of decimal digits, most significant first. */
  function DigitsValue(ds: string): nat
    requires AllDigits(ds)
  {
    if ds == [] then 0
    else DigitsValue(ds[..|ds| - 1]) * 10 + (ds[|ds| - 1] as int - '0' as int)
  }

  /** int() of one token: an optional sign and at least one ASCII digit. */
  function ParseInt(t: string): (v: Option<int>)
  {
    if t == [] then None
    else if t[0] == '-' || t[0] == '+' then
      var ds := t[1..];
      if ds == [] || !AllDigits(ds) then None
      else
        var v: int := DigitsValue(ds);
        if t[0] == '-' then Some(-v) else Some(v)
    else if AllDigits(t) then Some(DigitsValue(t))
    else None
  }

  /** parse_coord: exactly two tokens, each an integer; anything else is
      the ValueError the caller reports. */
  function ParseCoord(s: string): (rc: Option<(int, int)>)
    ensures rc.Some? ==> |Tokens(s)| == 2
    ensures |Tokens(s)| != 2 ==> rc.None?
    ensures rc.Some? <==> |Tokens(s)| == 2 && ParseInt(Tokens(s)[0]).Some? && ParseInt(Tokens(s)[1]).Some?
  {
    var parts := Tokens(s);
    if |parts| != 2 then None
    else
      match (ParseInt(parts[0]), ParseInt(parts[1]))
      case (Some(r), Some(c)) => Some((r, c))
      case _ => None
  }

  /** Decimal digits of a natural number, most significant first. */
  function NatDigits(n: nat): (ds: string)
    ensures ds != [] && AllDigits(ds)
  {
    if n < 10 then [('0' as int + n) as char]
    else NatDigits(n / 10) + [('0' as int + n % 10) as char]
  }

  /** How an integer is written back: a minus sign for negatives. */
  function ShowInt(n: int): (s: string)
    ensures IsWord(s)
  {
    if n < 0 then "-" + NatDigits(-n) else NatDigits(n)
  }

  lemma {:induction false} DigitsRoundTrip(n: nat)
    ensures DigitsValue(NatDigits(n)) == n
  {
    if n >= 10 {
      DigitsRoundTrip(n / 10);
      var ds := NatDigits(n);
      assert ds[..|ds| - 1] == NatDigits(n / 10);
    }
  }

  lemma ParseIntRoundTrip(n: int)
    ensures ParseInt(ShowInt(n)) == Some(n)
  {
    if n < 0 {
      DigitsRoundTrip(-n);
      assert ShowInt(n)[1..] == NatDigits(-n);
    } else {
      DigitsRoundTrip(n);
    }
  }

  lemma {:induction false} TakeWordOfWord(w: string, rest: string)
    requires forall k :: 0 <= k < |w| ==> !IsSep(w[k])
    requires rest == [] || IsSep(rest[0])
    ensures TakeWord(w + rest) == w
  {
    if w != [] {
      assert (w + rest)[1..] == w[1..] + rest;
      TakeWordOfWord(w[1..], rest);
    } else {
      assert w + rest == rest;
    }
  }

  lemma {:induction false} DropSepsOfSeps(seps: string, rest: string)
    requires forall k :: 0 <= k < |seps| ==> IsSep(seps[k])
    ensures DropSeps(seps + rest) == DropSeps(rest)
  {
    if seps != [] {
      assert (seps + rest)[1..] == seps[1..] + rest;
      DropSepsOfSeps(seps[1..], rest);
    } else {
      assert seps + rest == rest;
    }
  }

  /** A word followed by a separator (or by nothing) is the first token. */
  lemma TokensOfWord(w: string, rest: string)
    requires IsWord(w)
    requires rest == [] || IsSep(rest[0])
    ensures Tokens(w + rest) == [w] + Tokens(rest)
  {
    var s := w + rest;
    assert DropSeps(s) == s;
    TakeWordOfWord(w, rest);
    assert s[|w|..] == rest;
  }

  /** Leading separators produce no token. */
  lemma TokensSkipSeps(seps: string, rest: string)
    requires forall k :: 0 <= k < |seps| ==> IsSep(seps[k])
    ensures Tokens(seps + rest) == Tokens(rest)
  {
    DropSepsOfSeps(seps, rest);
  }

  /** Two words around a separator run split back into those two words. */
  lemma TokensOfPair(a: string, sep: string, b: string)
    requires IsWord(a) && IsWord(b) && sep != []
    requires forall k :: 0 <= k < |sep| ==> IsSep(sep[k])
    ensures Tokens(a + sep + b) == [a, b]
  {
    assert a + sep + b == a + (sep + b);
    TokensOfWord(a, sep + b);
    TokensSkipSeps(sep, b);
    assert b == b + [];
    TokensOfWord(b, []);
    assert Tokens([]) == [];
  }

  /** Whatever a player types as "r,c", "r c" or "r , c" reads back as the
      coordinates they meant. */
  lemma ParseCoordRoundTrip(r: int, c: int, sep: string)
    requires sep == "," || sep == " " || sep == " , "
    ensures ParseCoord(ShowInt(r) + sep + ShowInt(c)) == Some((r, c))
  {
    TokensOfPair(ShowInt(r), sep, ShowInt(c));
    ParseIntRoundTrip(r);
    ParseIntRoundTrip(c);
  }

  /** Three tokens are refused however well-formed each one is. */
  lemma ExtraTokenRefused(r: int, c: int, x: int)
    ensures ParseCoord(ShowInt(r) + "," + ShowInt(c) + "," + ShowInt(x)).None?
  {
    var a, b, d := ShowInt(r), ShowInt(c), ShowInt(x);
    assert a + "," + b + "," + d == a + ("," + (b + "," + d));
    TokensOfWord(a, "," + (b + "," + d));
    TokensSkipSeps(",", b + "," + d);
    TokensOfPair(b, ",", d);
  }

  // ------------------------------------------------------------ placement

  /** Whether (i, j) lies on the ship of `size` cells starting at (r, c),
      going right when `horizontal`, down otherwise. */
  predicate InSegment(r: int, c: int, size: nat, horizontal: bool, i: int, j: int)
  {
    if horizontal then i == r && c <= j < c + size else j == c && r <= i < r + size
  }

  /** can_place for a start cell on the board (both callers check that
      first): the ship must stay on the board and cover only water. */
  method CanPlace(b: Grid, r: nat, c: nat, size: nat, horizontal: bool) returns (ok: bool)
    requires IsGrid(b) && InRange(r, c)
    ensures ok <==> (if horizontal then c + size <= BoardSize else r + size <= BoardSize)
                    && forall i, j :: InRange(i, j) && InSegment(r, c, size, horizontal, i, j) ==> b[i][j] == Water
  {
    if horizontal {
      if c + size > BoardSize { return false; }
      var k := 0;
      while k < size
        invariant 0 <= k <= size
        invariant forall j :: c <= j < c + k ==> b[r][j] == Water
      {
        if b[r][c + k] != Water {
          return false;
        }
        k := k + 1;
      }
    } else {
      if r + size > BoardSize { return false; }
      var k := 0;
      while k < size
        invariant 0 <= k <= size
        invariant forall i :: r <= i < r + k ==> b[i][c] == Water
      {
        if b[r + k][c] != Water {
          return false;
        }
        k := k + 1;
      }
    }
    return true;
  }

  /** The number of cells of a row that are not water. */
  function RowShips(row: seq<Cell>): nat
  {
    if row == [] then 0 else (if row[0] != Water then 1 else 0) + RowShips(row[1..])
  }

  /** The number of cells of a board that are not water. */
  function Occupied(b: Grid): nat
  {
    if b == [] then 0 else RowShips(b[0]) + Occupied(b[1..])
  }

  lemma {:induction false} RowShipsUpdate(row: seq<Cell>, j: nat, v: Cell)
    requires j < |row|
    ensures RowShips(row[j := v]) + (if row[j] != Water then 1 else 0)
            == RowShips(row) + (if v != Water then 1 else 0)
  {
    if j > 0 {
      RowShipsUpdate(row[1..], j - 1, v);
      assert row[j := v][1..] == row[1..][j - 1 := v];
    }
  }

  lemma {:induction false} OccupiedUpdate(b: Grid, i: nat, row: seq<Cell>)
    requires i < |b|
    ensures Occupied(b[i := row]) + RowShips(b[i]) == Occupied(b) + RowShips(row)
  {
    if i > 0 {
      OccupiedUpdate(b[1..], i - 1, row);
      assert b[i := row][1..] == b[1..][i - 1 := row];
    }
  }

  /** Painting one water cell with a ship symbol adds one occupied cell. */
  lemma SetCellOccupied(b: Grid, i: nat, j: nat, v: Cell)
    requires i < |b| && j < |b[i]| && b[i][j] == Water && v != Water
    ensures Occupied(SetCell(b, i, j, v)) == Occupied(b) + 1
  {
    RowShipsUpdate(b[i], j, v);
    OccupiedUpdate(b, i, b[i][j := v]);
  }

  /** place_ship over a segment can_place accepted: the symbol goes into
      exactly the segment's cells, which were water, so the board gains
      `size` occupied cells. */
  method PlaceShip(b: Grid, r: nat, c: nat, size: nat, horizontal: bool, symbol: Cell) returns (b': Grid)
    requires IsGrid(b) && InRange(r, c) && symbol != Water
    requires if horizontal then c + size <= BoardSize else r + size <= BoardSize
    requires forall i, j :: InRange(i, j) && InSegment(r, c, size, horizontal, i, j) ==> b[i][j] == Water
    ensures IsGrid(b')
    ensures forall i, j :: InRange(i, j) ==>
              b'[i][j] == (if InSegment(r, c, size, horizontal, i, j) then symbol else b[i][j])
    ensures Occupied(b') == Occupied(b) + size
  {
    b' := b;
    var k := 0;
    while k < size
      invariant 0 <= k <= size
      invariant IsGrid(b')
      invariant forall i, j :: InRange(i, j) ==>
                  b'[i][j] == (if InSegment(r, c, k, horizontal, i, j) then symbol else b[i][j])
      invariant Occupied(b') == Occupied(b) + k
    {
      var i, j := if horizontal then r else r + k, if horizontal then c + k else c;
      assert InSegment(r, c, size, horizontal, i, j);
      SetCellOccupied(b', i, j, symbol);
      b' := SetCell(b', i, j, symbol);
      k := k + 1;
    }
  }

  /** One random draw of auto_place_ships: randint(0, 9) twice and a
      choice between H and V. */
  datatype Draw = Draw(row: nat, col: nat, horizontal: bool)

  /** SHIPS' sizes add up to seventeen cells. */
  function FleetCells(ships: seq<Ship>): nat
  {
    if ships == [] then 0 else ships[0].size + FleetCells(ships[1..])
  }

  lemma FleetIsSeventeen()
    ensures FleetCells(Fleet) == 17
  {
    assert Fleet[1..][1..][1..][1..][1..] == [];
  }

  /** A ship of `size` cells fits at draw `d`: it starts on the board,
      stays on it, and covers only water. */
  ghost predicate Fits(b: Grid, d: Draw, size: nat)
  {
    && IsGrid(b) && InRange(d.row, d.col)
    && (if d.horizontal then d.col + size <= BoardSize else d.row + size <= BoardSize)
    && forall i, j :: InRange(i, j) && InSegment(d.row, d.col, size, d.horizontal, i, j) ==> b[i][j] == Water
  }

  /** The `while not placed` loop for one ship: draws are taken in turn
      until one fits, and the ship is painted there. */
  method PlaceOne(b: Grid, draws: seq<Draw>, from: nat, size: nat, symbol: Cell)
    returns (b': Grid, used: nat, placed: bool)
    requires IsGrid(b) && from <= |draws| && symbol != Water
    requires forall k :: 0 <= k < |draws| ==> InRange(draws[k].row, draws[k].col)
    ensures from <= used <= |draws| && IsGrid(b')
    ensures placed ==> Occupied(b') == Occupied(b) + size
    ensures forall i, j :: InRange(i, j) ==> b'[i][j] == b[i][j] || b'[i][j] == symbol
    ensures placed ==> && from < used && Fits(b, draws[used - 1], size)
                       && forall i, j :: InRange(i, j) ==>
                            b'[i][j] == (if InSegment(draws[used - 1].row, draws[used - 1].col, size,
                                                      draws[used - 1].horizontal, i, j)
                                         then symbol else b[i][j])
    ensures forall k :: from <= k < used && (k < used - 1 || !placed) ==> !Fits(b, draws[k], size)
    ensures !placed ==> used == |draws| && b' == b
  {
    used := from;
    while used < |draws|
      invariant from <= used <= |draws|
      invariant forall k :: from <= k < used ==> !Fits(b, draws[k], size)
    {
      var d := draws[used];
      used := used + 1;
      var fits := CanPlace(b, d.row, d.col, size, d.horizontal);
      if fits {
        b' := PlaceShip(b, d.row, d.col, size, d.horizontal, symbol);
        return b', used, true;
      }
    }
    return b, used, false;
  }

  lemma SymbolsAreNotWater()
    ensures Water !in ShipSymbols
  {
    ShipSymbolsAreFour();
  }

  /** Every square holds water or a ship symbol. */
  ghost predicate ShipsOnly(b: Grid)
    requires IsGrid(b)
  {
    forall i, j :: InRange(i, j) ==> b[i][j] == Water || b[i][j] in ShipSymbols
  }

  /** One ship of the fleet, written with its own symbol. */
  method PlaceNext(b: Grid, draws: seq<Draw>, from: nat, ship: Ship)
    returns (b': Grid, used: nat, placed: bool)
    requires IsGrid(b) && from <= |draws| && Symbol(ship) in ShipSymbols
    requires forall k :: 0 <= k < |draws| ==> InRange(draws[k].row, draws[k].col)
    requires ShipsOnly(b)
    ensures from <= used <= |draws| && IsGrid(b')
    ensures placed ==> Occupied(b') == Occupied(b) + ship.size
    ensures !placed ==> used == |draws| && b' == b
    ensures ShipsOnly(b')
  {
    SymbolsAreNotWater();
    b', used, placed := PlaceOne(b, draws, from, ship.size, Symbol(ship));
  }

  /** Each ship in turn takes draws until one fits. */
  method PlaceFleet(ships: seq<Ship>, draws: seq<Draw>) returns (board: Option<Grid>, used: nat)
    requires forall k :: 0 <= k < |draws| ==> InRange(draws[k].row, draws[k].col)
    requires forall k :: 0 <= k < |ships| ==> Symbol(ships[k]) in ShipSymbols
    ensures used <= |draws|
    ensures board.None? ==> used == |draws|
    ensures board.Some? ==>
              && IsGrid(board.value)
              && Occupied(board.value) == FleetCells(ships)
              && forall i, j :: InRange(i, j) ==> board.value[i][j] == Water || board.value[i][j] in ShipSymbols
  {
    var b := EmptyBoard();
    EmptyHasNoShips(b);
    used := 0;
    var s := 0;
    while s < |ships|
      invariant 0 <= s <= |ships| && used <= |draws|
      invariant IsGrid(b)
      invariant Occupied(b) + FleetCells(ships[s..]) == FleetCells(ships)
      invariant ShipsOnly(b)
    {
      assert ships[s..][1..] == ships[s + 1..];
      assert FleetCells(ships[s..]) == ships[s].size + FleetCells(ships[s + 1..]);
      var placed;
      b, used, placed := PlaceNext(b, draws, used, ships[s]);
      if !placed {
        return None, used;
      }
      s := s + 1;
    }
    assert ships[s..] == [];
    return Some(b), used;
  }

  /** auto_place_ships over a finite run of random draws. When the draws
      run out before every ship is placed, no board comes back (the source
      would keep drawing). A board that does come back holds only water
      and ship symbols and has exactly 17 occupied cells, so no two ships
      overlap. */
  method AutoPlace(draws: seq<Draw>) returns (board: Option<Grid>, used: nat)
    requires forall k :: 0 <= k < |draws| ==> InRange(draws[k].row, draws[k].col)
    ensures used <= |draws|
    ensures board.None? ==> used == |draws|
    ensures board.Some? ==>
              && IsGrid(board.value)
              && Occupied(board.value) == 17
              && forall i, j :: InRange(i, j) ==> board.value[i][j] == Water || board.value[i][j] in ShipSymbols
  {
    FleetIsSeventeen();
    board, used := PlaceFleet(Fleet, draws);
  }

  lemma {:induction false} EmptyRowHasNoShips(row: seq<Cell>)
    requires forall k :: 0 <= k < |row| ==> row[k] == Water
    ensures RowShips(row) == 0
  {
    if row != [] {
      EmptyRowHasNoShips(row[1..]);
    }
  }

  lemma {:induction false} EmptyHasNoShips(b: Grid)
    requires forall i, j :: 0 <= i < |b| && 0 <= j < |b[i]| ==> b[i][j] == Water
    ensures Occupied(b) == 0
  {
    if b != [] {
      EmptyRowHasNoShips(b[0]);
      EmptyHasNoShips(b[1..]);
    }
  }

  // ------------------------------------------------------------ marks

  /** RESULT: the last attack (always on the board, since the input loop
      sends nothing else) is marked "X" on HIT and "o" on MISS; REPEAT and
      any other result leave the enemy view as it was. */
  function ApplyResult(view: Grid, last: Option<(int, int)>, result: string): (view': Grid)
    requires IsGrid(view) && (last.Some? ==> InRange(last.value.0, last.value.1))
    ensures IsGrid(view')
    ensures last.None? || (result != "HIT" && result != "MISS") ==> view' == view
    ensures last.Some? && (result == "HIT" || result == "MISS") ==>
              && view'[last.value.0][last.value.1] == (if result == "HIT" then HitMark else MissMark)
              && forall i, j :: InRange(i, j) && (i, j) != last.value ==> view'[i][j] == view[i][j]
  {
    match last
    case None => view
    case Some((r, c)) =>
      if result == "HIT" then SetCell(view, r, c, HitMark)
      else if result == "MISS" then SetCell(view, r, c, MissMark)
      else view
  }

  /** INCOMING: the player's own board is marked only for coordinates on
      the board, "X" on HIT and "o" on MISS. */
  function ApplyIncoming(board: Grid, r: int, c: int, result: string): (board': Grid)
    requires IsGrid(board)
    ensures IsGrid(board')
    ensures !InRange(r, c) || (result != "HIT" && result != "MISS") ==> board' == board
    ensures InRange(r, c) && (result == "HIT" || result == "MISS") ==>
              && board'[r][c] == (if result == "HIT" then HitMark else MissMark)
              && forall i, j :: InRange(i, j) && (i, j) != (r, c) ==> board'[i][j] == board[i][j]
  {
    if !InRange(r, c) then board
    else if result == "HIT" then SetCell(board, r, c, HitMark)
    else if result == "MISS" then SetCell(board, r, c, MissMark)
    else board
  }

  /** The defender's own board after INCOMING agrees with the server's copy
      after resolving the same shot: the client replays the server's
      marks, except that a ship cell hit twice reads REPEAT on both. */
  lemma IncomingMirrorsServer(b: Grid, r: nat, c: nat)
    requires IsGrid(b) && InRange(r, c)
    ensures var (shot, b') := Resolve(b, r, c);
            var result := match shot case Hit(_) => "HIT" case Miss => "MISS" case Repeat => "REPEAT";
            ApplyIncoming(b, r, c, result) == b'
  {
    var (shot, b') := Resolve(b, r, c);
    var result := match shot case Hit(_) => "HIT" case Miss => "MISS" case Repeat => "REPEAT";
    var mine := ApplyIncoming(b, r, c, result);
    assert |mine| == |b'|;
    forall i | 0 <= i < |b| ensures mine[i] == b'[i] {
      assert |mine[i]| == |b'[i]|;
      forall j | 0 <= j < |b[i]| ensures mine[i][j] == b'[i][j] {
      }
    }
  }
}

=== FILE: battle_duel.dfy ===
/** The developer's two-player Battleship server: HELLO-filtered seating
    of players A and B, then alternating turns where the first ship sunk
    wins. It does not bounds-check coordinates, so they index the board
    the way Python lists do. */
module DevBattle {
  import opened Battle

  /** Python list indexing into a row or column of the board: a negative
      index counts from the end, and anything else outside the board raises
      IndexError. */
  function PyIndex(i: int): (k: Option<nat>)
    ensures k.Some? <==> -(BoardSize as int) <= i < BoardSize
    ensures k.Some? ==> k.value < BoardSize && (k.value == i || k.value == i + BoardSize)
  {
    if 0 <= i < BoardSize then Some(i)
    else if -(BoardSize as int) <= i < 0 then Some(i + BoardSize)
    else None
  }

  /** await_players: accept until two HELLO-presenting players are in; the
      first is A and the second B. With fewer than two the server is still
      waiting. */
  method AwaitPair(arrivals: seq<FirstMessage>)
    returns (pair: Option<(Option<string>, Option<string>)>, accepted: nat)
    ensures pair.Some? <==> |HelloUsers(arrivals)| >= 2
    ensures pair.Some? ==> pair.value == (HelloUsers(arrivals)[0], HelloUsers(arrivals)[1])
    ensures accepted <= |arrivals|
  {
    var users;
    users, accepted := AcceptHellos(arrivals, 2);
    if |users| == 2 {
      pair := Some((users[0], users[1]));
    } else {
      pair := None;
    }
  }

  /** One iteration of relay_turn. */
  function RelayStep(d: Duel, attack: DuelAttack): (step: DuelStep)
    requires DuelReady(d)
    ensures step.Disconnected? <==> attack.Silent?
    ensures step.Crashed? <==>
              attack.Malformed? || (attack.At? && (PyIndex(attack.row).None? || PyIndex(attack.col).None?))
    ensures step.Won? ==> step.winner == AttackerOf(d) && DuelReady(step.duel)
    ensures step.Next? ==> && DuelReady(step.duel)
                           && step.duel.turn == NextTurn(d.turn)
                           && step.result.Fired?
    ensures (step.Won? || step.Next?) ==>
              (if d.turn == 1 then step.duel.board1 == d.board1 else step.duel.board2 == d.board2)
    ensures attack.At? && PyIndex(attack.row).Some? && PyIndex(attack.col).Some? ==>
              var (shot, b') := Resolve(DefenderBoard(d), PyIndex(attack.row).value, PyIndex(attack.col).value);
              && (step.Won? ==> DefenderBoard(step.duel) == b')
              && (step.Next? ==> step.result == Fired(shot) && (if d.turn == 1 then step.duel.board2 else step.duel.board1) == b')
  {
    match attack
    case Silent => Disconnected
    case Malformed => Crashed
    case At(row, col) =>
      match (PyIndex(row), PyIndex(col))
      case (Some(r), Some(c)) =>
        var (shot, b') := Resolve(DefenderBoard(d), r, c);
        var d' := WithDefenderBoard(d, b');
        if shot.Hit? && ShipSunk(b', shot.symbol) then Won(AttackerOf(d), d')
        else Next(d'.(turn := NextTurn(d.turn)), Fired(shot))
      case _ => Crashed
  }

  /** The first-ship-sunk rule: a shot on the board wins exactly when it
      hits the last remaining cell of some ship symbol. */
  lemma WinIffLastCellOfSymbol(d: Duel, r: int, c: int)
    requires DuelReady(d) && InRange(r, c)
    ensures var b := DefenderBoard(d);
            RelayStep(d, At(r, c)).Won? <==>
              && b[r][c] in ShipSymbols
              && forall i, j :: InRange(i, j) && (i, j) != (r, c) ==> b[i][j] != b[r][c]
  {
    var b := DefenderBoard(d);
    if b[r][c] in ShipSymbols {
      HitSinksIffLastCell(b, r, c);
    }
  }

  /** Without a bounds check, a row or column of -10..-1 aims at the same
      cell as the index ten higher. */
  lemma NegativeCoordinatesWrap(d: Duel, r: int, c: int)
    requires DuelReady(d) && InRange(r, c)
    ensures RelayStep(d, At(r - BoardSize, c)) == RelayStep(d, At(r, c))
    ensures RelayStep(d, At(r, c - BoardSize)) == RelayStep(d, At(r, c))
  {
    assert PyIndex(r - BoardSize) == Some(r);
    assert PyIndex(c - BoardSize) == Some(c);
  }

  /** Turns alternate: two steps that neither end the game come back to
      the same attacker, and a repeated cell still passes the turn. */
  lemma TurnsAlternate(d: Duel, a1: DuelAttack, a2: DuelAttack)
    requires DuelReady(d) && (d.turn == 1 || d.turn == 2)
    requires RelayStep(d, a1).Next?
    requires RelayStep(RelayStep(d, a1).duel, a2).Next?
    ensures RelayStep(RelayStep(d, a1).duel, a2).duel.turn == d.turn
    ensures AttackerOf(RelayStep(d, a1).duel) != AttackerOf(d)
  {
  }
}

=== FILE: battle_ring.dfy ===
/** The N-player Battleship server: HELLO-filtered seating of up to eight
    players with roles "1".."N", then a ring of turns over the seats still
    connected, where each attacker fires at the next live seat and the
    first ship sunk ends the match. */
module BattleRing {
  import opened Battle

  const MinPlayers: nat := 2
  const MaxPlayers: nat := 8

  // ------------------------------------------------------------ seating

  /** A seated player: the HELLO's user, the role number, whether the
      connection is still there, and the board it submitted (None until
      then, or when it sent none). */
  datatype Seat = Seat(user: Option<string>, role: nat, connected: bool, board: Option<Grid>)

  /** await_players over the connections that arrive before the join
      grace window closes: at most eight HELLO-presenting players are
      seated, with roles 1..N in arrival order. */
  method AwaitPlayers(arrivals: seq<FirstMessage>) returns (seats: seq<Seat>, accepted: nat)
    ensures var hellos := HelloUsers(arrivals);
            && |seats| == (if |hellos| < MaxPlayers then |hellos| else MaxPlayers)
            && (forall k :: 0 <= k < |seats| ==> seats[k] == Seat(hellos[k], k + 1, true, None))
    ensures accepted <= |arrivals|
    ensures accepted < |arrivals| ==> |seats| == MaxPlayers
  {
    var users;
    users, accepted := AcceptHellos(arrivals, MaxPlayers);
    seats := [];
    var k := 0;
    while k < |users|
      invariant 0 <= k <= |users|
      invariant |seats| == k
      invariant forall j :: 0 <= j < k ==> seats[j] == Seat(users[j], j + 1, true, None)
    {
      seats := seats + [Seat(users[k], k + 1, true, None)];
      k := k + 1;
    }
  }

  // ------------------------------------------------------------ the ring

  datatype Ring = Ring(seats: seq<Seat>, alive: seq<nat>, turnPos: nat)

  predicate Increasing(s: seq<nat>)
  {
    forall k, l :: 0 <= k < l < |s| ==> s[k] < s[l]
  }

  /** Every live index names a seat that submitted a 10x10 board, and the
      live list keeps seat order. */
  ghost predicate ValidRing(ring: Ring)
  {
    && Increasing(ring.alive)
    && forall k :: 0 <= k < |ring.alive| ==>
         && ring.alive[k] < |ring.seats|
         && ring.seats[ring.alive[k]].board.Some?
         && IsGrid(ring.seats[ring.alive[k]].board.value)
  }

  /** The seats that hold a board, in seat order. */
  function WithBoards(seats: seq<Seat>, from: nat): (alive: seq<nat>)
    requires from <= |seats|
    decreases |seats| - from
    ensures Increasing(alive)
    ensures forall k :: 0 <= k < |alive| ==> from <= alive[k] < |seats| && seats[alive[k]].board.Some?
    ensures forall i :: from <= i < |seats| && seats[i].board.Some? ==> i in alive
  {
    if from == |seats| then []
    else
      var rest := WithBoards(seats, from + 1);
      if seats[from].board.Some? then [from] + rest else rest
  }

  /** relay_turn's start: the seats with boards, or nothing to play when
      fewer than two have one. */
  function StartRelay(seats: seq<Seat>): (r: Option<Ring>)
    requires forall i :: 0 <= i < |seats| && seats[i].board.Some? ==> IsGrid(seats[i].board.value)
    ensures r.Some? ==> ValidRing(r.value) && r.value.seats == seats && r.value.turnPos == 0
                        && |r.value.alive| >= 2
                        && forall i :: 0 <= i < |seats| ==> (i in r.value.alive <==> seats[i].board.Some?)
  {
    var alive := WithBoards(seats, 0);
    if |alive| < MinPlayers then None else Some(Ring(seats, alive, 0))
  }

  /** The live list with the disconnected seats dropped, order kept. */
  function StillConnected(seats: seq<Seat>, alive: seq<nat>): (out: seq<nat>)
    requires forall k :: 0 <= k < |alive| ==> alive[k] < |seats|
    ensures |out| <= |alive|
    ensures forall k :: 0 <= k < |out| ==> out[k] < |seats|
    ensures forall i :: i in out <==> i in alive && seats[i].connected
    ensures Increasing(alive) ==> Increasing(out)
  {
    if alive == [] then []
    else
      var rest := StillConnected(seats, alive[1..]);
      assert forall k :: 1 <= k < |alive| ==> alive[k] == alive[1..][k - 1];
      if seats[alive[0]].connected then
        var out := [alive[0]] + rest;
        assert Increasing(alive) ==> Increasing(out) by {
          if Increasing(alive) {
            forall k, l | 0 <= k < l < |out| ensures out[k] < out[l] {
              if k == 0 {
                assert out[l] in alive[1..];
              }
            }
          }
        }
        out
      else rest
  }

  /** The live list this iteration works on. */
  function Live(ring: Ring): seq<nat>
    requires ValidRing(ring)
  {
    StillConnected(ring.seats, ring.alive)
  }

  /** turn_pos, wrapped to 0 once it runs off the end of the live list. */
  function Cursor(ring: Ring): (tp: nat)
    requires ValidRing(ring) && |Live(ring)| >= 2
    ensures tp < |Live(ring)|
  {
    if ring.turnPos >= |Live(ring)| then 0 else ring.turnPos
  }

  function Attacker(ring: Ring): nat
    requires ValidRing(ring) && |Live(ring)| >= 2
  {
    Live(ring)[Cursor(ring)]
  }

  function Defender(ring: Ring): nat
    requires ValidRing(ring) && |Live(ring)| >= 2
  {
    Live(ring)[(Cursor(ring) + 1) % |Live(ring)|]
  }

  /** The defender is the next live seat after the attacker in ring order:
      a different seat, and no live seat sits between the two. */
  lemma DefenderIsNextLiveSeat(ring: Ring)
    requires ValidRing(ring) && |Live(ring)| >= 2
    ensures Attacker(ring) != Defender(ring)
    ensures Attacker(ring) < Defender(ring) ==>
              forall j :: j in Live(ring) ==> !(Attacker(ring) < j < Defender(ring))
    ensures Defender(ring) < Attacker(ring) ==>
              forall j :: j in Live(ring) ==> Defender(ring) <= j <= Attacker(ring)
  {
    var live := Live(ring);
    var tp := Cursor(ring);
    var nx := if tp + 1 < |live| then tp + 1 else 0;
    WrapNext(tp, |live|);
    assert Attacker(ring) == live[tp] && Defender(ring) == live[nx];
    NextInIncreasing(live, tp, nx);
  }

  lemma WrapNext(tp: nat, n: nat)
    requires tp < n
    ensures (tp + 1) % n == if tp + 1 < n then tp + 1 else 0
  {
  }

  /** In an ascending list, the entry after position tp (wrapping round to
      position 0) is the next one in ring order. */
  lemma NextInIncreasing(live: seq<nat>, tp: nat, nx: nat)
    requires Increasing(live) && |live| >= 2 && tp < |live|
    requires nx == if tp + 1 < |live| then tp + 1 else 0
    ensures live[tp] != live[nx]
    ensures live[tp] < live[nx] ==> forall j :: j in live ==> !(live[tp] < j < live[nx])
    ensures live[nx] < live[tp] ==> forall j :: j in live ==> live[nx] <= j <= live[tp]
  {
    if nx == tp + 1 {
      assert live[tp] < live[nx];
      forall j | j in live ensures !(live[tp] < j < live[nx]) {
        var k :| 0 <= k < |live| && live[k] == j;
        if k < tp { assert live[k] < live[tp]; }
        else if k > nx { assert live[nx] < live[k]; }
      }
    } else {
      assert live[nx] < live[tp];
      forall j | j in live ensures live[nx] <= j <= live[tp] {
        var k :| 0 <= k < |live| && live[k] == j;
        if k > 0 { assert live[0] < live[k]; }
        if k < tp { assert live[k] < live[tp]; }
      }
    }
  }

  // ------------------------------------------------------------ one turn

  /** What the attacker's connection does this turn: YOUR_TURN cannot be
      sent; the connection closes or sends a falsy JSON value ({}, [], 0,
      "", null); the line is not JSON or the connection resets, which
      raises out of recv_json uncaught; or a truthy JSON value whose row
      and col do or do not survive int() (a value without them, or not a
      dict, reads as neither). */
  datatype Attack = SendFailed | Lost | Malformed | Coords(row: Option<int>, col: Option<int>)

  datatype Verdict = Win | Lose

  /** The reply the attacker gets: REPEAT for malformed or out-of-range
      coordinates, otherwise the resolved shot. */
  datatype Reply = Rejected | Resolved(shot: Shot)

  /** Crashed: the exception leaves relay_turn and start(), so the server
      ends without sending WIN or LOSE. */
  datatype Step =
    | Crashed
    | Abandoned
    | Walkover(winner: nat)
    | Continue(ring: Ring, reply: Option<Reply>)
    | Victory(ring: Ring, winner: nat, verdicts: seq<Option<Verdict>>)

  /** What each seat is sent when the match is won: WIN to the winner,
      LOSE to every other seat still connected, nothing to the rest. */
  function Verdicts(seats: seq<Seat>, winner: nat): (vs: seq<Option<Verdict>>)
    ensures |vs| == |seats|
    ensures forall i :: 0 <= i < |seats| ==> (vs[i].Some? <==> seats[i].connected)
    ensures forall i :: 0 <= i < |seats| && vs[i].Some? ==> (vs[i].value == Win <==> i == winner)
  {
    seq(|seats|, i requires 0 <= i < |seats| =>
      if !seats[i].connected then None else if i == winner then Some(Win) else Some(Lose))
  }

  /** The attacker's shot at the defender, once both are known to be live
      and the defender has a board. */
  function Shoot(seats: seq<Seat>, live: seq<nat>, tp: nat, a: nat, d: nat,
                 row: Option<int>, col: Option<int>): (step: Step)
    requires ValidRing(Ring(seats, live, tp))
    requires a < |seats| && d < |seats| && seats[d].board.Some? && IsGrid(seats[d].board.value)
    ensures step.Continue? || step.Victory?
    ensures step.Continue? ==> ValidRing(step.ring) && step.ring.alive == live
    ensures step.Victory? ==> ValidRing(step.ring) && step.ring.alive == live
    ensures row.Some? && col.Some? && InRange(row.value, col.value) ==>
              var (shot, b') := Resolve(seats[d].board.value, row.value, col.value);
              && step.ring.seats == seats[d := seats[d].(board := Some(b'))]
              && (step.Continue? ==> step.reply == Some(Resolved(shot)))
  {
    if row.None? || col.None? || !InRange(row.value, col.value) then
      Continue(Ring(seats, live, tp), Some(Rejected))
    else
      var (shot, board') := Resolve(seats[d].board.value, row.value, col.value);
      var seats' := seats[d := seats[d].(board := Some(board'))];
      assert IsGrid(board');
      if shot.Hit? && ShipSunk(board', shot.symbol) then
        Victory(Ring(seats', live, tp), a, Verdicts(seats', a))
      else
        Continue(Ring(seats', live, tp + 1), Some(Resolved(shot)))
  }

  /** One iteration of relay_turn's loop. */
  function RelayStep(ring: Ring, attack: Attack): (step: Step)
    requires ValidRing(ring)
    ensures |Live(ring)| == 0 <==> step.Abandoned?
    ensures |Live(ring)| == 1 <==> step.Walkover?
    ensures step.Walkover? ==> step.winner == Live(ring)[0]
    ensures step.Continue? ==> ValidRing(step.ring) && step.ring.alive == Live(ring)
    ensures step.Victory? ==> ValidRing(step.ring) && step.ring.alive == Live(ring)
    ensures step.Crashed? <==> |Live(ring)| >= 2 && attack.Malformed?
    ensures |Live(ring)| >= 2 && (attack.SendFailed? || attack.Lost?) ==>
              var a := Attacker(ring);
              step == Continue(Ring(ring.seats[a := ring.seats[a].(connected := false)], Live(ring), Cursor(ring)), None)
  {
    var live := Live(ring);
    if |live| == 0 then Abandoned
    else if |live| == 1 then Walkover(live[0])
    else
      var tp := Cursor(ring);
      var a := Attacker(ring);
      var d := Defender(ring);
      var seats := ring.seats;
      assert ValidRing(Ring(seats, live, tp));
      // The source skips the turn when either side is gone or the defender
      // has no board; the live list already excludes all three.
      if !seats[a].connected || !seats[d].connected || seats[d].board.None? then
        assert false; Abandoned
      else
        match attack
        case SendFailed => Continue(Ring(seats[a := seats[a].(connected := false)], live, tp), None)
        case Lost => Continue(Ring(seats[a := seats[a].(connected := false)], live, tp), None)
        case Malformed => Step.Crashed
        case Coords(row, col) => Shoot(seats, live, tp, a, d, row, col)
  }

  /** A malformed or out-of-range attack changes no board and leaves the
      turn with the same attacker. */
  lemma RejectedShotChangesNothing(ring: Ring, row: Option<int>, col: Option<int>)
    requires ValidRing(ring) && |Live(ring)| >= 2
    requires row.None? || col.None? || !InRange(row.value, col.value)
    ensures var step := RelayStep(ring, Coords(row, col));
            && step.Continue?
            && step.ring.seats == ring.seats
            && Attacker(step.ring) == Attacker(ring)
            && step.reply == Some(Rejected)
  {
    assert Live(ring) == StillConnected(ring.seats, ring.alive);
    var step := RelayStep(ring, Coords(row, col));
    LiveStable(ring, step.ring);
  }

  /** Filtering an already-filtered live list changes nothing. */
  lemma LiveStable(ring: Ring, next: Ring)
    requires ValidRing(ring) && ValidRing(next)
    requires next.seats == ring.seats && next.alive == Live(ring)
    ensures Live(next) == next.alive
  {
    StillConnectedIdempotent(ring.seats, ring.alive);
  }

  lemma {:induction false} StillConnectedIdempotent(seats: seq<Seat>, alive: seq<nat>)
    requires forall k :: 0 <= k < |alive| ==> alive[k] < |seats|
    ensures StillConnected(seats, StillConnected(seats, alive)) == StillConnected(seats, alive)
  {
    if alive != [] {
      StillConnectedIdempotent(seats, alive[1..]);
    }
  }

  /** A resolved shot changes one cell of the defender's board and nothing
      else, and hands the turn to the next position in the ring. */
  lemma ResolvedShotTouchesOneCell(ring: Ring, r: int, c: int)
    requires ValidRing(ring) && |Live(ring)| >= 2 && InRange(r, c)
    ensures var step := RelayStep(ring, Coords(Some(r), Some(c)));
            var d := Defender(ring);
            var before := ring.seats[d].board.value;
            && (step.Continue? || step.Victory?)
            && |step.ring.seats| == |ring.seats|
            && (forall i :: 0 <= i < |ring.seats| && i != d ==> step.ring.seats[i] == ring.seats[i])
            && step.ring.seats[d].board.Some?
            && (forall i, j :: InRange(i, j) && (i, j) != (r, c) ==>
                  step.ring.seats[d].board.value[i][j] == before[i][j])
            && (step.Continue? ==> step.ring.turnPos == Cursor(ring) + 1)
  {
  }

  /** An on-board shot is resolved on the defender's board: that board
      becomes the one Resolve gives, every other seat is kept, and when the
      match goes on the attacker is told the resolved shot. */
  lemma ShotIsResolved(ring: Ring, r: int, c: int)
    requires ValidRing(ring) && |Live(ring)| >= 2 && InRange(r, c)
    ensures var step := RelayStep(ring, Coords(Some(r), Some(c)));
            var d := Defender(ring);
            var (shot, b') := Resolve(ring.seats[d].board.value, r, c);
            && (step.Continue? || step.Victory?)
            && step.ring.seats == ring.seats[d := ring.seats[d].(board := Some(b'))]
            && (step.Continue? ==> step.reply == Some(Resolved(shot)))
  {
  }

  /** A hit that removes the last cell of its symbol ends the match with
      WIN for the attacker and LOSE for every other connected seat. */
  lemma SinkingHitWins(ring: Ring, r: int, c: int)
    requires ValidRing(ring) && |Live(ring)| >= 2 && InRange(r, c)
    requires var b := ring.seats[Defender(ring)].board.value;
             b[r][c] in ShipSymbols
             && forall i, j :: InRange(i, j) && (i, j) != (r, c) ==> b[i][j] != b[r][c]
    ensures var step := RelayStep(ring, Coords(Some(r), Some(c)));
            && step.Victory? && step.winner == Attacker(ring)
            && |step.verdicts| == |ring.seats|
            && step.verdicts[Attacker(ring)] == Some(Win)
            && (forall i :: 0 <= i < |ring.seats| && i != Attacker(ring) && ring.seats[i].connected ==>
                  step.verdicts[i] == Some(Lose))
  {
    var b := ring.seats[Defender(ring)].board.value;
    HitSinksIffLastCell(b, r, c);
  }

  /** The first-ship-sunk rule in both directions: an on-board shot ends
      the match exactly when it hits the last cell of a ship symbol on the
      defender's board. */
  lemma WinIffLastCellOfSymbol(ring: Ring, r: int, c: int)
    requires ValidRing(ring) && |Live(ring)| >= 2 && InRange(r, c)
    ensures var b := ring.seats[Defender(ring)].board.value;
            RelayStep(ring, Coords(Some(r), Some(c))).Victory? <==>
              && b[r][c] in ShipSymbols
              && forall i, j :: InRange(i, j) && (i, j) != (r, c) ==> b[i][j] != b[r][c]
  {
    var b := ring.seats[Defender(ring)].board.value;
    if b[r][c] in ShipSymbols {
      HitSinksIffLastCell(b, r, c);
    }
  }

  /** A lost attacker is dropped from the ring: the next iteration's live
      list no longer holds it, and every other live seat stays. */
  lemma LostAttackerLeavesRing(ring: Ring)
    requires ValidRing(ring) && |Live(ring)| >= 2
    ensures var step := RelayStep(ring, Lost);
            && step.Continue?
            && Attacker(ring) !in Live(step.ring)
            && forall i :: i in Live(ring) && i != Attacker(ring) ==> i in Live(step.ring)
  {
    var step := RelayStep(ring, Lost);
    var a := Attacker(ring);
    assert a in Live(ring);
  }
}

=== FILE: bytes.dfy ===
/** Byte sequences, the 4-byte big-endian length header every framed socket
    in the system writes, and the "read exactly n bytes" loop the three
    framing codecs share. */
module Bytes {

  type byte = x: int | 0 <= x < 256

  /** 256^k, the number of values k bytes can carry. */
  function Pow256(k: nat): (r: nat)
    ensures r >= 1
  {
    if k == 0 then 1 else 256 * Pow256(k - 1)
  }

  const HeaderSize: nat := 4
  const Uint32Limit: nat := 0x1_0000_0000

  /** The k big-endian base-256 digits of n (what struct.pack with a
      network-order unsigned format writes). */
  function ToBigEndian(n: nat, k: nat): (s: seq<byte>)
    requires n < Pow256(k)
    ensures |s| == k
  {
    if k == 0 then []
    else ToBigEndian(n / 256, k - 1) + [(n % 256) as byte]
  }

  /** The unsigned number a big-endian byte string denotes. */
  function FromBigEndian(s: seq<byte>): (n: nat)
    ensures n < Pow256(|s|)
  {
    if s == [] then 0
    else FromBigEndian(s[..|s| - 1]) * 256 + s[|s| - 1]
  }

  lemma {:induction false} FromToBigEndian(n: nat, k: nat)
    requires n < Pow256(k)
    ensures FromBigEndian(ToBigEndian(n, k)) == n
  {
    if k > 0 {
      var s := ToBigEndian(n, k);
      assert s[..|s| - 1] == ToBigEndian(n / 256, k - 1);
      FromToBigEndian(n / 256, k - 1);
    }
  }

  lemma {:induction false} ToFromBigEndian(s: seq<byte>)
    ensures ToBigEndian(FromBigEndian(s), |s|) == s
  {
    if s != [] {
      var n := FromBigEndian(s);
      var init := s[..|s| - 1];
      assert n / 256 == FromBigEndian(init);
      assert n % 256 == s[|s| - 1];
      ToFromBigEndian(init);
    }
  }

  /** The 4-byte network-order header for a length below 2^32. */
  function Be32(n: nat): (h: seq<byte>)
    requires n < Uint32Limit
    ensures |h| == HeaderSize
    ensures FromBigEndian(h) == n
  {
    assert Pow256(4) == Uint32Limit;
    FromToBigEndian(n, 4);
    ToBigEndian(n, 4)
  }

  /** Be32 is injective on what it can encode, and every 4-byte header is
      the encoding of the length it denotes. */
  lemma Be32Inverse(h: seq<byte>)
    requires |h| == HeaderSize
    ensures FromBigEndian(h) < Uint32Limit
    ensures Be32(FromBigEndian(h)) == h
  {
    assert Pow256(4) == Uint32Limit;
    ToFromBigEndian(h);
  }

  /** What a blocking "receive exactly n bytes" yields on a stream whose
      remaining bytes (up to end-of-stream) are `stream`: the first n bytes
      and the rest, or None when the stream ends first. */
  datatype Read = Short | Got(data: seq<byte>, rest: seq<byte>)

  function ReadExact(stream: seq<byte>, n: nat): (r: Read)
    ensures r.Got? <==> n <= |stream|
    ensures r.Got? ==> |r.data| == n && r.data + r.rest == stream
  {
    if n <= |stream| then Got(stream[..n], stream[n..]) else Short
  }

  /** The recv loop of all three codecs. Each call to the socket's recv asks
      for the bytes still missing and receives between one and that many,
      as `chunkLimit` (the operating system's choice for the i-th call)
      allows; an empty chunk means end-of-stream and ends the read. */
  method RecvAll(stream: seq<byte>, n: nat, chunkLimit: nat -> nat)
    returns (r: Read, calls: nat)
    ensures r == ReadExact(stream, n)
    ensures r.Got? ==> calls <= n
  {
    var buf: seq<byte> := [];
    var s := stream;
    calls := 0;
    while |buf| < n
      invariant buf + s == stream
      invariant |buf| <= n
      invariant calls <= |buf|
      decreases n - |buf|
    {
      if s == [] {
        return Short, calls + 1;
      }
      var want := n - |buf|;
      var k := chunkLimit(calls);
      if k < 1 { k := 1; }
      if k > want { k := want; }
      if k > |s| { k := |s|; }
      buf := buf + s[..k];
      s := s[k..];
      calls := calls + 1;
    }
    assert buf == stream[..n];
    return Got(buf, s), calls;
  }
}

=== FILE: catalog.dfy ===
/** StoreManager: the game catalog as an ordered list of entries, with id
    allocation, lookup, registration, version update and owner-only
    removal. The JSON file behind it is not modelled. */
module Catalog {

  datatype Option<T> = None | Some(value: T)

  datatype Game = Game(
    gameId: int,
    name: string,
    version: string,
    developer: string,
    path: string,
    description: string)

  datatype Catalog = Catalog(games: seq<Game>, nextId: int)

  /** max(game_id for g in games), or `default` for an empty list. */
  function MaxId(games: seq<Game>, default: int): (m: int)
    ensures games == [] ==> m == default
    ensures games != [] ==> exists k :: 0 <= k < |games| && games[k].gameId == m
    ensures forall k :: 0 <= k < |games| ==> games[k].gameId <= m
  {
    if games == [] then default
    else
      var rest := MaxId(games[1..], games[0].gameId);
      assert forall k :: 1 <= k < |games| ==> games[k] == games[1..][k - 1];
      if games[0].gameId > rest then games[0].gameId else rest
  }

  /** Loading: the next id is one past the largest id present, or 1. */
  function Load(games: seq<Game>): (c: Catalog)
    ensures c.games == games
    ensures games == [] ==> c.nextId == 1
    ensures forall k :: 0 <= k < |games| ==> games[k].gameId < c.nextId
    ensures games != [] ==> exists k :: 0 <= k < |games| && games[k].gameId == c.nextId - 1
  {
    Catalog(games, MaxId(games, 0) + 1)
  }

  /** Every id is below the next one handed out. */
  ghost predicate Valid(c: Catalog)
  {
    forall k :: 0 <= k < |c.games| ==> c.games[k].gameId < c.nextId
  }

  ghost predicate UniqueIds(games: seq<Game>)
  {
    forall k, l :: 0 <= k < l < |games| ==> games[k].gameId != games[l].gameId
  }

  /** _find_game: the index of the first entry with that id. */
  function FindGame(games: seq<Game>, id: int): (r: Option<nat>)
    ensures r.None? <==> forall k :: 0 <= k < |games| ==> games[k].gameId != id
    ensures r.Some? ==> r.value < |games| && games[r.value].gameId == id
                        && forall k :: 0 <= k < r.value ==> games[k].gameId != id
  {
    if games == [] then None
    else if games[0].gameId == id then Some(0)
    else
      match FindGame(games[1..], id)
      case None =>
        assert forall k :: 1 <= k < |games| ==> games[k] == games[1..][k - 1];
        None
      case Some(i) => Some(i + 1)
  }

  function RegisterGame(c: Catalog, name: string, version: string, developer: string,
                        path: string, description: string): (res: (Catalog, Game))
    requires Valid(c)
    ensures var (c', g) := res;
            && Valid(c')
            && g == Game(c.nextId, name, version, developer, path, description)
            && c'.games == c.games + [g]
            && c'.nextId == c.nextId + 1
            && (forall k :: 0 <= k < |c.games| ==> c.games[k].gameId < g.gameId)
            && (UniqueIds(c.games) ==> UniqueIds(c'.games))
  {
    var g := Game(c.nextId, name, version, developer, path, description);
    (Catalog(c.games + [g], c.nextId + 1), g)
  }

  function UpdateVersion(c: Catalog, id: int, version: string, path: string): (res: (Catalog, bool))
    ensures var (c', ok) := res;
            && (ok <==> exists k :: 0 <= k < |c.games| && c.games[k].gameId == id)
            && (!ok ==> c' == c)
            && c'.nextId == c.nextId && |c'.games| == |c.games|
            && (ok ==> var i := FindGame(c.games, id).value;
                       && c'.games[i] == c.games[i].(version := version, path := path)
                       && forall k :: 0 <= k < |c.games| && k != i ==> c'.games[k] == c.games[k])
  {
    match FindGame(c.games, id)
    case None => (c, false)
    case Some(i) => (c.(games := c.games[i := c.games[i].(version := version, path := path)]), true)
  }

  /** The entries whose id differs from `id`, in order. */
  function Drop(games: seq<Game>, id: int): (rest: seq<Game>)
    ensures forall g :: g in rest <==> g in games && g.gameId != id
    ensures |rest| <= |games|
  {
    if games == [] then []
    else if games[0].gameId == id then Drop(games[1..], id)
    else [games[0]] + Drop(games[1..], id)
  }

  lemma {:induction false} DropIsOrderedFilter(games: seq<Game>, id: int)
    ensures |Drop(games, id)| == |games| - Occurrences(games, id)
    ensures (forall k :: 0 <= k < |games| ==> games[k].gameId != id) ==> Drop(games, id) == games
  {
    if games != [] {
      DropIsOrderedFilter(games[1..], id);
      assert (forall k :: 0 <= k < |games| ==> games[k].gameId != id)
             ==> (forall k :: 0 <= k < |games[1..]| ==> games[1..][k].gameId != id) by {
        if forall k :: 0 <= k < |games| ==> games[k].gameId != id {
          forall k | 0 <= k < |games[1..]| ensures games[1..][k].gameId != id {
            assert games[1..][k] == games[k + 1];
          }
        }
      }
    }
  }

  /** Removal acts on each part of a catalog separately, so the surviving
      entries keep their relative order. */
  lemma {:induction false} DropKeepsOrder(a: seq<Game>, b: seq<Game>, id: int)
    ensures Drop(a + b, id) == Drop(a, id) + Drop(b, id)
  {
    if a == [] {
      assert a + b == b;
    } else {
      var ab := a + b;
      assert ab[0] == a[0];
      assert ab[1..] == a[1..] + b;
      DropKeepsOrder(a[1..], b, id);
      var tail := Drop(a[1..], id);
      if a[0].gameId != id {
        calc {
          Drop(ab, id);
          [a[0]] + Drop(a[1..] + b, id);
          [a[0]] + (tail + Drop(b, id));
          ([a[0]] + tail) + Drop(b, id);
        }
      }
    }
  }

  function Occurrences(games: seq<Game>, id: int): nat
  {
    if games == [] then 0
    else (if games[0].gameId == id then 1 else 0) + Occurrences(games[1..], id)
  }

  /** remove_game: only the developer who owns the first entry with that id
      may remove it; then every entry with that id goes. */
  function RemoveGame(c: Catalog, id: int, developer: string): (res: (Catalog, bool))
    ensures var (c', ok) := res;
            && (ok <==> FindGame(c.games, id).Some? && c.games[FindGame(c.games, id).value].developer == developer)
            && (!ok ==> c' == c)
            && c'.nextId == c.nextId
            && (ok ==> && c'.games == Drop(c.games, id)
                       && c' == c.(games := c'.games)
                       && (forall g :: g in c'.games <==> g in c.games && g.gameId != id)
                       && |c'.games| < |c.games|)
  {
    match FindGame(c.games, id)
    case None => (c, false)
    case Some(i) =>
      if c.games[i].developer != developer then (c, false)
      else
        DropIsOrderedFilter(c.games, id);
        OccurrencesPositive(c.games, id, i);
        (c.(games := Drop(c.games, id)), true)
  }

  lemma {:induction false} OccurrencesPositive(games: seq<Game>, id: int, i: nat)
    requires i < |games| && games[i].gameId == id
    ensures Occurrences(games, id) > 0
  {
    if i > 0 {
      OccurrencesPositive(games[1..], id, i - 1);
    }
  }

  /** Ids stay unique and strictly increasing in catalog order across
      registrations. */
  lemma RegisterKeepsIdsIncreasing(c: Catalog, name: string, version: string, developer: string,
                                   path: string, description: string)
    requires Valid(c)
    requires forall k, l :: 0 <= k < l < |c.games| ==> c.games[k].gameId < c.games[l].gameId
    ensures var c' := RegisterGame(c, name, version, developer, path, description).0;
            forall k, l :: 0 <= k < l < |c'.games| ==> c'.games[k].gameId < c'.games[l].gameId
  {
  }
}

=== FILE: client_protocol.dfy ===
/** The player client's copy of the framing: the same header, but neither
    side bounds the length (struct.pack still refuses a length that does
    not fit in 32 bits). */
module ClientProtocol {
  import opened Bytes
  import ServerProtocol

  datatype SendOutcome = Sent(wire: seq<byte>) | StructError

  function Send(payload: seq<byte>): (r: SendOutcome)
    ensures r.StructError? <==> |payload| >= Uint32Limit
    ensures r.Sent? ==> |r.wire| == HeaderSize + |payload| && FromBigEndian(r.wire[..HeaderSize]) == |payload| && r.wire[HeaderSize..] == payload
  {
    if |payload| >= Uint32Limit then StructError
    else Sent(Be32(|payload|) + payload)
  }

  datatype RecvOutcome = Closed | Frame(payload: seq<byte>, rest: seq<byte>)

  /** recv: None on a short header or a short body; any declared length,
      zero included, is read. */
  function Recv(stream: seq<byte>): (r: RecvOutcome)
    ensures r.Closed? <==>
              |stream| < HeaderSize || |stream| < HeaderSize + FromBigEndian(stream[..HeaderSize])
    ensures r.Frame? ==>
              |r.payload| == FromBigEndian(stream[..HeaderSize])
              && stream == stream[..HeaderSize] + r.payload + r.rest
  {
    match ReadExact(stream, HeaderSize)
    case Short => Closed
    case Got(header, afterHeader) =>
      match ReadExact(afterHeader, FromBigEndian(header))
      case Short => Closed
      case Got(body, rest) => Frame(body, rest)
  }

  /** Every frame this client sends, of any length below 2^32, comes back
      from its own recv. */
  lemma RoundTrip(payload: seq<byte>, tail: seq<byte>)
    requires |payload| < Uint32Limit
    ensures Send(payload).Sent?
    ensures Recv(Send(payload).wire + tail) == Frame(payload, tail)
  {
    var wire := Send(payload).wire;
    var stream := wire + tail;
    assert stream[..HeaderSize] == wire[..HeaderSize];
    assert stream[HeaderSize..] == payload + tail;
  }

  /** The header is byte-compatible with the lobby server's: whatever the
      server sends, the client receives unchanged. */
  lemma ServerToClient(payload: seq<byte>, tail: seq<byte>)
    requires ServerProtocol.Send(payload).Sent?
    ensures Send(payload) == Sent(ServerProtocol.Send(payload).wire)
    ensures Recv(ServerProtocol.Send(payload).wire + tail) == Frame(payload, tail)
  {
    RoundTrip(payload, tail);
  }

  /** And back: a client frame the server's ceiling admits is received by
      the server unchanged. */
  lemma ClientToServer(payload: seq<byte>, tail: seq<byte>)
    requires 0 < |payload| <= ServerProtocol.MaxLen
    ensures Send(payload).Sent?
    ensures ServerProtocol.Recv(Send(payload).wire + tail) == ServerProtocol.Frame(payload, tail)
  {
    ServerProtocol.RoundTrip(payload, tail);
  }
}

=== FILE: manifest.dfy ===
/** validate_game_manifest over an abstract JSON value: the required
    name / version / server fields, the server's start_cmd, and its type.
    Reading game.json from disk is represented by what the read produced. */
module Manifest {

  datatype Json =
    | JNull
    | JBool(b: bool)
    | JNum(n: real)
    | JStr(s: string)
    | JArr(items: seq<Json>)
    | JObj(fields: map<string, Json>)

  /** Python truthiness of a decoded JSON value. */
  predicate Truthy(v: Json)
  {
    match v
    case JNull => false
    case JBool(b) => b
    case JNum(n) => n != 0.0
    case JStr(s) => s != ""
    case JArr(items) => items != []
    case JObj(fields) => fields != map[]
  }

  /** dict.get(key): the value, or None (JNull stands in for a missing key,
      which Python treats the same way here). */
  function Get(fields: map<string, Json>, key: string): Json
  {
    if key in fields then fields[key] else JNull
  }

  /** What opening and parsing game.json gave. */
  datatype ManifestFile = Missing | Unparseable | Parsed(value: Json)

  datatype Rejection =
    | MissingManifest
    | InvalidJson
    | MissingRequiredFields
    | MissingStartCmd
    | StartCmdType
    | NotAnObject   // `.get` on a value that is not a dict raises AttributeError

  datatype Verdict = Accepted(manifest: Json) | Rejected(why: Rejection)

  function Validate(file: ManifestFile): (r: Verdict)
    ensures file.Missing? ==> r == Rejected(MissingManifest)
    ensures file.Unparseable? ==> r == Rejected(InvalidJson)
    ensures r.Accepted? ==> file.Parsed? && r.manifest == file.value
    ensures r.Accepted? <==> file.Parsed? && WellFormed(file.value)
  {
    match file
    case Missing => Rejected(MissingManifest)
    case Unparseable => Rejected(InvalidJson)
    case Parsed(m) =>
      if !m.JObj? then Rejected(NotAnObject)
      else
        var name := Get(m.fields, "name");
        var version := Get(m.fields, "version");
        var server := Get(m.fields, "server");
        if !Truthy(name) || !Truthy(version) || !Truthy(server) then Rejected(MissingRequiredFields)
        else if !server.JObj? then Rejected(NotAnObject)
        else
          var cmd := Get(server.fields, "start_cmd");
          if !Truthy(cmd) then Rejected(MissingStartCmd)
          else if !(cmd.JArr? || cmd.JStr?) then Rejected(StartCmdType)
          else Accepted(m)
  }

  /** The shape a manifest must have, stated field by field. */
  ghost predicate WellFormed(m: Json)
  {
    && m.JObj?
    && "name" in m.fields && Truthy(m.fields["name"])
    && "version" in m.fields && Truthy(m.fields["version"])
    && "server" in m.fields && m.fields["server"].JObj? && m.fields["server"].fields != map[]
    && "start_cmd" in m.fields["server"].fields
    && var cmd := m.fields["server"].fields["start_cmd"];
       (cmd.JArr? && cmd.items != []) || (cmd.JStr? && cmd.s != "")
  }

  /** Each required field, missing or falsy, is rejected. */
  lemma MissingFieldRejected(m: map<string, Json>, key: string)
    requires key == "name" || key == "version" || key == "server"
    requires key !in m || !Truthy(m[key])
    ensures Validate(Parsed(JObj(m))) == Rejected(MissingRequiredFields)
  {
  }

  /** A start command that is a non-empty string or list is accepted
      whatever else the manifest holds. */
  lemma CommandShapesAccepted(m: map<string, Json>, server: map<string, Json>, cmd: Json)
    requires "name" in m && Truthy(m["name"]) && "version" in m && Truthy(m["version"])
    requires "server" in m && m["server"] == JObj(server) && "start_cmd" in server && server["start_cmd"] == cmd
    requires Truthy(cmd) && (cmd.JStr? || cmd.JArr?)
    ensures Validate(Parsed(JObj(m))) == Accepted(JObj(m))
  {
  }

  /** A truthy start command of any other type is rejected. */
  lemma OtherCommandTypesRejected(m: map<string, Json>, server: map<string, Json>)
    requires "name" in m && Truthy(m["name"]) && "version" in m && Truthy(m["version"])
    requires "server" in m && m["server"] == JObj(server) && "start_cmd" in server
    requires Truthy(server["start_cmd"]) && !server["start_cmd"].JStr? && !server["start_cmd"].JArr?
    ensures Validate(Parsed(JObj(m))) == Rejected(StartCmdType)
  {
  }
}

=== FILE: rooms.dfy ===
/** RoomManager: rooms keyed by id, a per-room invite set, and the
    create / join / invite / accept / revoke / chat / start transitions with
    their ordered error returns. Every transition is a pure function from
    the registry to the next registry and a reply. */
module Rooms {

  datatype Option<T> = None | Some(value: T)

  datatype Status = Waiting | Running

  datatype ChatEntry = ChatEntry(user: string, msg: string, ts: int)

  datatype Room = Room(
    id: nat,
    gameId: int,
    host: string,
    kind: string,          // "public" or "private"; only "private" is tested for
    players: seq<string>,  // seat order
    maxPlayers: int,
    status: Status,
    port: Option<int>,
    chat: seq<ChatEntry>)

  datatype Registry = Registry(
    rooms: map<nat, Room>,
    nextId: nat,
    hasLauncher: bool,
    invites: map<nat, set<string>>)

  /** What the game launcher answers for a room: (True, port) or
      (False, error). It is an oracle here. */
  datatype LaunchReply = Launched(port: int) | LaunchFailed(err: string)

  datatype RoomError =
    | RoomDoesNotExist
    | AlreadyStarted
    | RoomFull(capacity: int)
    | PrivateHostOnly
    | NotHostInvite
    | InvitesPrivateOnly
    | AlreadyInRoom
    | NoInvite
    | NotHostRevoke
    | InviteNotFound
    | NotInRoom
    | NeedTwoPlayers
    | LauncherNotAttached
    | LaunchError(err: string)

  datatype Reply = Ok | OkPort(port: int) | Fail(error: RoomError)

  const ChatLimit: nat := 200

  /** `int(room.max_players or 2)`: a zero capacity means the default 2. */
  function Capacity(r: Room): int
  {
    if r.maxPlayers == 0 then 2 else r.maxPlayers
  }

  predicate IsPrivate(r: Room)
  {
    r.kind == "private"
  }

  function Empty(): Registry
  {
    Registry(map[], 1, false, map[])
  }

  /** Every id in use was allocated before nextId, and each room is filed
      under its own id. */
  ghost predicate Valid(reg: Registry)
  {
    && reg.nextId >= 1
    && (forall id :: id in reg.rooms ==> 1 <= id < reg.nextId && reg.rooms[id].id == id)
  }

  lemma EmptyValid()
    ensures Valid(Empty())
    ensures Empty().rooms == map[]
  {
  }

  function AttachLauncher(reg: Registry): (reg': Registry)
    ensures reg'.hasLauncher
    ensures reg'.rooms == reg.rooms && reg'.invites == reg.invites && reg'.nextId == reg.nextId
  {
    reg.(hasLauncher := true)
  }

  /** Whether `user` has a pending invite for room `id`. */
  predicate Invited(reg: Registry, id: nat, user: string)
  {
    id in reg.invites && user in reg.invites[id]
  }

  // ---------------------------------------------------------------- create

  function CreateRoom(reg: Registry, gameId: int, user: string, kind: string, maxPlayers: int)
    : (res: (Registry, Room))
    requires Valid(reg)
    ensures var (reg', room) := res;
            && Valid(reg')
            && room.id == reg.nextId && room.id !in reg.rooms
            && reg'.nextId == reg.nextId + 1
            && reg'.rooms == reg.rooms[room.id := room]
            && room.host == user && room.players == [user]
            && room.status == Waiting && room.port == None && room.chat == []
            && room.gameId == gameId && room.kind == kind && room.maxPlayers == maxPlayers
            && reg'.invites == reg.invites && reg'.hasLauncher == reg.hasLauncher
  {
    var id := reg.nextId;
    var room := Room(id, gameId, user, kind, [user], maxPlayers, Waiting, None, []);
    (reg.(rooms := reg.rooms[id := room], nextId := id + 1), room)
  }

  /** Ids are handed out 1, 2, 3, ... : the k-th room ever created gets id k
      and no id is handed out twice. */
  lemma CreateAllocatesFreshIds(reg: Registry, g1: int, u1: string, k1: string, m1: int,
                                g2: int, u2: string, k2: string, m2: int)
    requires Valid(reg)
    ensures var (reg1, r1) := CreateRoom(reg, g1, u1, k1, m1);
            var (reg2, r2) := CreateRoom(reg1, g2, u2, k2, m2);
            r2.id == r1.id + 1 && r1.id in reg2.rooms && reg2.rooms[r1.id] == r1
  {
  }

  // ---------------------------------------------------------------- join

  function JoinRoom(reg: Registry, id: nat, user: string): (res: (Registry, Reply))
    ensures var (reg', reply) := res;
            && (id !in reg.rooms ==> reply == Fail(RoomDoesNotExist))
            && (id in reg.rooms && reg.rooms[id].status != Waiting ==> reply == Fail(AlreadyStarted))
            && (id in reg.rooms && reg.rooms[id].status == Waiting
                && |reg.rooms[id].players| >= Capacity(reg.rooms[id])
                ==> reply == Fail(RoomFull(Capacity(reg.rooms[id]))))
            && (id in reg.rooms && reg.rooms[id].status == Waiting
                && |reg.rooms[id].players| < Capacity(reg.rooms[id])
                && IsPrivate(reg.rooms[id]) && user != reg.rooms[id].host
                ==> reply == Fail(PrivateHostOnly))
            && (reply.Fail? ==> reg' == reg)
            && (reply == Ok <==>
                  id in reg.rooms && reg.rooms[id].status == Waiting
                  && |reg.rooms[id].players| < Capacity(reg.rooms[id])
                  && (!IsPrivate(reg.rooms[id]) || user == reg.rooms[id].host))
            && (reply == Ok ==>
                  reg' == reg.(rooms := reg.rooms[id := reg.rooms[id].(players := reg.rooms[id].players + [user])]))
  {
    if id !in reg.rooms then (reg, Fail(RoomDoesNotExist))
    else
      var room := reg.rooms[id];
      if room.status != Waiting then (reg, Fail(AlreadyStarted))
      else if |room.players| >= Capacity(room) then (reg, Fail(RoomFull(Capacity(room))))
      else if IsPrivate(room) && user != room.host then (reg, Fail(PrivateHostOnly))
      else (reg.(rooms := reg.rooms[id := room.(players := room.players + [user])]), Ok)
  }

  // ---------------------------------------------------------------- invites

  function InviteUser(reg: Registry, id: nat, host: string, target: string): (res: (Registry, Reply))
    ensures var (reg', reply) := res;
            && (reply == Ok <==>
                  id in reg.rooms && reg.rooms[id].host == host && IsPrivate(reg.rooms[id])
                  && target !in reg.rooms[id].players)
            && (reply.Fail? ==> reg' == reg)
            && (reply == Ok ==>
                  && reg'.rooms == reg.rooms && reg'.nextId == reg.nextId && reg'.hasLauncher == reg.hasLauncher
                  && Invited(reg', id, target)
                  && (forall u :: Invited(reg', id, u) <==> Invited(reg, id, u) || u == target)
                  && (forall other, u :: other != id ==> (Invited(reg', other, u) <==> Invited(reg, other, u))))
  {
    if id !in reg.rooms then (reg, Fail(RoomDoesNotExist))
    else
      var room := reg.rooms[id];
      if room.host != host then (reg, Fail(NotHostInvite))
      else if !IsPrivate(room) then (reg, Fail(InvitesPrivateOnly))
      else if target in room.players then (reg, Fail(AlreadyInRoom))
      else
        var pending := if id in reg.invites then reg.invites[id] else {};
        (reg.(invites := reg.invites[id := pending + {target}]), Ok)
  }

  function AcceptInvite(reg: Registry, id: nat, user: string): (res: (Registry, Reply))
    ensures var (reg', reply) := res;
            && (reply == Ok <==>
                  id in reg.rooms && Invited(reg, id, user) && reg.rooms[id].status == Waiting
                  && |reg.rooms[id].players| < Capacity(reg.rooms[id]))
            && (id !in reg.rooms ==> reply == Fail(RoomDoesNotExist))
            && (id in reg.rooms && !Invited(reg, id, user) ==> reply == Fail(NoInvite))
            && (reply.Fail? ==> reg' == reg)
            && (reply == Ok ==>
                  && reg'.rooms == reg.rooms[id := reg.rooms[id].(players := reg.rooms[id].players + [user])]
                  && reg'.nextId == reg.nextId && reg'.hasLauncher == reg.hasLauncher
                  && !Invited(reg', id, user)
                  && (forall u :: u != user ==> (Invited(reg', id, u) <==> Invited(reg, id, u)))
                  && (forall other, u :: other != id ==> (Invited(reg', other, u) <==> Invited(reg, other, u))))
  {
    if id !in reg.rooms then (reg, Fail(RoomDoesNotExist))
    else if !Invited(reg, id, user) then (reg, Fail(NoInvite))
    else
      var room := reg.rooms[id];
      if room.status != Waiting then (reg, Fail(AlreadyStarted))
      else if |room.players| >= Capacity(room) then (reg, Fail(RoomFull(Capacity(room))))
      else
        (reg.(rooms := reg.rooms[id := room.(players := room.players + [user])],
              invites := reg.invites[id := reg.invites[id] - {user}]), Ok)
  }

  function RevokeInvite(reg: Registry, id: nat, host: string, target: string): (res: (Registry, Reply))
    ensures var (reg', reply) := res;
            && (reply == Ok <==> id in reg.rooms && reg.rooms[id].host == host && Invited(reg, id, target))
            && (reply.Fail? ==> reg' == reg)
            && (reply == Ok ==>
                  && reg'.rooms == reg.rooms && reg'.nextId == reg.nextId && reg'.hasLauncher == reg.hasLauncher
                  && !Invited(reg', id, target)
                  && (forall u :: u != target ==> (Invited(reg', id, u) <==> Invited(reg, id, u)))
                  && (forall other, u :: other != id ==> (Invited(reg', other, u) <==> Invited(reg, other, u))))
  {
    if id !in reg.rooms then (reg, Fail(RoomDoesNotExist))
    else
      var room := reg.rooms[id];
      if room.host != host then (reg, Fail(NotHostRevoke))
      else if !Invited(reg, id, target) then (reg, Fail(InviteNotFound))
      else (reg.(invites := reg.invites[id := reg.invites[id] - {target}]), Ok)
  }

  // ---------------------------------------------------------------- chat

  /** The newest ChatLimit entries of a log. */
  function Newest(log: seq<ChatEntry>): (kept: seq<ChatEntry>)
    ensures |kept| == if |log| > ChatLimit then ChatLimit else |log|
    ensures log == log[..|log| - |kept|] + kept
  {
    if |log| > ChatLimit then log[|log| - ChatLimit..] else log
  }

  /** `now` stands for int(time.time()). */
  function SendChat(reg: Registry, id: nat, user: string, msg: string, now: int): (res: (Registry, Reply))
    ensures var (reg', reply) := res;
            && (reply == Ok <==> id in reg.rooms && user in reg.rooms[id].players)
            && (reply.Fail? ==> reg' == reg)
            && (reply == Ok ==>
                  && reg'.rooms.Keys == reg.rooms.Keys
                  && reg'.invites == reg.invites && reg'.nextId == reg.nextId && reg'.hasLauncher == reg.hasLauncher
                  && (forall other :: other in reg.rooms && other != id ==> reg'.rooms[other] == reg.rooms[other])
                  && reg'.rooms[id] == reg.rooms[id].(chat := reg'.rooms[id].chat)
                  && var full := reg.rooms[id].chat + [ChatEntry(user, msg, now)];
                     && |reg'.rooms[id].chat| == (if |full| > ChatLimit then ChatLimit else |full|)
                     && reg'.rooms[id].chat == full[|full| - |reg'.rooms[id].chat|..])
  {
    if id !in reg.rooms then (reg, Fail(RoomDoesNotExist))
    else
      var room := reg.rooms[id];
      if user !in room.players then (reg, Fail(NotInRoom))
      else
        var log := Newest(room.chat + [ChatEntry(user, msg, now)]);
        (reg.(rooms := reg.rooms[id := room.(chat := log)]), Ok)
  }

  // ---------------------------------------------------------------- start

  /** start_game checks neither the caller nor the room's status: a room
      that is already running is launched again. */
  function StartGame(reg: Registry, id: nat, launch: Room -> LaunchReply): (res: (Registry, Reply))
    ensures var (reg', reply) := res;
            && (id !in reg.rooms ==> reply == Fail(RoomDoesNotExist))
            && (id in reg.rooms && |reg.rooms[id].players| < 2 ==> reply == Fail(NeedTwoPlayers))
            && (id in reg.rooms && |reg.rooms[id].players| >= 2 && !reg.hasLauncher
                ==> reply == Fail(LauncherNotAttached))
            && (id in reg.rooms && |reg.rooms[id].players| >= 2 && reg.hasLauncher
                && launch(reg.rooms[id]).LaunchFailed?
                ==> reply == Fail(LaunchError(launch(reg.rooms[id]).err)))
            && (reply.Fail? ==> reg' == reg)
            && (reply.OkPort? <==>
                  id in reg.rooms && |reg.rooms[id].players| >= 2 && reg.hasLauncher
                  && launch(reg.rooms[id]).Launched?)
            && (reply.OkPort? ==>
                  && reply.port == launch(reg.rooms[id]).port
                  && reg'.rooms == reg.rooms[id := reg.rooms[id].(status := Running, port := Some(reply.port))]
                  && reg'.invites == reg.invites && reg'.nextId == reg.nextId && reg'.hasLauncher == reg.hasLauncher)
  {
    if id !in reg.rooms then (reg, Fail(RoomDoesNotExist))
    else
      var room := reg.rooms[id];
      if |room.players| < 2 then (reg, Fail(NeedTwoPlayers))
      else if !reg.hasLauncher then (reg, Fail(LauncherNotAttached))
      else
        match launch(room)
        case LaunchFailed(err) => (reg, Fail(LaunchError(err)))
        case Launched(port) =>
          (reg.(rooms := reg.rooms[id := room.(status := Running, port := Some(port))]), OkPort(port))
  }

  // ---------------------------------------------------------------- listing

  datatype Summary = Summary(
    roomId: nat, gameId: int, host: string, players: seq<string>,
    kind: string, status: Status, port: Option<int>)

  function Summarize(r: Room): Summary
  {
    Summary(r.id, r.gameId, r.host, r.players, r.kind, r.status, r.port)
  }

  /** Summaries of the rooms with ids in [from, to), ascending; for the
      registry's dict this is insertion order, since ids are allocated in
      increasing order and never removed. */
  function ListFrom(rooms: map<nat, Room>, from: nat, to: nat): (out: seq<Summary>)
    requires forall id :: id in rooms ==> rooms[id].id == id
    decreases if to >= from then to - from else 0
    ensures forall k :: 0 <= k < |out| ==>
              && from <= out[k].roomId < to
              && out[k].roomId in rooms
              && out[k] == Summarize(rooms[out[k].roomId])
    ensures forall k, l :: 0 <= k < l < |out| ==> out[k].roomId < out[l].roomId
  {
    if from >= to then []
    else
      var rest := ListFrom(rooms, from + 1, to);
      if from !in rooms then rest
      else
        var out := [Summarize(rooms[from])] + rest;
        assert out[0].roomId == from;
        assert forall k :: 1 <= k < |out| ==> out[k] == rest[k - 1];
        out
  }

  /** Every room with an id in the window is listed. */
  lemma {:induction false} ListFromCovers(rooms: map<nat, Room>, from: nat, to: nat, id: nat)
    requires forall i :: i in rooms ==> rooms[i].id == i
    requires from <= id < to && id in rooms
    ensures exists k :: 0 <= k < |ListFrom(rooms, from, to)| && ListFrom(rooms, from, to)[k].roomId == id
    decreases if to >= from then to - from else 0
  {
    var out := ListFrom(rooms, from, to);
    var rest := ListFrom(rooms, from + 1, to);
    if id == from {
      assert out == [Summarize(rooms[from])] + rest;
      assert out[0].roomId == id;
    } else {
      ListFromCovers(rooms, from + 1, to, id);
      var k :| 0 <= k < |rest| && rest[k].roomId == id;
      if from in rooms {
        assert out == [Summarize(rooms[from])] + rest;
        assert out[k + 1] == rest[k];
      } else {
        assert out == rest;
      }
    }
  }

  function ListRooms(reg: Registry): (out: seq<Summary>)
    requires Valid(reg)
    ensures |out| == |reg.rooms|
    ensures forall k :: 0 <= k < |out| ==> out[k].roomId in reg.rooms && out[k] == Summarize(reg.rooms[out[k].roomId])
    ensures forall k, l :: 0 <= k < l < |out| ==> out[k].roomId < out[l].roomId
    ensures forall id :: id in reg.rooms ==> exists k :: 0 <= k < |out| && out[k].roomId == id
  {
    var out := ListFrom(reg.rooms, 1, reg.nextId);
    forall id | id in reg.rooms ensures exists k :: 0 <= k < |out| && out[k].roomId == id {
      ListFromCovers(reg.rooms, 1, reg.nextId, id);
    }
    ListedIdsAreRoomKeys(reg.rooms, out, 1, reg.nextId);
    out
  }

  /** A strictly increasing listing that covers exactly the keys of the
      map is as long as the map. */
  lemma ListedIdsAreRoomKeys(rooms: map<nat, Room>, out: seq<Summary>, from: nat, to: nat)
    requires forall id :: id in rooms ==> from <= id < to
    requires forall k :: 0 <= k < |out| ==> out[k].roomId in rooms
    requires forall k, l :: 0 <= k < l < |out| ==> out[k].roomId < out[l].roomId
    requires forall id :: id in rooms ==> exists k :: 0 <= k < |out| && out[k].roomId == id
    ensures |out| == |rooms|
  {
    var ids := set k | 0 <= k < |out| :: out[k].roomId;
    assert ids == rooms.Keys;
    DistinctCount(out);
  }

  lemma {:induction false} DistinctCount(out: seq<Summary>)
    requires forall k, l :: 0 <= k < l < |out| ==> out[k].roomId < out[l].roomId
    ensures |set k | 0 <= k < |out| :: out[k].roomId| == |out|
  {
    if out != [] {
      var init := out[..|out| - 1];
      DistinctCount(init);
      var s := set k | 0 <= k < |out| :: out[k].roomId;
      var t := set k | 0 <= k < |init| :: init[k].roomId;
      assert s == t + {out[|out| - 1].roomId};
      assert out[|out| - 1].roomId !in t;
    }
  }

  // ---------------------------------------------------------------- invariants

  /** No successful join or accepted invite takes a room past its capacity. */
  lemma JoinKeepsCapacity(reg: Registry, id: nat, user: string)
    requires id in reg.rooms && |reg.rooms[id].players| <= Capacity(reg.rooms[id])
    ensures var (reg', _) := JoinRoom(reg, id, user);
            id in reg'.rooms && |reg'.rooms[id].players| <= Capacity(reg'.rooms[id])
  {
  }

  lemma AcceptKeepsCapacity(reg: Registry, id: nat, user: string)
    requires id in reg.rooms && |reg.rooms[id].players| <= Capacity(reg.rooms[id])
    ensures var (reg', _) := AcceptInvite(reg, id, user);
            id in reg'.rooms && |reg'.rooms[id].players| <= Capacity(reg'.rooms[id])
  {
  }

  /** The operations that change a registry. */
  datatype Op =
    | Create(gameId: int, user: string, kind: string, maxPlayers: int)
    | Join(id: nat, user: string)
    | Invite(id: nat, host: string, target: string)
    | Accept(id: nat, user: string)
    | Revoke(id: nat, host: string, target: string)
    | Chat(id: nat, user: string, msg: string, now: int)
    | Start(id: nat, launch: Room -> LaunchReply)
    | Attach

  function Apply(reg: Registry, op: Op): (reg': Registry)
    requires Valid(reg)
    ensures Valid(reg')
  {
    match op
    case Create(g, u, k, m) => CreateRoom(reg, g, u, k, m).0
    case Join(id, u) => JoinRoom(reg, id, u).0
    case Invite(id, h, t) => InviteUser(reg, id, h, t).0
    case Accept(id, u) => AcceptInvite(reg, id, u).0
    case Revoke(id, h, t) => RevokeInvite(reg, id, h, t).0
    case Chat(id, u, msg, now) => SendChat(reg, id, u, msg, now).0
    case Start(id, launch) => StartGame(reg, id, launch).0
    case Attach => AttachLauncher(reg)
  }

  function Run(reg: Registry, ops: seq<Op>): (reg': Registry)
    requires Valid(reg)
    ensures Valid(reg')
    decreases |ops|
  {
    if ops == [] then reg else Run(Apply(reg, ops[0]), ops[1..])
  }

  /** Every room holds no more players than its capacity. */
  ghost predicate WithinCapacity(reg: Registry)
  {
    forall id :: id in reg.rooms ==> |reg.rooms[id].players| <= Capacity(reg.rooms[id])
  }

  /** Every operation keeps rooms within capacity, as long as rooms are
      created with room for their host (a capacity of at least one). */
  lemma {:induction false} RunKeepsCapacity(reg: Registry, ops: seq<Op>)
    requires Valid(reg) && WithinCapacity(reg)
    requires forall k :: 0 <= k < |ops| && ops[k].Create? ==> ops[k].maxPlayers >= 0
    ensures WithinCapacity(Run(reg, ops))
    decreases |ops|
  {
    if ops != [] {
      var next := Apply(reg, ops[0]);
      forall id | id in next.rooms
        ensures |next.rooms[id].players| <= Capacity(next.rooms[id])
      {
        if ops[0].Join? && ops[0].id == id {
          JoinKeepsCapacity(reg, id, ops[0].user);
        } else if ops[0].Accept? && ops[0].id == id {
          AcceptKeepsCapacity(reg, id, ops[0].user);
        }
      }
      assert forall k :: 0 <= k < |ops[1..]| ==> ops[1..][k] == ops[k + 1];
      RunKeepsCapacity(next, ops[1..]);
    }
  }

  /** A private room admits a non-host only by accepting an invite, which
      consumes it. */
  lemma PrivateJoinOnlyHost(reg: Registry, id: nat, user: string)
    requires id in reg.rooms && IsPrivate(reg.rooms[id]) && user != reg.rooms[id].host
    ensures JoinRoom(reg, id, user).1 != Ok
  {
  }

  /** start_game does not look at the room's status: a running room with a
      launcher that answers again is started again, with the new port. */
  lemma StartIgnoresStatus(reg: Registry, id: nat, launch: Room -> LaunchReply)
    requires id in reg.rooms && reg.rooms[id].status == Running
    requires |reg.rooms[id].players| >= 2 && reg.hasLauncher && launch(reg.rooms[id]).Launched?
    ensures StartGame(reg, id, launch).1 == OkPort(launch(reg.rooms[id]).port)
  {
  }

  /** A failed start leaves the room waiting (or as it was), so the host
      can retry. */
  lemma StartFailureLeavesRoom(reg: Registry, id: nat, launch: Room -> LaunchReply)
    requires id in reg.rooms
    ensures var (reg', reply) := StartGame(reg, id, launch);
            reply.Fail? ==> reg'.rooms[id] == reg.rooms[id]
  {
  }
}

=== FILE: server_protocol.dfy ===
/** The lobby server's framing: a 4-byte big-endian length, then the
    payload (the UTF-8 JSON text, opaque here), with a 64 KiB ceiling on
    both sides and a zero length refused on receipt. */
module ServerProtocol {
  import opened Bytes

  const MaxLen: nat := 64 * 1024

  datatype SendOutcome = Sent(wire: seq<byte>) | TooLarge(length: nat)

  /** send: the header and payload go out in one write. */
  function Send(payload: seq<byte>): (r: SendOutcome)
    ensures r.TooLarge? <==> |payload| > MaxLen
    ensures r.Sent? ==> |r.wire| == HeaderSize + |payload|
                        && FromBigEndian(r.wire[..HeaderSize]) == |payload|
                        && r.wire[HeaderSize..] == payload
  {
    if |payload| > MaxLen then TooLarge(|payload|)
    else Sent(Be32(|payload|) + payload)
  }

  /** recv: None when the stream closes inside the header or the body, a
      ValueError when the declared length is 0 or above the ceiling. */
  datatype RecvOutcome = Closed | InvalidLength(length: nat) | Frame(payload: seq<byte>, rest: seq<byte>)

  function Recv(stream: seq<byte>): (r: RecvOutcome)
    ensures |stream| < HeaderSize ==> r.Closed?
    ensures r.InvalidLength? <==>
              |stream| >= HeaderSize
              && (FromBigEndian(stream[..HeaderSize]) == 0 || FromBigEndian(stream[..HeaderSize]) > MaxLen)
    ensures r.Frame? ==>
              var len := FromBigEndian(stream[..HeaderSize]);
              0 < len <= MaxLen && stream == stream[..HeaderSize] + r.payload + r.rest && |r.payload| == len
  {
    match ReadExact(stream, HeaderSize)
    case Short => Closed
    case Got(header, afterHeader) =>
      var length := FromBigEndian(header);
      if length <= 0 || length > MaxLen then InvalidLength(length)
      else
        match ReadExact(afterHeader, length)
        case Short => Closed
        case Got(body, rest) => Frame(body, rest)
  }

  /** Whatever follows the frame on the wire is left for the next recv:
      a sent frame of 1..65536 bytes is received intact and exactly
      4 + length bytes are consumed. */
  lemma RoundTrip(payload: seq<byte>, tail: seq<byte>)
    requires 0 < |payload| <= MaxLen
    ensures Send(payload).Sent?
    ensures Recv(Send(payload).wire + tail) == Frame(payload, tail)
  {
    var wire := Send(payload).wire;
    var stream := wire + tail;
    assert stream[..HeaderSize] == wire[..HeaderSize];
    assert stream[HeaderSize..] == payload + tail;
  }

  /** An empty payload is sent but refused by the receiving side. */
  lemma EmptyFrameRefused(tail: seq<byte>)
    ensures Send([]).Sent?
    ensures Recv(Send([]).wire + tail) == InvalidLength(0)
  {
    var wire := Send([]).wire;
    assert wire == Be32(0) + [];
    var stream := wire + tail;
    assert stream[..HeaderSize] == Be32(0);
  }
}

=== FILE: tetris_board.dfy ===
/** The Tetris server's board: a 20x10 grid of cells, the cells a piece
    covers, collision, writing a locked piece, and clearing full rows. The
    shape table lives in a module this model does not have, so it enters
    as a function from (piece, rotation) to cell offsets. */
module TetrisBoard {

  datatype Option<T> = None | Some(value: T)

  const Width: int := 10
  const Height: int := 20

  /** The power piece: drawn with the O shape and never rotated. */
  const PowerPiece: char := 'P'

  datatype Cell = Empty | Block(piece: char)
  type Row = seq<Cell>
  type Board = seq<Row>

  predicate IsBoard(b: Board)
  {
    |b| == Height && forall i :: 0 <= i < |b| ==> |b[i]| == Width
  }

  predicate Full(row: Row)
  {
    forall j :: 0 <= j < |row| ==> row[j].Block?
  }

  predicate NoFullRow(b: Board)
  {
    forall i :: 0 <= i < |b| ==> !Full(b[i])
  }

  function EmptyRow(): (row: Row)
    ensures |row| == Width && !Full(row)
    ensures forall j :: 0 <= j < |row| ==> row[j] == Empty
  {
    var row := seq(Width, _ => Empty);
    assert !row[0].Block?;
    row
  }

  function EmptyBoard(): (b: Board)
    ensures IsBoard(b) && NoFullRow(b)
    ensures forall i :: 0 <= i < |b| ==> b[i] == EmptyRow()
  {
    seq(Height, _ => EmptyRow())
  }

  // ------------------------------------------------------------ pieces

  type Shapes = (char, nat) -> seq<(int, int)>

  /** What the model assumes of the unseen shape table: every piece in
      every rotation covers one to four cells inside a 4x4 box. */
  ghost predicate ValidShapes(shapes: Shapes)
  {
    forall p: char, r: nat :: ShapeFits(shapes(p, r))
  }

  predicate ShapeFits(offsets: seq<(int, int)>)
  {
    && 1 <= |offsets| <= 4
    && forall k :: 0 <= k < |offsets| ==> 0 <= offsets[k].0 < 4 && 0 <= offsets[k].1 < 4
  }

  /** A piece at column x, row y, rotation rot. */
  datatype Placement = Placement(piece: char, x: int, y: int, rot: nat)

  /** The offsets a placement uses: the power piece always takes the O
      shape at rotation 0. */
  function Offsets(shapes: Shapes, pl: Placement): seq<(int, int)>
  {
    if pl.piece == PowerPiece then shapes('O', 0) else shapes(pl.piece, pl.rot)
  }

  /** cells(p, x, y, r): the shape's offsets moved to (x, y), as (column, row). */
  function Cells(shapes: Shapes, pl: Placement): (cs: seq<(int, int)>)
  {
    var offs := Offsets(shapes, pl);
    seq(|offs|, k requires 0 <= k < |offs| => (pl.x + offs[k].0, pl.y + offs[k].1))
  }

  /** Moving a placement moves every one of its cells by the same amount:
      the shape depends on the piece and rotation only. */
  lemma CellsShift(shapes: Shapes, pl: Placement, dx: int, dy: int)
    ensures var moved := Cells(shapes, pl.(x := pl.x + dx, y := pl.y + dy));
            && |moved| == |Cells(shapes, pl)|
            && forall k :: 0 <= k < |moved| ==>
                 moved[k] == (Cells(shapes, pl)[k].0 + dx, Cells(shapes, pl)[k].1 + dy)
  {
  }

  /** The power piece covers the same cells in every rotation: those of the
      O piece at rotation 0. */
  lemma PowerPieceIgnoresRotation(shapes: Shapes, pl: Placement, r: nat)
    requires pl.piece == PowerPiece
    ensures Cells(shapes, pl.(rot := r)) == Cells(shapes, pl)
    ensures Cells(shapes, pl) == Cells(shapes, pl.(piece := 'O', rot := 0))
  {
  }

  predicate OnBoard(c: (int, int))
  {
    0 <= c.0 < Width && 0 <= c.1 < Height
  }

  predicate AllOnBoard(cells: seq<(int, int)>)
  {
    forall k :: 0 <= k < |cells| ==> OnBoard(cells[k])
  }

  /** collides: some cell is off the board or on an occupied cell. */
  predicate Collides(b: Board, cells: seq<(int, int)>)
    requires IsBoard(b)
  {
    exists k :: 0 <= k < |cells| && Hits(b, cells[k])
  }

  /** One cell that is off the board or on a block. */
  predicate Hits(b: Board, c: (int, int))
    requires IsBoard(b)
  {
    !OnBoard(c) || b[c.1][c.0].Block?
  }

  /** Whether the placement collides on this board. */
  function Blocked(shapes: Shapes, b: Board, pl: Placement): bool
    requires IsBoard(b)
  {
    Collides(b, Cells(shapes, pl))
  }

  // ------------------------------------------------------------ locking

  /** Writing the locked piece: each of its cells gets the piece letter. */
  function Place(b: Board, cells: seq<(int, int)>, p: char): (b': Board)
    requires IsBoard(b) && AllOnBoard(cells)
    ensures IsBoard(b')
    ensures forall k :: 0 <= k < |cells| ==> b'[cells[k].1][cells[k].0] == Block(p)
    ensures forall i :: 0 <= i < Height && (forall k :: 0 <= k < |cells| ==> cells[k].1 != i) ==> b'[i] == b[i]
    ensures forall i, j :: 0 <= i < Height && 0 <= j < Width && (forall k :: 0 <= k < |cells| ==> cells[k] != (j, i))
              ==> b'[i][j] == b[i][j]
    decreases |cells|
  {
    if cells == [] then b
    else
      var (x, y) := cells[0];
      var b1 := b[y := b[y][x := Block(p)]];
      assert forall k :: 1 <= k < |cells| ==> cells[k] == cells[1..][k - 1];
      Place(b1, cells[1..], p)
  }
  /** Writing blocks into the board never frees a cell list that
      collided before. */
  lemma PlacingNeverFrees(b: Board, placed: seq<(int, int)>, p: char, cells: seq<(int, int)>)
    requires IsBoard(b) && AllOnBoard(placed) && Collides(b, cells)
    ensures Collides(Place(b, placed, p), cells)
  {
    var b' := Place(b, placed, p);
    var k :| 0 <= k < |cells| && Hits(b, cells[k]);
    var (x, y) := cells[k];
    if OnBoard(cells[k]) {
      if exists m :: 0 <= m < |placed| && placed[m] == (x, y) {
        var m :| 0 <= m < |placed| && placed[m] == (x, y);
        assert b'[placed[m].1][placed[m].0] == Block(p);
      } else {
        assert b'[y][x] == b[y][x];
      }
    }
    assert Hits(b', cells[k]);
  }


  predicate Increasing(s: seq<int>)
  {
    forall k, l :: 0 <= k < l < |s| ==> s[k] < s[l]
  }

  /** The indices, from `from` on, of the rows that are full. */
  function FullIdx(b: Board, from: nat): (idx: seq<int>)
    requires from <= |b|
    decreases |b| - from
    ensures Increasing(idx)
    ensures forall k :: 0 <= k < |idx| ==> from <= idx[k] < |b| && Full(b[idx[k]])
    ensures forall i :: from <= i < |b| && Full(b[i]) ==> i in idx
  {
    if from == |b| then []
    else
      var rest := FullIdx(b, from + 1);
      if Full(b[from]) then [from as int] + rest else rest
  }

  /** The indices, from `from` on, of the rows that are not full. */
  function KeptIdx(b: Board, from: nat): (idx: seq<int>)
    requires from <= |b|
    decreases |b| - from
    ensures Increasing(idx)
    ensures forall k :: 0 <= k < |idx| ==> from <= idx[k] < |b| && !Full(b[idx[k]])
    ensures forall i :: from <= i < |b| && !Full(b[i]) ==> i in idx
  {
    if from == |b| then []
    else
      var rest := KeptIdx(b, from + 1);
      if !Full(b[from]) then [from as int] + rest else rest
  }

  lemma {:induction false} RowsPartition(b: Board, from: nat)
    requires from <= |b|
    ensures |FullIdx(b, from)| + |KeptIdx(b, from)| == |b| - from
    decreases |b| - from
  {
    if from < |b| {
      RowsPartition(b, from + 1);
    }
  }

  /** The rows of `b` at the given indices, in that order. */
  function Gather(b: Board, idx: seq<int>): (rows: Board)
    requires forall k :: 0 <= k < |idx| ==> 0 <= idx[k] < |b|
    ensures |rows| == |idx|
    ensures forall k :: 0 <= k < |idx| ==> rows[k] == b[idx[k]]
  {
    seq(|idx|, k requires 0 <= k < |idx| => b[idx[k]])
  }

  function EmptyRows(n: nat): (rows: Board)
    ensures |rows| == n
    ensures forall k :: 0 <= k < n ==> rows[k] == EmptyRow()
  {
    seq(n, _ => EmptyRow())
  }

  /** The compaction step of lock_piece: the full rows go, the others keep
      their order at the bottom, and as many empty rows as were removed are
      put on top. Also returns the indices of the removed rows. */
  function ClearRows(b: Board): (res: (Board, seq<int>))
    requires IsBoard(b)
    ensures IsBoard(res.0) && NoFullRow(res.0)
    ensures |res.1| + |KeptIdx(b, 0)| == Height
    ensures forall i :: i in res.1 <==> 0 <= i < |b| && Full(b[i])
    ensures Increasing(res.1)
    ensures forall k :: 0 <= k < |res.1| ==> res.0[k] == EmptyRow()
    ensures forall k :: 0 <= k < |KeptIdx(b, 0)| ==> res.0[|res.1| + k] == b[KeptIdx(b, 0)[k]]
  {
    var cleared := FullIdx(b, 0);
    var kept := KeptIdx(b, 0);
    RowsPartition(b, 0);
    var b' := EmptyRows(|cleared|) + Gather(b, kept);
    CompactedShape(b, |cleared|, kept, b');
    (b', cleared)
  }

  lemma CompactedShape(b: Board, n: nat, kept: seq<int>, b': Board)
    requires IsBoard(b) && n + |kept| == Height
    requires forall k :: 0 <= k < |kept| ==> 0 <= kept[k] < |b| && !Full(b[kept[k]])
    requires b' == EmptyRows(n) + Gather(b, kept)
    ensures IsBoard(b') && NoFullRow(b')
    ensures forall k :: 0 <= k < |kept| ==> b'[n + k] == b[kept[k]]
  {
    forall i | 0 <= i < |b'| ensures |b'[i]| == Width && !Full(b'[i]) {
      if i >= n {
        assert b'[i] == b[kept[i - n]];
      }
    }
  }

  /** A board with no full rows is left as it is. */
  lemma ClearRowsWithoutFullRows(b: Board)
    requires IsBoard(b) && NoFullRow(b)
    ensures ClearRows(b) == (b, [])
  {
    var (b', cleared) := ClearRows(b);
    var kept := KeptIdx(b, 0);
    IncreasingCovering(kept, 0, |b|);
    assert cleared == [];
    assert |b'| == |b|;
    forall k | 0 <= k < |b| ensures b'[k] == b[k] {
      assert b'[|cleared| + k] == b[kept[k]];
    }
    assert b' == b;
  }

  /** An increasing sequence that covers every index of [lo, hi) and no
      other value is exactly lo, lo+1, ... */
  lemma {:induction false} IncreasingCovering(s: seq<int>, lo: int, hi: int)
    requires Increasing(s) && lo <= hi
    requires forall k :: 0 <= k < |s| ==> lo <= s[k] < hi
    requires forall i :: lo <= i < hi ==> i in s
    ensures |s| == hi - lo
    ensures forall k :: 0 <= k < |s| ==> s[k] == lo + k
  {
    assert |s| > 0 ==> lo <= s[0] < hi;
    if lo < hi {
      assert lo in s;
      var k0 :| 0 <= k0 < |s| && s[k0] == lo;
      assert lo <= s[0];
      assert s[0] == lo;
      var t := s[1..];
      forall i | lo + 1 <= i < hi ensures i in t {
        assert i in s;
        var k :| 0 <= k < |s| && s[k] == i;
        assert k != 0;
        assert t[k - 1] == i;
      }
      forall k | 0 <= k < |t| ensures lo + 1 <= t[k] < hi {
        assert t[k] == s[k + 1] && s[0] < s[k + 1];
      }
      IncreasingCovering(t, lo + 1, hi);
    }
  }

  /** An increasing sequence inside a window of n consecutive values has
      at most n elements. */
  lemma {:induction false} IncreasingInWindow(s: seq<int>, lo: int, n: nat)
    requires Increasing(s)
    requires forall k :: 0 <= k < |s| ==> lo <= s[k] < lo + n
    ensures |s| <= n
  {
    if |s| > 0 {
      var t := s[1..];
      forall k | 0 <= k < |t| ensures s[0] + 1 <= t[k] < lo + n {
        assert t[k] == s[k + 1] && s[0] < s[k + 1];
      }
      IncreasingInWindow(t, s[0] + 1, (lo + n - s[0] - 1) as nat);
    }
  }

  /** Locking a piece of at most four rows' height onto a board with no full
      row completes at most four rows, so the score table's index is in
      range. */
  lemma ClearedAtMostFour(b: Board, cells: seq<(int, int)>, p: char, y: int)
    requires IsBoard(b) && NoFullRow(b) && AllOnBoard(cells)
    requires forall k :: 0 <= k < |cells| ==> y <= cells[k].1 < y + 4
    ensures |ClearRows(Place(b, cells, p)).1| <= 4
  {
    var b' := Place(b, cells, p);
    var cleared := ClearRows(b').1;
    forall k | 0 <= k < |cleared| ensures y <= cleared[k] < y + 4 {
      var i := cleared[k];
      assert i in cleared;
      assert Full(b'[i]) && !Full(b[i]);
      assert exists m :: 0 <= m < |cells| && cells[m].1 == i;
    }
    IncreasingInWindow(cleared, y, 4);
  }
}

=== FILE: tetris_match.dfy ===
/** A two-player Tetris match as the game server runs it: both players
    spawn, inputs arrive from either side, gravity ticks both boards in
    turn, and the match ends once at most one player is still alive. */
module TetrisMatch {
  import opened TetrisBoard
  import opened TetrisPlayer

  /** The two players in seating order, and how many pieces the shared
      stream has handed out so far. */
  datatype Match = Match(p1: Player, p2: Player, drawn: nat)

  ghost predicate MatchGood(shapes: Shapes, m: Match)
  {
    Good(shapes, m.p1) && Good(shapes, m.p2)
  }

  /** A piece on the board never collides with an empty board. */
  lemma EmptyBoardIsFree(shapes: Shapes, pl: Placement)
    requires AllOnBoard(Cells(shapes, pl))
    ensures !Blocked(shapes, EmptyBoard(), pl)
  {
    var b: Board := EmptyBoard();
    var cells: seq<(int, int)> := Cells(shapes, pl);
    forall k | 0 <= k < |cells| ensures !b[cells[k].1][cells[k].0].Block? {
      assert OnBoard(cells[k]);
      assert b[cells[k].1] == EmptyRow();
    }
  }

  /** The start of the match: both players get fresh state and spawn, the
      first player before the second, from one shared piece stream. */
  function Begin(shapes: Shapes, deck: Deck, name1: string, name2: string): (m: Match)
    requires ValidShapes(shapes)
    ensures MatchGood(shapes, m)
    ensures m.p1.name == name1 && m.p2.name == name2
    ensures m.p1.alive && m.p2.alive
    ensures m.p1.active == Some(Placement(deck(0), SpawnX, 0, 0))
    ensures m.p2.active == Some(Placement(deck(QueueLength), SpawnX, 0, 0))
    ensures m.drawn == 2 * QueueLength
  {
    var (ps1, d1) := Spawn(shapes, deck, NewPlayer(name1), 0);
    var (ps2, d2) := Spawn(shapes, deck, NewPlayer(name2), d1);
    EmptyBoardIsFree(shapes, ps1.active.value);
    EmptyBoardIsFree(shapes, ps2.active.value);
    Match(ps1, ps2, d2)
  }

  /** What can arrive on a player's connection. The first six are INPUT
      messages with a known action. `Other` is a JSON object of another
      type, or an INPUT with an unknown or missing action. `Gone` is
      everything that raises inside the loop: a closed connection, the
      receive timeout, a broken frame, bytes that are not UTF-8 or not JSON,
      and JSON that is not an object. */
  datatype Action = Left | Right | RotateCw | Drop | HoldPiece | FlashOpp | Other | Gone

  /** One turn of input_loop for player `me` against `opp`. A closed
      connection ends the player's game; a frozen player's inputs are
      dropped; the rest is the action's engine operation. `roll` is the
      power piece's freeze coin for a hard drop. */
  function Act(shapes: Shapes, deck: Deck, me: Player, opp: Player, drawn: nat,
               action: Action, now: real, roll: bool): (res: (Player, Player, nat))
    requires ValidShapes(shapes) && Good(shapes, me) && Good(shapes, opp)
    ensures Good(shapes, res.0) && Good(shapes, res.1)
    ensures action == Gone ==> res == (me.(alive := false), opp, drawn)
    ensures action != Gone && now < me.freezeUntil ==> res == (me, opp, drawn)
    ensures action == Other ==> res == (me, opp, drawn)
    ensures res.1 == opp || res.1 == opp.(freezeUntil := now + FreezeSecs)
    ensures res.0.name == me.name && res.2 >= drawn
    ensures res.0.alive ==> me.alive
  {
    if action == Gone then (me.(alive := false), opp, drawn)
    else if now < me.freezeUntil then (me, opp, drawn)
    else Apply(shapes, deck, me, opp, drawn, action, now, roll)
  }

  /** The engine operation an input action maps to. */
  function Apply(shapes: Shapes, deck: Deck, me: Player, opp: Player, drawn: nat,
                 action: Action, now: real, roll: bool): (res: (Player, Player, nat))
    requires ValidShapes(shapes) && Good(shapes, me) && Good(shapes, opp)
    ensures Good(shapes, res.0) && Good(shapes, res.1)
    ensures action == Other || action == Gone ==> res == (me, opp, drawn)
    ensures res.1 == opp || res.1 == opp.(freezeUntil := now + FreezeSecs)
    ensures res.0.name == me.name && res.2 >= drawn
    ensures res.0.alive ==> me.alive
  {
    if action.Drop? || action.HoldPiece? || action.FlashOpp? then Special(shapes, deck, me, opp, drawn, action, now, roll)
    else (Steer(shapes, me, action), opp, drawn)
  }

  /** The actions that only move the active piece. */
  function Steer(shapes: Shapes, me: Player, action: Action): (me': Player)
    requires Good(shapes, me)
    ensures Good(shapes, me')
    ensures action == Other || action == Gone ==> me' == me
    ensures me'.name == me.name && me'.alive == me.alive
  {
    match action
    case Left => Move(shapes, me, -1)
    case Right => Move(shapes, me, 1)
    case RotateCw => Rotate(shapes, me)
    case _ => me
  }

  /** The DROP input: a hard drop, seen from the match. */
  function DropInput(shapes: Shapes, deck: Deck, me: Player, opp: Player, drawn: nat, now: real, roll: bool)
    : (res: (Player, Player, nat))
    requires ValidShapes(shapes) && Good(shapes, me) && Good(shapes, opp)
    ensures Good(shapes, res.0) && Good(shapes, res.1)
    ensures res.1 == opp || res.1 == opp.(freezeUntil := now + FreezeSecs)
    ensures res.0.name == me.name && res.2 >= drawn
    ensures res.0.alive ==> me.alive
  {
    HardDrop(shapes, deck, me, opp, drawn, now, roll)
  }

  /** The actions that draw pieces or reach the opponent. */
  function Special(shapes: Shapes, deck: Deck, me: Player, opp: Player, drawn: nat,
                   action: Action, now: real, roll: bool): (res: (Player, Player, nat))
    requires ValidShapes(shapes) && Good(shapes, me) && Good(shapes, opp)
    requires action.Drop? || action.HoldPiece? || action.FlashOpp?
    ensures Good(shapes, res.0) && Good(shapes, res.1)
    ensures res.1 == opp || res.1 == opp.(freezeUntil := now + FreezeSecs)
    ensures res.0.name == me.name && res.2 >= drawn
    ensures res.0.alive ==> me.alive
  {
    if action.Drop? then DropInput(shapes, deck, me, opp, drawn, now, roll)
    else if action.HoldPiece? then
      var (me', d) := DoHold(shapes, deck, me, drawn, now);
      (me', opp, d)
    else
      var (me', opp') := Flash(me, opp, now);
      (me', opp', drawn)
  }

  /** An input from the first (`first`) or the second player. */
  function Input(shapes: Shapes, deck: Deck, m: Match, first: bool, action: Action, now: real, roll: bool)
    : (m': Match)
    requires ValidShapes(shapes) && MatchGood(shapes, m)
    ensures MatchGood(shapes, m')
    ensures m'.p1.name == m.p1.name && m'.p2.name == m.p2.name
    ensures m'.drawn >= m.drawn
    ensures (m'.p1.alive ==> m.p1.alive) && (m'.p2.alive ==> m.p2.alive)
    ensures first ==> m'.p2 == m.p2 || m'.p2 == m.p2.(freezeUntil := now + FreezeSecs)
    ensures !first ==> m'.p1 == m.p1 || m'.p1 == m.p1.(freezeUntil := now + FreezeSecs)
  {
    if first then
      var (a, b, d) := Act(shapes, deck, m.p1, m.p2, m.drawn, action, now, roll);
      Match(a, b, d)
    else
      var (b, a, d) := Act(shapes, deck, m.p2, m.p1, m.drawn, action, now, roll);
      Match(a, b, d)
  }

  /** A flash by an unfrozen player with a charge, against an unfrozen
      opponent, silences the opponent for two seconds: every input the
      opponent sends in that window is dropped. */
  lemma FlashSilencesOpponent(shapes: Shapes, deck: Deck, m: Match, now: real, later: real,
                              action: Action, roll: bool)
    requires ValidShapes(shapes) && MatchGood(shapes, m)
    requires m.p1.flashCharges > 0 && m.p1.freezeUntil <= now && m.p2.freezeUntil <= now
    requires now <= later < now + FreezeSecs && action != Gone
    ensures var m1 := Input(shapes, deck, m, true, FlashOpp, now, roll);
            && m1.p1.flashCharges == m.p1.flashCharges - 1
            && Input(shapes, deck, m1, false, action, later, roll) == m1
  {
  }

  /** The tick of one player, when that player is still alive. */
  function TickIfAlive(shapes: Shapes, deck: Deck, me: Player, opp: Player, drawn: nat, now: real, roll: bool)
    : (res: (Player, Player, nat))
    requires ValidShapes(shapes) && Good(shapes, me) && Good(shapes, opp)
    ensures Good(shapes, res.0) && Good(shapes, res.1)
    ensures !me.alive ==> res == (me, opp, drawn)
    ensures me.alive ==> res == Tick(shapes, deck, me, opp, drawn, now, roll)
    ensures res.0.alive ==> me.alive
    ensures res.1 == opp || res.1 == opp.(freezeUntil := now + FreezeSecs)
    ensures res.0.name == me.name && res.2 >= drawn
  {
    if me.alive then
      TickTouchesOpponentOnlyByFreeze(shapes, deck, me, opp, drawn, now, roll);
      Tick(shapes, deck, me, opp, drawn, now, roll)
    else (me, opp, drawn)
  }

  /** A tick keeps the player's name, draws forward, never revives, and
      reaches the opponent only through the power piece's freeze. */
  lemma TickTouchesOpponentOnlyByFreeze(shapes: Shapes, deck: Deck, me: Player, opp: Player, drawn: nat,
                                        now: real, roll: bool)
    requires ValidShapes(shapes) && Good(shapes, me) && Good(shapes, opp)
    ensures var res := Tick(shapes, deck, me, opp, drawn, now, roll);
            && Good(shapes, res.1)
            && (res.1 == opp || res.1 == opp.(freezeUntil := now + FreezeSecs))
            && res.0.name == me.name && res.2 >= drawn
            && (res.0.alive ==> me.alive)
  {
  }

  /** One pass of the tick loop: the first player ticks if alive, then the
      second if alive, against the first as it now stands. The match is
      over once at most one of them is alive. */
  function TickRound(shapes: Shapes, deck: Deck, m: Match, now: real, roll1: bool, roll2: bool)
    : (res: (Match, bool))
    requires ValidShapes(shapes) && MatchGood(shapes, m)
    ensures MatchGood(shapes, res.0)
    ensures res.0.p1.name == m.p1.name && res.0.p2.name == m.p2.name
    ensures res.0.drawn >= m.drawn
    ensures (res.0.p1.alive ==> m.p1.alive) && (res.0.p2.alive ==> m.p2.alive)
    ensures res.1 <==> !(res.0.p1.alive && res.0.p2.alive)
  {
    var (a1, b1, d1) := TickIfAlive(shapes, deck, m.p1, m.p2, m.drawn, now, roll1);
    var (b2, a2, d2) := TickIfAlive(shapes, deck, b1, a1, d1, now, roll2);
    (Match(a2, b2, d2), !(a2.alive && b2.alive))
  }

  /** A dead player's board no longer changes under the tick loop; only
      the opponent's power piece can still touch its freeze timer. */
  lemma DeadPlayersAreNotTicked(shapes: Shapes, deck: Deck, m: Match, now: real, roll1: bool, roll2: bool)
    requires ValidShapes(shapes) && MatchGood(shapes, m)
    ensures var m' := TickRound(shapes, deck, m, now, roll1, roll2).0;
            && (!m.p1.alive ==> m'.p1 == m.p1 || m'.p1 == m.p1.(freezeUntil := now + FreezeSecs))
            && (!m.p2.alive ==> m'.p2.board == m.p2.board && m'.p2.score == m.p2.score)
  {
  }

  /** input_loop never looks at `alive`: a dead but still connected,
      unfrozen player's HARD_DROP still locks its piece at the landing row,
      writing it into the board, clearing rows and crediting lines and
      score, while the player stays dead. */
  lemma DeadPlayerStillDrops(shapes: Shapes, deck: Deck, me: Player, opp: Player, drawn: nat,
                             now: real, roll: bool)
    requires ValidShapes(shapes) && Good(shapes, me) && Good(shapes, opp)
    requires !me.alive && me.active.Some? && me.freezeUntil <= now
    ensures var res := Act(shapes, deck, me, opp, drawn, Drop, now, roll);
            var landed := DropTo(shapes, me.board, me.active.value);
            var (board', cleared) := Settle(shapes, me.board, landed);
            && res.0.board == board'
            && res.0.lines == me.lines + |cleared|
            && res.0.score >= me.score + LineScore(|cleared|)
            && !res.0.alive
  {
    var res := Act(shapes, deck, me, opp, drawn, Drop, now, roll);
    assert res == Special(shapes, deck, me, opp, drawn, Drop, now, roll);
    assert res == HardDrop(shapes, deck, me, opp, drawn, now, roll);
    HardDropLocksAtLanding(shapes, deck, me, opp, drawn, now, roll);
  }

  /** The names of the players in `ps` whose `alive` flag is `alive`, in
      order. */
  function NamesWith(ps: seq<Player>, alive: bool): (names: seq<string>)
    ensures |names| <= |ps|
    ensures forall p :: p in ps && p.alive == alive ==> p.name in names
    ensures forall n :: n in names ==> exists p :: p in ps && p.alive == alive && p.name == n
  {
    if ps == [] then []
    else
      var rest := NamesWith(ps[1..], alive);
      assert forall p :: p in ps[1..] ==> p in ps;
      if ps[0].alive == alive then [ps[0].name] + rest else rest
  }

  /** The RESULT message: winners are the players still alive, losers the
      rest, each in seating order. */
  function Results(m: Match): (res: (seq<string>, seq<string>))
    ensures |res.0| <= 2 && |res.1| <= 2
    ensures res.0 == (if m.p1.alive then [m.p1.name] else []) + (if m.p2.alive then [m.p2.name] else [])
    ensures res.1 == (if m.p1.alive then [] else [m.p1.name]) + (if m.p2.alive then [] else [m.p2.name])
    ensures m.p1.name != m.p2.name ==>
              && (m.p1.name in res.0 <==> m.p1.alive) && (m.p1.name in res.1 <==> !m.p1.alive)
              && (m.p2.name in res.0 <==> m.p2.alive) && (m.p2.name in res.1 <==> !m.p2.alive)
  {
    var ps := [m.p1, m.p2];
    assert ps[1..] == [m.p2] && [m.p2][1..] == [];
    assert NamesWith([m.p2], true) == (if m.p2.alive then [m.p2.name] else []);
    assert NamesWith([m.p2], false) == (if m.p2.alive then [] else [m.p2.name]);
    (NamesWith(ps, true), NamesWith(ps, false))
  }

  /** Every player is a winner or a loser, never both. */
  lemma {:induction false} ResultsPartition(ps: seq<Player>)
    ensures |NamesWith(ps, true)| + |NamesWith(ps, false)| == |ps|
  {
    if ps != [] {
      ResultsPartition(ps[1..]);
    }
  }

  /** A match that the tick loop ends has at most one winner, and none
      when both players went down in the same round. */
  lemma OverMeansOneWinnerAtMost(shapes: Shapes, deck: Deck, m: Match, now: real, roll1: bool, roll2: bool)
    requires ValidShapes(shapes) && MatchGood(shapes, m)
    requires TickRound(shapes, deck, m, now, roll1, roll2).1
    ensures var m' := TickRound(shapes, deck, m, now, roll1, roll2).0;
            && |Results(m').0| <= 1
            && |Results(m').0| + |Results(m').1| == 2
  {
    var m' := TickRound(shapes, deck, m, now, roll1, roll2).0;
    ResultsPartition([m'.p1, m'.p2]);
  }
}

=== FILE: tetris_player.dfy ===
/** One Tetris player's state and the engine operations on it: spawning
    from the shared piece stream, moving, rotating, gravity, hard drop,
    locking with line clears, scoring, flash charges, the power piece, hold
    and flash. The piece stream, the power-up coin flips and the clock are
    parameters. */
module TetrisPlayer {
  import opened TetrisBoard

  const QueueLength: nat := 3
  const SpawnX: int := 3
  const FreezeSecs: real := 2.0
  const PowerBonus: nat := 50

  /** The piece `_next_piece` hands out on its k-th call, the power-up
      conversion included. */
  type Deck = nat -> char

  datatype Player = Player(
    name: string,
    board: Board,
    active: Option<Placement>,
    queue: seq<char>,
    alive: bool,
    score: nat,
    lines: nat,
    clearedRecent: seq<int>,
    freezeUntil: real,
    hold: Option<char>,
    holdUsed: bool,
    flashCharges: nat,
    flashGranted: nat,
    lastHoldAt: real,
    lastFlashAt: real)

  /** PlayerState(name): an empty board and nothing in play. */
  function NewPlayer(name: string): (ps: Player)
    ensures IsBoard(ps.board) && NoFullRow(ps.board)
    ensures ps.active.None? && ps.alive && ps.score == 0 && ps.lines == 0
    ensures ps.flashGranted == ps.lines / 2
  {
    Player(name, EmptyBoard(), None, [], true, 0, 0, [], 0.0, None, false, 0, 0, 0.0, 0.0)
  }

  /** What every operation keeps: a 20x10 board without full rows, flash
      charges granted for exactly lines / 2, and an active piece whose cells
      are all on the board (it may overlap blocks once the player is dead). */
  ghost predicate Good(shapes: Shapes, ps: Player)
  {
    && IsBoard(ps.board)
    && NoFullRow(ps.board)
    && ps.flashGranted == ps.lines / 2
    && (ps.active.Some? ==> AllOnBoard(Cells(shapes, ps.active.value)))
  }

  /** A placement that does not collide lies on the board. */
  lemma FreeIsOnBoard(shapes: Shapes, b: Board, pl: Placement)
    requires IsBoard(b) && !Blocked(shapes, b, pl)
    ensures AllOnBoard(Cells(shapes, pl))
  {
  }

  /** Every piece spawns on the board: columns 3..6, rows 0..3. */
  lemma SpawnOnBoard(shapes: Shapes, p: char)
    requires ValidShapes(shapes)
    ensures AllOnBoard(Cells(shapes, Placement(p, SpawnX, 0, 0)))
  {
    var pl := Placement(p, SpawnX, 0, 0);
    assert ShapeFits(Offsets(shapes, pl));
  }

  // ------------------------------------------------------------ spawning

  /** `while len(queue) < 3: queue.append(next_piece())`. */
  function Refill(queue: seq<char>, deck: Deck, drawn: nat): (res: (seq<char>, nat))
    ensures var (q, d) := res;
            && |q| == (if |queue| < QueueLength then QueueLength else |queue|)
            && d == drawn + (if |queue| < QueueLength then QueueLength - |queue| else 0)
            && q[..|queue|] == queue
            && forall k :: |queue| <= k < |q| ==> q[k] == deck(drawn + (k - |queue|))
    decreases QueueLength - |queue|
  {
    if |queue| >= QueueLength then (queue, drawn)
    else
      var (q, d) := Refill(queue + [deck(drawn)], deck, drawn + 1);
      assert q[..|queue|] == (queue + [deck(drawn)])[..|queue|];
      (q, d)
  }

  /** spawn_piece: the head of the refilled queue enters at (3, 0) in
      rotation 0, the hold flag is cleared, and a spawn that collides ends
      the player's game. */
  function Spawn(shapes: Shapes, deck: Deck, ps: Player, drawn: nat): (res: (Player, nat))
    requires ValidShapes(shapes) && IsBoard(ps.board)
    ensures var (ps', d) := res;
            var (q, d1) := Refill(ps.queue, deck, drawn);
            && d == d1
            && ps'.active == Some(Placement(q[0], SpawnX, 0, 0))
            && ps'.queue == q[1..]
            && |ps'.queue| >= QueueLength - 1
            && (ps.queue != [] ==> ps'.active.value.piece == ps.queue[0])
            && !ps'.holdUsed
            && (ps'.alive <==> ps.alive && !Blocked(shapes, ps.board, ps'.active.value))
            && ps' == ps.(active := ps'.active, queue := ps'.queue, holdUsed := false, alive := ps'.alive)
            && AllOnBoard(Cells(shapes, ps'.active.value))
  {
    var (q, d) := Refill(ps.queue, deck, drawn);
    assert ps.queue != [] ==> q[0] == q[..|ps.queue|][0];
    var pl := Placement(q[0], SpawnX, 0, 0);
    SpawnOnBoard(shapes, q[0]);
    (ps.(active := Some(pl), queue := q[1..], holdUsed := false,
         alive := ps.alive && !Blocked(shapes, ps.board, pl)), d)
  }

  // ------------------------------------------------------------ locking

  /** The points for clearing 0..4 rows at once. */
  function LineScore(n: nat): nat
    requires n <= 4
  {
    [0, 100, 300, 500, 800][n]
  }

  /** Clearing more rows at once is worth more than clearing them one
      lock at a time. */
  lemma LineScoreRewardsTogether(n: nat)
    requires 1 < n <= 4
    ensures LineScore(n) > n * LineScore(1)
    ensures LineScore(n) > LineScore(n - 1)
  {
  }

  /** _grant_flash_charges: one charge per two lines cleared, counted
      cumulatively, so no line pays twice. */
  function GrantFlash(ps: Player): (ps': Player)
    ensures ps'.flashGranted == (if ps.lines / 2 > ps.flashGranted then ps.lines / 2 else ps.flashGranted)
    ensures ps'.flashCharges == ps.flashCharges + (ps'.flashGranted - ps.flashGranted)
    ensures ps' == ps.(flashGranted := ps'.flashGranted, flashCharges := ps'.flashCharges)
  {
    var granted := ps.lines / 2;
    if granted > ps.flashGranted then
      ps.(flashCharges := ps.flashCharges + (granted - ps.flashGranted), flashGranted := granted)
    else ps
  }

  lemma GrantFlashIdempotent(ps: Player)
    ensures GrantFlash(GrantFlash(ps)) == GrantFlash(ps)
  {
  }

  /** _apply_power_on_lock: locking the power piece is worth 50 points and,
      when the coin comes up (`freeze`), freezes the opponent for two
      seconds from `now`. */
  function ApplyPower(me: Player, opp: Player, p: char, now: real, freeze: bool): (Player, Player)
  {
    if p != PowerPiece then (me, opp)
    else
      var me' := me.(score := me.score + PowerBonus);
      if freeze then (me', opp.(freezeUntil := now + FreezeSecs)) else (me', opp)
  }

  /** The board half of lock_piece: the piece is written in and full rows
      are cleared; at most four go, since a piece spans four rows. */
  function Settle(shapes: Shapes, b: Board, pl: Placement): (res: (Board, seq<int>))
    requires ValidShapes(shapes) && IsBoard(b) && NoFullRow(b) && AllOnBoard(Cells(shapes, pl))
    ensures res == ClearRows(Place(b, Cells(shapes, pl), pl.piece))
    ensures IsBoard(res.0) && NoFullRow(res.0) && |res.1| <= 4
  {
    var cells := Cells(shapes, pl);
    LockedRowsNearPiece(shapes, pl, cells);
    ClearedAtMostFour(b, cells, pl.piece, pl.y);
    ClearRows(Place(b, cells, pl.piece))
  }

  /** The bookkeeping half of lock_piece: lines and score for `n` cleared
      rows, and flash charges when any were cleared. */
  function Credit(ps: Player, board: Board, cleared: seq<int>): (ps': Player)
    requires |cleared| <= 4 && ps.flashGranted == ps.lines / 2
    ensures ps'.board == board && ps'.clearedRecent == cleared
    ensures ps'.lines == ps.lines + |cleared|
    ensures ps'.score == ps.score + LineScore(|cleared|)
    ensures ps'.flashGranted == ps'.lines / 2
    ensures ps'.flashCharges == ps.flashCharges + (ps'.lines / 2 - ps.lines / 2)
    ensures ps' == ps.(board := board, clearedRecent := cleared, lines := ps'.lines, score := ps'.score,
                       flashGranted := ps'.flashGranted, flashCharges := ps'.flashCharges)
  {
    var ps1 := ps.(board := board, lines := ps.lines + |cleared|, score := ps.score + LineScore(|cleared|),
                   clearedRecent := cleared);
    if |cleared| > 0 then GrantFlash(ps1) else ps1
  }

  /** lock_piece: the active piece is written into the board, full rows are
      cleared, lines, score and flash charges are credited, the power piece
      takes effect, and the next piece spawns. */
  function Lock(shapes: Shapes, deck: Deck, ps: Player, opp: Player, drawn: nat, now: real, freeze: bool)
    : (res: (Player, Player, nat))
    requires ValidShapes(shapes) && Good(shapes, ps) && ps.active.Some?
    ensures var pl := ps.active.value;
            var (board', cleared) := Settle(shapes, ps.board, pl);
            && Good(shapes, res.0)
            && res.0.board == board'
            && res.0.clearedRecent == cleared
            && res.0.lines == ps.lines + |cleared|
            && res.0.score == ps.score + LineScore(|cleared|) + (if pl.piece == PowerPiece then PowerBonus else 0)
            && res.0.flashCharges == ps.flashCharges + (res.0.lines / 2 - ps.lines / 2)
            && res.1 == (if pl.piece == PowerPiece && freeze then opp.(freezeUntil := now + FreezeSecs) else opp)
            && res.0.hold == ps.hold && !res.0.holdUsed
            && (res.0.alive ==> ps.alive)
  ensures var (q, d1) := Refill(ps.queue, deck, drawn);
          && res.2 == d1
          && res.0.active == Some(Placement(q[0], SpawnX, 0, 0))
          && res.0.queue == q[1..]
          && (res.0.alive <==> ps.alive && !Blocked(shapes, res.0.board, res.0.active.value))
  {
    var pl := ps.active.value;
    var (board', cleared) := Settle(shapes, ps.board, pl);
    var ps2 := Credit(ps, board', cleared);
    var (ps3, opp') := ApplyPower(ps2, opp, pl.piece, now, freeze);
    var (ps4, drawn') := Spawn(shapes, deck, ps3, drawn);
    (ps4, opp', drawn')
  }

  /** lock_piece touches neither the player's name nor its freeze and
      hold/flash timers. */
  lemma LockKeepsTimers(shapes: Shapes, deck: Deck, ps: Player, opp: Player, drawn: nat, now: real, freeze: bool)
    requires ValidShapes(shapes) && Good(shapes, ps) && ps.active.Some?
    ensures var res := Lock(shapes, deck, ps, opp, drawn, now, freeze);
            && res.0.name == ps.name && res.0.freezeUntil == ps.freezeUntil
            && res.0.lastHoldAt == ps.lastHoldAt && res.0.lastFlashAt == ps.lastFlashAt
  {
  }

  lemma LockedRowsNearPiece(shapes: Shapes, pl: Placement, cells: seq<(int, int)>)
    requires ValidShapes(shapes) && cells == Cells(shapes, pl)
    ensures forall k :: 0 <= k < |cells| ==> pl.y <= cells[k].1 < pl.y + 4
  {
    assert ShapeFits(Offsets(shapes, pl));
  }

  // ------------------------------------------------------------ moves

  /** The common step of move and rotate: the active piece goes to
      `target` when that does not collide, and nothing changes otherwise. */
  function TryPlace(shapes: Shapes, ps: Player, target: Placement): (ps': Player)
    requires Good(shapes, ps)
    ensures Good(shapes, ps')
    ensures Blocked(shapes, ps.board, target) ==> ps' == ps
    ensures !Blocked(shapes, ps.board, target) ==> ps' == ps.(active := Some(target))
  {
    if Blocked(shapes, ps.board, target) then ps
    else
      FreeIsOnBoard(shapes, ps.board, target);
      ps.(active := Some(target))
  }

  /** move(dx): the piece shifts only when the target does not collide. */
  function Move(shapes: Shapes, ps: Player, dx: int): (ps': Player)
    requires Good(shapes, ps)
    ensures Good(shapes, ps')
    ensures ps' == ps || (ps'.active.Some? && ps.active.Some?
                          && ps'.active.value == ps.active.value.(x := ps.active.value.x + dx)
                          && !Blocked(shapes, ps.board, ps'.active.value)
                          && ps' == ps.(active := ps'.active))
    ensures ps.active.Some? && !Blocked(shapes, ps.board, ps.active.value.(x := ps.active.value.x + dx))
            ==> ps'.active == Some(ps.active.value.(x := ps.active.value.x + dx))
  {
    match ps.active
    case None => ps
    case Some(pl) =>
      TryPlace(shapes, ps, pl.(x := pl.x + dx))
  }

  /** The rotation after one clockwise turn; the power piece stays at 0. */
  function NextRot(pl: Placement): (r: nat)
    ensures r < 4
  {
    if pl.piece != PowerPiece then (pl.rot + 1) % 4 else 0
  }

  /** rotate: the piece turns only when the target does not collide. */
  function Rotate(shapes: Shapes, ps: Player): (ps': Player)
    requires Good(shapes, ps)
    ensures Good(shapes, ps')
    ensures ps' == ps || (ps'.active.Some? && ps.active.Some?
                          && ps'.active.value == ps.active.value.(rot := NextRot(ps.active.value))
                          && !Blocked(shapes, ps.board, ps'.active.value)
                          && ps' == ps.(active := ps'.active))
    ensures ps.active.Some? && !Blocked(shapes, ps.board, ps.active.value.(rot := NextRot(ps.active.value)))
            ==> ps'.active == Some(ps.active.value.(rot := NextRot(ps.active.value)))
  {
    match ps.active
    case None => ps
    case Some(pl) =>
      TryPlace(shapes, ps, pl.(rot := NextRot(pl)))
  }

  /** Rotating the power piece, which always sits at rotation 0, changes
      nothing. */
  lemma PowerPieceDoesNotTurn(shapes: Shapes, ps: Player)
    requires Good(shapes, ps) && ps.active.Some?
    requires ps.active.value.piece == PowerPiece && ps.active.value.rot == 0
    ensures Rotate(shapes, ps) == ps
  {
    assert ps.active.value.(rot := NextRot(ps.active.value)) == ps.active.value;
    assert ps.(active := Some(ps.active.value)) == ps;
  }


  function Succ(r: nat): (r': nat)
    requires r < 4
    ensures r' < 4 && r' == (r + 1) % 4
  {
    if r == 3 then 0 else r + 1
  }

  /** One turn of an ordinary piece whose next orientation is free. */
  lemma TurnOnce(shapes: Shapes, ps: Player, pl: Placement)
    requires Good(shapes, ps) && ps.active == Some(pl) && pl.piece != PowerPiece && pl.rot < 4
    requires !Blocked(shapes, ps.board, pl.(rot := Succ(pl.rot)))
    ensures Rotate(shapes, ps) == ps.(active := Some(pl.(rot := Succ(pl.rot))))
  {
  }

  /** Four turns of an unobstructed ordinary piece bring it back to where
      it started. */
  lemma FourTurnsComeBack(shapes: Shapes, ps: Player)
    requires Good(shapes, ps) && ps.active.Some? && ps.active.value.piece != PowerPiece
    requires ps.active.value.rot < 4
    requires forall r: nat :: r < 4 ==> !Blocked(shapes, ps.board, ps.active.value.(rot := r))
    ensures Rotate(shapes, Rotate(shapes, Rotate(shapes, Rotate(shapes, ps)))) == ps
  {
    var pl := ps.active.value;
    var p1 := pl.(rot := Succ(pl.rot));
    var p2 := p1.(rot := Succ(p1.rot));
    var p3 := p2.(rot := Succ(p2.rot));
    assert p3.(rot := Succ(p3.rot)) == pl;
    TurnOnce(shapes, ps, pl);
    var ps1 := ps.(active := Some(p1));
    TurnOnce(shapes, ps1, p1);
    var ps2 := ps.(active := Some(p2));
    TurnOnce(shapes, ps2, p2);
    var ps3 := ps.(active := Some(p3));
    TurnOnce(shapes, ps3, p3);
  }

  /** Moving one column right and back leaves the player as it was, when
      the first move went through. */
  lemma MoveThereAndBack(shapes: Shapes, ps: Player)
    requires Good(shapes, ps) && ps.active.Some? && !Blocked(shapes, ps.board, ps.active.value)
    requires Move(shapes, ps, 1) != ps
    ensures Move(shapes, Move(shapes, ps, 1), -1) == ps
  {
    var pl := ps.active.value;
    assert pl.(x := pl.x + 1).(x := pl.x + 1 - 1) == pl;
  }

  // ------------------------------------------------------------ gravity

  function At(pl: Placement, y: int): Placement
  {
    Placement(pl.piece, pl.x, y, pl.rot)
  }

  /** A free placement one row down means there is a row below. */
  lemma RoomBelow(shapes: Shapes, b: Board, pl: Placement)
    requires ValidShapes(shapes) && IsBoard(b) && !Blocked(shapes, b, At(pl, pl.y + 1))
    ensures pl.y + 1 < Height
  {
    var down := At(pl, pl.y + 1);
    assert ShapeFits(Offsets(shapes, down));
    assert OnBoard(Cells(shapes, down)[0]);
  }

  /** The hard-drop loop: from `pl`, keep going down while the next row
      down is free; the result is the last row before a collision. */
  function DropTo(shapes: Shapes, b: Board, pl: Placement): (r: Placement)
    requires ValidShapes(shapes) && IsBoard(b)
    ensures r == At(pl, r.y) && r.y >= pl.y
    ensures Blocked(shapes, b, At(pl, r.y + 1))
    ensures r.y > pl.y ==> !Blocked(shapes, b, r)
    decreases if pl.y < Height then Height - pl.y else 0
  {
    var down := At(pl, pl.y + 1);
    if Blocked(shapes, b, down) then
      var r := At(pl, pl.y);
      assert At(pl, r.y + 1) == down;
      r
    else
      RoomBelow(shapes, b, pl);
      var r := DropTo(shapes, b, down);
      assert At(down, r.y + 1) == At(pl, r.y + 1);
      r
  }

  /** Every row the hard drop passes through on the way down is free. */
  lemma {:induction false} DropPathFree(shapes: Shapes, b: Board, pl: Placement, y: int)
    requires ValidShapes(shapes) && IsBoard(b)
    requires pl.y < y <= DropTo(shapes, b, pl).y
    ensures !Blocked(shapes, b, At(pl, y))
    decreases if pl.y < Height then Height - pl.y else 0
  {
    var down := At(pl, pl.y + 1);
    if y > pl.y + 1 {
      RoomBelow(shapes, b, pl);
      DropPathFree(shapes, b, down, y);
      assert At(down, y) == At(pl, y);
    }
  }

  /** tick: the piece falls one row when that row is free, else it locks. */
  function Tick(shapes: Shapes, deck: Deck, ps: Player, opp: Player, drawn: nat, now: real, freeze: bool)
    : (res: (Player, Player, nat))
    requires ValidShapes(shapes) && Good(shapes, ps)
    ensures Good(shapes, res.0)
    ensures ps.active.None? ==> res == (ps, opp, drawn)
    ensures ps.active.Some? && !Blocked(shapes, ps.board, At(ps.active.value, ps.active.value.y + 1))
            ==> res == (ps.(active := Some(At(ps.active.value, ps.active.value.y + 1))), opp, drawn)
    ensures ps.active.Some? && Blocked(shapes, ps.board, At(ps.active.value, ps.active.value.y + 1))
            ==> res == Lock(shapes, deck, ps, opp, drawn, now, freeze)
  {
    if ps.active.None? then (ps, opp, drawn)
    else
      var down := At(ps.active.value, ps.active.value.y + 1);
      if Blocked(shapes, ps.board, down) then Lock(shapes, deck, ps, opp, drawn, now, freeze)
      else
        FreeIsOnBoard(shapes, ps.board, down);
        (ps.(active := Some(down)), opp, drawn)
  }

  /** A hard drop writes the piece into the board at its landing row: the
      board becomes the one Settle gives there, and lines and score are
      credited for the cleared rows. */
  lemma HardDropLocksAtLanding(shapes: Shapes, deck: Deck, ps: Player, opp: Player, drawn: nat,
                               now: real, freeze: bool)
    requires ValidShapes(shapes) && Good(shapes, ps) && ps.active.Some?
    ensures var res := HardDrop(shapes, deck, ps, opp, drawn, now, freeze);
            var landed := DropTo(shapes, ps.board, ps.active.value);
            var (board', cleared) := Settle(shapes, ps.board, landed);
            && res.0.board == board'
            && res.0.lines == ps.lines + |cleared|
            && res.0.score >= ps.score + LineScore(|cleared|)
            && (res.0.alive ==> ps.alive)
  {
    var pl := ps.active.value;
    var landed := DropTo(shapes, ps.board, pl);
    if landed.y > pl.y {
      FreeIsOnBoard(shapes, ps.board, landed);
    }
    var ps1 := ps.(active := Some(landed));
    assert Good(shapes, ps1);
    assert HardDrop(shapes, deck, ps, opp, drawn, now, freeze) == Lock(shapes, deck, ps1, opp, drawn, now, freeze);
  }

  /** hard_drop: the piece goes to the lowest row it can reach straight
      down and locks there. */
  function HardDrop(shapes: Shapes, deck: Deck, ps: Player, opp: Player, drawn: nat, now: real, freeze: bool)
    : (res: (Player, Player, nat))
    requires ValidShapes(shapes) && Good(shapes, ps)
    ensures Good(shapes, res.0)
    ensures ps.active.None? ==> res == (ps, opp, drawn)
    ensures ps.active.Some? ==>
              var landed := DropTo(shapes, ps.board, ps.active.value);
              res == Lock(shapes, deck, ps.(active := Some(landed)), opp, drawn, now, freeze)
  {
    match ps.active
    case None => (ps, opp, drawn)
    case Some(pl) =>
      var landed := DropTo(shapes, ps.board, pl);
      assert AllOnBoard(Cells(shapes, landed)) by {
        if landed.y > pl.y {
          FreeIsOnBoard(shapes, ps.board, landed);
        }
      }
      Lock(shapes, deck, ps.(active := Some(landed)), opp, drawn, now, freeze)
  }

  /** A piece that ticks down as far as it can lands where a hard drop puts
      it: the tick that finds the next row blocked is at the hard-drop row. */
  lemma TickAtLandingLocks(shapes: Shapes, deck: Deck, ps: Player, opp: Player, drawn: nat, now: real, freeze: bool)
    requires ValidShapes(shapes) && Good(shapes, ps) && ps.active.Some?
    requires DropTo(shapes, ps.board, ps.active.value) == ps.active.value
    ensures Tick(shapes, deck, ps, opp, drawn, now, freeze) == HardDrop(shapes, deck, ps, opp, drawn, now, freeze)
  {
    var pl := ps.active.value;
    assert DropTo(shapes, ps.board, pl).y == pl.y;
    assert Blocked(shapes, ps.board, At(pl, pl.y + 1));
    assert ps.(active := Some(pl)) == ps;
  }

  // ------------------------------------------------------------ hold, flash

  /** do_hold: once per spawn. With nothing held, the current piece is
      stored and the next one spawns; otherwise the held piece swaps in at
      the spawn point, and a collision there ends the player's game. */
  function DoHold(shapes: Shapes, deck: Deck, ps: Player, drawn: nat, now: real): (res: (Player, nat))
    requires ValidShapes(shapes) && Good(shapes, ps)
    ensures var (ps', d) := res;
            && Good(shapes, ps')
            && (ps.active.None? || ps.holdUsed ==> res == (ps, drawn))
            && (ps.active.Some? && !ps.holdUsed ==>
                  && ps'.hold == Some(ps.active.value.piece)
                  && ps'.holdUsed && ps'.lastHoldAt == now
                  && ps'.board == ps.board && ps'.score == ps.score && ps'.lines == ps.lines
                  && (ps.hold.Some? ==>
                        && ps'.active == Some(Placement(ps.hold.value, SpawnX, 0, 0))
                        && d == drawn && ps'.queue == ps.queue
                        && (ps'.alive <==> ps.alive && !Blocked(shapes, ps.board, ps'.active.value)))
                  && (ps.hold.None? ==>
                        var (q, d1) := Refill(ps.queue, deck, drawn);
                        && d == d1
                        && ps'.active == Some(Placement(q[0], SpawnX, 0, 0))
                        && ps'.queue == q[1..]
                        && (ps.queue != [] ==> ps'.active.value.piece == ps.queue[0])
                        && (ps'.alive <==> ps.alive && !Blocked(shapes, ps.board, ps'.active.value))))
  {
    if ps.active.None? || ps.holdUsed then (ps, drawn)
    else
      var cur := ps.active.value.piece;
      match ps.hold
      case None =>
        var (ps1, d) := Spawn(shapes, deck, ps.(hold := Some(cur), active := None), drawn);
        (ps1.(holdUsed := true, lastHoldAt := now), d)
      case Some(held) =>
        var pl := Placement(held, SpawnX, 0, 0);
        SpawnOnBoard(shapes, held);
        (ps.(hold := Some(cur), active := Some(pl), alive := ps.alive && !Blocked(shapes, ps.board, pl),
             holdUsed := true, lastHoldAt := now), drawn)
  }

  /** A second hold before the next spawn does nothing. */
  lemma HoldOncePerSpawn(shapes: Shapes, deck: Deck, ps: Player, drawn: nat, now: real, later: real)
    requires ValidShapes(shapes) && Good(shapes, ps)
    ensures var (ps', d) := DoHold(shapes, deck, ps, drawn, now);
            DoHold(shapes, deck, ps', d, later) == (ps', d)
  {
  }

  /** The FLASH action: spend a charge to freeze an opponent who is not
      frozen already; otherwise nothing happens. */
  function Flash(me: Player, opp: Player, now: real): (Player, Player)
  {
    if me.flashCharges > 0 && opp.freezeUntil <= now then
      (me.(flashCharges := me.flashCharges - 1, lastFlashAt := now), opp.(freezeUntil := now + FreezeSecs))
    else (me, opp)
  }

  /** A flash spends a charge exactly when a charge is left and the
      opponent's freeze has run out, and then it moves that freeze forward;
      it spends at most one charge, and apart from the charge, the flash
      time and the freeze it touches nothing. Against an opponent who is
      still frozen, or without a charge, nothing changes. */
  lemma FlashSpendsIffFreezes(me: Player, opp: Player, now: real)
    ensures var (me', opp') := Flash(me, opp, now);
            && (me'.flashCharges < me.flashCharges <==> me.flashCharges > 0 && opp.freezeUntil <= now)
            && (!(me.flashCharges > 0 && opp.freezeUntil <= now) ==> me' == me && opp' == opp)
            && (me'.flashCharges < me.flashCharges ==>
                  && me' == me.(flashCharges := me.flashCharges - 1, lastFlashAt := now)
                  && opp' == opp.(freezeUntil := now + FreezeSecs))
            && (me'.flashCharges < me.flashCharges <==> opp'.freezeUntil > opp.freezeUntil)
            && me.flashCharges - 1 <= me'.flashCharges <= me.flashCharges
            && (opp'.freezeUntil > opp.freezeUntil ==> opp'.freezeUntil > now)
            && opp'.board == opp.board && opp'.score == opp.score && opp'.alive == opp.alive
            && me'.board == me.board && me'.score == me.score
  {
  }

  /** Two flashes at the same instant spend only one charge: the first
      freezes the opponent, and the second finds it frozen. */
  lemma FlashDoesNotStack(me: Player, opp: Player, now: real)
    requires me.flashCharges > 0 && opp.freezeUntil <= now
    ensures var (me1, opp1) := Flash(me, opp, now);
            Flash(me1, opp1, now) == (me1, opp1)
  {
  }
}

=== FILE: tetris_proto.dfy ===
/** FramedSocket of the real-time game: the same 4-byte big-endian header
    as the lobby, a 65536-byte ceiling, end-of-stream raised as a
    ConnectionError, and the payload written in a second call only when
    it is non-empty. */
module TetrisProto {
  import opened Bytes

  const MaxFrame: nat := 65536

  /** Python accepts bytes, bytearray and memoryview; anything else is a
      TypeError. */
  datatype Data = BytesLike(bytes: seq<byte>) | NotBytes

  datatype SendOutcome = Written(writes: seq<seq<byte>>) | TypeError | FrameTooLarge

  /** The bytes all the writes of one send put on the wire. */
  function Wire(writes: seq<seq<byte>>): seq<byte>
  {
    if writes == [] then [] else writes[0] + Wire(writes[1..])
  }

  function SendRaw(data: Data): (r: SendOutcome)
    ensures r.TypeError? <==> data.NotBytes?
    ensures r.FrameTooLarge? <==> data.BytesLike? && |data.bytes| > MaxFrame
    ensures r.Written? ==>
              && |r.writes| == (if |data.bytes| > 0 then 2 else 1)
              && |r.writes[0]| == HeaderSize
              && FromBigEndian(r.writes[0]) == |data.bytes|
              && Wire(r.writes) == r.writes[0] + data.bytes
  {
    match data
    case NotBytes => TypeError
    case BytesLike(b) =>
      if |b| > MaxFrame then FrameTooLarge
      else
        var header := Be32(|b|);
        if |b| > 0 then
          assert Wire([header, b]) == header + b by {
            assert Wire([header, b][1..]) == b + Wire([]);
          }
          Written([header, b])
        else
          assert Wire([header]) == header + Wire([]);
          Written([header])
  }

  datatype RecvOutcome = ConnectionError | InvalidFrameLength(length: nat) | Frame(payload: seq<byte>, rest: seq<byte>)

  /** _recvn: exactly n bytes, or ConnectionError when the stream ends. */
  function RecvN(stream: seq<byte>, n: nat): (r: RecvOutcome)
    ensures r.ConnectionError? <==> |stream| < n
    ensures r.Frame? ==> |r.payload| == n && r.payload + r.rest == stream
    ensures !r.InvalidFrameLength?
  {
    match ReadExact(stream, n)
    case Short => ConnectionError
    case Got(d, rest) => Frame(d, rest)
  }

  function RecvRaw(stream: seq<byte>): (r: RecvOutcome)
    ensures |stream| < HeaderSize ==> r.ConnectionError?
    ensures r.InvalidFrameLength? <==>
              |stream| >= HeaderSize
              && (FromBigEndian(stream[..HeaderSize]) == 0 || FromBigEndian(stream[..HeaderSize]) > MaxFrame)
    ensures r.Frame? ==>
              0 < |r.payload| <= MaxFrame
              && |r.payload| == FromBigEndian(stream[..HeaderSize])
              && stream == stream[..HeaderSize] + r.payload + r.rest
  {
    match RecvN(stream, HeaderSize)
    case Frame(header, afterHeader) =>
      var length := FromBigEndian(header);
      if length <= 0 || length > MaxFrame then InvalidFrameLength(length)
      else RecvN(afterHeader, length)
    case other => other
  }

  /** A frame of 1..65536 bytes survives the trip and nothing after it is
      consumed. */
  lemma RoundTrip(payload: seq<byte>, tail: seq<byte>)
    requires 0 < |payload| <= MaxFrame
    ensures SendRaw(BytesLike(payload)).Written?
    ensures RecvRaw(Wire(SendRaw(BytesLike(payload)).writes) + tail) == Frame(payload, tail)
  {
    var writes := SendRaw(BytesLike(payload)).writes;
    var stream := Wire(writes) + tail;
    assert stream[..HeaderSize] == writes[0];
    assert stream[HeaderSize..] == payload + tail;
  }

  /** A zero-length frame can be sent but not received. */
  lemma EmptyFrameRefused(tail: seq<byte>)
    ensures SendRaw(BytesLike([])).Written?
    ensures RecvRaw(Wire(SendRaw(BytesLike([])).writes) + tail) == InvalidFrameLength(0)
  {
    var writes := SendRaw(BytesLike([])).writes;
    var stream := Wire(writes) + tail;
    assert stream[..HeaderSize] == writes[0];
  }
}
